=== FILE: README.md ===
# Prep-Talk core in Dafny

Prep-Talk is a speech-coaching web application. A speaker gives a speech
sample in one of three ways: a live transcript from the browser's speech
recognition, a recording, or an uploaded audio file. The sample is sent with a
mode to a hosted model, which returns metrics, per-criterion scores and
feedback. The result can be exported as a PDF report. In Interview mode the
speaker first uploads a résumé; two extraction calls turn it into text and
structured data, and a third call generates at most three interview questions
with ideal answers.

This project models the logic around those calls. The calls themselves are
parameters.

- **Schemas.** `schemas.dfy` holds the centralised request and result schemas.
  The `Schemas` module states them as validity predicates over a small JSON
  value. The `SchemaCodec` module holds typed records, encoders, and lemmas
  that say exactly when an encoded record is valid. It also decodes the
  question list, with a round trip.
- **The analysis flow.** `analyze_flow.dfy` covers the flow's own copy of the
  schemas (its mode enumeration differs), the `isAudio` test, and the choice of
  prompt framing. It also models validate–call–validate around the model.
- **Live transcription.** `transcription.dfy` models the fold over recognition
  events: a final-text accumulator plus an interim part that is recomputed on
  each event. It also classifies recognition error codes.
- **The main page.** `session.dfy` models `src/app/page.tsx` as an immutable
  state record with one pure function per handler:
  - input handlers, the live-sample effect and mode changes;
  - the two-call résumé commit and question generation;
  - the request builder and its rejection reasons.

  `session_laws.dfy` adds an event-step relation, the invariants the handlers
  keep, and the consequences of the page's requests meeting the flow.
- **The older client.** `client_session.dfy` and `client_laws.dfy` model the
  same things for `src/components/speech-analysis-client.tsx`. That includes
  its Interview→"Practice Mode" remap and its accordion selection.
  `accordion.dfy` models the `item-k` parsing with `parseInt` semantics.
- **The stand-alone input component.** `speech_input.dfy` models
  `src/components/speech-input.tsx`: forwarding the sample to the parent, audio
  blobs, and clearing.
- **The PDF report.** `report.dfy` models the layout of `src/lib/pdf.ts` as a
  list of cursor operations. `grouping.dfy` models the group-by-category
  reduce. `report_laws.dfy` proves several things about the layout:
  - the page-break rule;
  - the reading order of everything placed;
  - the header's fixed height;
  - exactly which sections, metric lines and category headings the report
    draws.

Outside code is modelled as follows:
- Every service call is a function parameter that returns `None` when it
  throws: the analysis, the résumé extractions, question generation, and line
  wrapping (`splitTextToSize`).
- Browser callbacks are events: speech-recognition results and errors,
  recorder chunks, and the recorder stop.
- Base64 encoding is an uninterpreted string inside `Blob`.

## Model

| member | source | states |
|---|---|---|
| SchemaCodec.RequestValidIff | src/ai/schemas.ts:41-46 | An encoded analysis request is valid exactly when its mode is in the enumeration. The sample is a string and the question and perfect answer are optional strings, so nothing else can fail. |
| SchemaCodec.MetadataValidIff | src/ai/schemas.ts:50-60 | Encoded metadata is valid iff paceScore, clarityScore and pausePercentage all lie in [0,100]. The other numbers are unconstrained and audioDurationSeconds is optional. |
| SchemaCodec.SegmentsValidIff | src/ai/schemas.ts:36-39 | An encoded segment list is valid iff every segment's type is default, filler or pause. |
| SchemaCodec.CriteriaValidIff | src/ai/schemas.ts:62-71 | An encoded criteria list is valid iff every criterion has a category from the three-category enumeration, a name from the fifteen-criteria enumeration, and a score in [0,10]. The comparison is optional. |
| SchemaCodec.OutputCoreValidIff | src/ai/schemas.ts:49-73 | The shared part of the output is valid iff the metadata, segments and criteria are in range and totalScore is in [0,100]. highlightedTranscription may be absent. |
| SchemaCodec.OutputValidIff | src/ai/schemas.ts:49-75 | The centralised output schema also requires suggestedSpeech, so a result without one is refused. |
| SchemaCodec.ResumeInfoAlwaysValid | src/ai/schemas.ts:90-120 | Every typed résumé record encodes to a valid ExtractedResumeInfo. Its sections may be absent, and each entry carries its required fields. |
| SchemaCodec.ResumeSectionsOptionalEntriesNot | src/ai/schemas.ts:90-106 | The empty object is a valid résumé, because every section is optional. An experience entry without a company is invalid, because jobTitle, company and responsibilities are required. |
| SchemaCodec.DecodeQuestions | src/ai/schemas.ts:151-162 | Decoding succeeds exactly on a valid questions output. A successful decode has at most three questions, one per JSON item, each carrying that item's question and answer. |
| SchemaCodec.QuestionsRoundTrip | src/ai/schemas.ts:157-162 | Encoding then decoding gives back any list of at most three questions. A longer list is refused by the `.max(3)` bound. |
| SchemaCodec.TypedResumeRequestsValid | src/ai/schemas.ts:81-87 | A request built from the typed records always satisfies the extraction input schema and the question-generation input schema. |
| AnalyzeFlow.PromptFraming | src/ai/flows/analyze-speech.ts:95-102 | The evaluator framing is chosen exactly when perfectAnswer is present and non-empty, which is Handlebars truthiness. |
| AnalyzeFlow.RunFlow | src/ai/flows/analyze-speech.ts:135-146 | The flow yields a result iff the mode is in its enumeration and the model answers with an in-range result. That result is the model's answer for the computed isAudio flag. |
| AnalyzeFlow.FlowOutputOmitsSuggestion | src/ai/flows/analyze-speech.ts:56-81 | The flow's output schema accepts exactly the in-range results. A result without suggestedSpeech passes it but fails the centralised schema. |
| AnalyzeFlow.DataUriIsAudioIff | src/ai/flows/analyze-speech.ts:142 | A blob's data URI passes the `data:audio` test iff the blob's MIME type starts with "audio". |
| AnalyzeFlow.RecordingIsAudio | src/ai/flows/analyze-speech.ts:109-113 | A browser recording (audio/webm) is always handed to the model as media. |
| AnalyzeFlow.RehearsalRefused | src/ai/flows/analyze-speech.ts:47-52 | The flow's enumeration (Presentation, Interview, Practice) refuses every "Rehearsal Mode" request, whatever the model would answer. |
| AnalyzeFlow.AnalyzeSpeechShared | src/ai/schemas.ts:41-46 | With the shared enumeration, any request whose mode is listed gets a result iff the model answers in range. |
| Transcription.HandleResult | src/app/page.tsx:161-171 | One recognition event appends the final texts from resultIndex onward to the accumulator. The display is that accumulator followed by this event's interim texts. |
| Transcription.RunEventsAccumulates | src/app/page.tsx:161-171 | After a sequence of events, the accumulator is the old accumulator followed by every event's final text, in order. |
| Transcription.LastInterimOnly | src/components/speech-input.tsx:103-114 | After a sequence of events, the display holds only the last event's interim text; earlier interim text is gone. |
| Transcription.AccumulatorGrows | src/components/speech-input.tsx:103-114 | Recognition events only extend the accumulator, which always starts with its earlier value. |
| Transcription.ClassifyError | src/app/page.tsx:177-196 | no-speech, aborted and network give no notice. not-allowed and service-not-allowed give the permission notice. Every other code gives a generic notice naming it, and each direction holds. |
| Session.Sync | src/app/page.tsx:204-208 | The live-sample effect runs only when the transcript or the tab changed. On the live tab it then sets the sample to the transcript; on other tabs it leaves it alone. |
| Session.Init | src/app/page.tsx:104-131 | The page starts in Presentation mode on the live tab, and the mount effect sets the sample to the empty transcript. |
| Session.OnResult | src/app/page.tsx:161-171 | The page's accumulator gains the event's final text, and the transcript is the accumulator followed by the interim text. |
| Session.OnRecognitionError | src/app/page.tsx:177-196 | Every error code stops listening and changes nothing else. The notice follows the three-way classification in both directions. |
| Session.ToggleListening | src/app/page.tsx:219-239 | Without a recognizer nothing changes. Otherwise listening flips, and starting resets both the transcript and the accumulator to "". |
| Session.StopRecording | src/app/page.tsx:267-272 | A recording recorder is stopped: it now owes its stop callback and isRecording is false, and nothing else changes. Stopping does nothing when no recorder is recording. |
| Session.OnEnd | src/app/page.tsx:173-175 | When recognition ends, listening stops and nothing else changes. |
| Session.EditTranscript | src/app/page.tsx:423-426 | Typing is ignored while listening or without recognition. Otherwise the transcript becomes the typed text, and on the live tab a changed text becomes the sample. |
| Session.StartRecording | src/app/page.tsx:241-265 | With microphone access the recorder records with no chunks yet. Without it nothing changes. The sample and the transcript are untouched either way. |
| Session.ChunkAvailable | src/app/page.tsx:247-249 | While the recorder is recording or finishing, the chunk is appended, so the recording's data grows by exactly that chunk. Otherwise nothing changes. |
| Session.RecorderStopped | src/app/page.tsx:251-257 | The stop callback turns the collected chunks into an audio/webm blob, whose data URI becomes the sample. Without a pending stop nothing changes. |
| Session.ClearAudio | src/app/page.tsx:284-289 | Clearing audio drops the sample, the URL and the chunks, and stops any recording. The transcript and tab are unchanged. |
| Session.ClearAudioDetached | src/app/page.tsx:284-289 | The corrected clear also detaches the stop callback, so no later chunk or stop can restore a sample. |
| Session.AudioFileChosen | src/app/page.tsx:274-282 | Choosing a file makes its data URI the sample; cancelling the dialog changes nothing. |
| Session.ClearAllInput | src/app/page.tsx:291-298 | Clearing all input empties the sample, the transcript and the audio, stops recording and recognition, and keeps the tab. |
| Session.TabChange | src/app/page.tsx:406 | A tab change clears every input and switches the tab. The sample ends empty-live or null, as the following effect decides. |
| Session.ResetInterview | src/app/page.tsx:383-390 | The reset clears the text, structured data, questions, selection and answer switch. The résumé file is kept unless the reset is full. |
| Session.ResumeFileChange | src/app/page.tsx:301-324 | A new file is kept with the pipeline cleared. The text and structured data are committed together only when both extractions succeed, and otherwise both stay empty. Cancelling changes nothing. |
| Session.RemoveResume | src/app/page.tsx:548 | Removing the résumé returns the whole interview state to empty. |
| Session.ResumeSummary | src/app/page.tsx:334 | A non-empty summary is used as is. Otherwise the text is "The candidate's experience includes: ", then the job titles in order joined by ", ", then ".". With no experience list the titles print as "undefined". |
| Session.SummaryAppendsTitle | src/app/page.tsx:334 | One more experience entry adds its title at the end of the summary, after ", " unless it is the first. |
| Basics.JoinAppend | src/app/page.tsx:334 | Joining one more part puts the separator between it and the parts before it. |
| Session.GenerateQuestions | src/app/page.tsx:326-343 | Generation is a no-op unless both extractions are present. Otherwise it clears the selection and stores the decoded list, or the empty list on failure. A stored list has at most three questions. The résumé file, structured data, text and answer switch are kept. |
| Session.ExtractionStarted | src/app/page.tsx:301-308 | Before the extraction is awaited, the file is kept and the text, data, questions, selection and answer switch are cleared. |
| Session.ExtractionFinished | src/app/page.tsx:316-317 | When the extractions reply, data and text are stored together into the current state if both succeeded; otherwise nothing changes. |
| Session.GenerationStarted | src/app/page.tsx:326-331 | Before the generation is awaited, the list and selection are cleared, provided both extractions are present; otherwise nothing changes. |
| Session.GenerationFinished | src/app/page.tsx:335-336 | When the generator replies, a reply meeting the output schema becomes the list (at most three questions) in the current state; otherwise nothing changes. |
| Session.ResumeFileChangeSplits | src/app/page.tsx:301-324 | Run without interruption, the extraction's start followed by its reply is the whole résumé handler. |
| Session.GenerateQuestionsSplits | src/app/page.tsx:326-343 | Run without interruption, the generation's start followed by its reply is the whole generation handler. |
| Session.StartExtraction | src/app/page.tsx:301-308 | Choosing a résumé starts an awaited extraction under the next request number and shows the extracting state; nothing else changes. Cancelling the picker changes nothing. |
| Session.FinishExtraction | src/app/page.tsx:316-322 | The extraction reply is committed into whatever interview state the page holds by then, the loading flag is cleared, and the request is no longer awaited. |
| Session.StartGeneration | src/app/page.tsx:326-331 | With both extractions, Generate starts an awaited generation under the next request number and shows the generating state; without them nothing changes. |
| Session.FinishGeneration | src/app/page.tsx:335-341 | The generator reply is committed into whatever interview state the page holds by then, the loading flag is cleared, and the request is no longer awaited. |
| Session.FinishExtractionIfLatest | src/app/page.tsx:316-317 | The corrected reply stores its data only for the latest request; a stale one changes nothing but the loading flag and the awaited set. |
| Session.FinishGenerationIfLatest | src/app/page.tsx:336 | The corrected reply stores its questions only for the latest request; a stale one changes nothing but the loading flag and the awaited set. |
| Session.RetireRequests | src/app/page.tsx:383-390 | In the corrected page, a reset of the interview state leaves no earlier request the latest, and changes nothing else. |
| Session.FindQuestion | src/app/page.tsx:570 | The radio value finds a question with that text, and it finds nothing iff no question has it. |
| Session.SelectQuestion | src/app/page.tsx:570 | A selection is always one of the generated questions, and nothing is selected iff no question matches. |
| Session.BuildRequest | src/app/page.tsx:345-367 | An empty or null sample is rejected before any mode check. Presentation adds neither question nor answer. Interview is rejected without an active question and otherwise carries its question and answer under "Interview Mode". Rehearsal needs both fields non-empty. |
| Session.Analyze | src/app/page.tsx:345-381 | A rejected request leaves the state unchanged. An accepted one stores the service's answer, or null when it throws. |
| Session.ModeChange | src/app/page.tsx:392-401 | Every mode change, including to the current mode, does the following: it nulls the sample and result and empties the transcript; it resets the interview state unless the new mode is Interview; it clears question and answer unless the new mode is Rehearsal. Requests still awaited stay awaited, and the loading flag is kept. |
| SessionLaws.InitInv | src/app/page.tsx:104-131 | The initial page satisfies the pipeline and mode-scope invariant, awaits no request, and keeps the live sample in step with the transcript. |
| SessionLaws.HandlersKeepInv | src/app/page.tsx:301-401 | On the page as written, every offered event except a late résumé reply keeps the interview invariant. Questions exist only after both extractions, extractions only for a chosen file, the selection is among the questions, and there are at most three. Interview state exists only in Interview mode, and rehearsal fields only in Rehearsal mode. |
| SessionLaws.StepKeepsInv | src/app/page.tsx:301-401 | With stale replies discarded, every offered event, late replies included, keeps the same invariant, and the latest awaited request still finds the state it started from. |
| SessionLaws.LateExtractionOutlivesRemoval | src/app/page.tsx:316-317 | Choose a résumé, remove it, then let the extraction reply: the page holds résumé data and text with no résumé file, breaking the invariant. With the staleness check the page stays empty. |
| SessionLaws.LateExtractionOutlivesModeChange | src/app/page.tsx:316-317 | Choose a résumé, switch to Presentation mode, then let the extraction reply: Presentation mode holds résumé data. |
| SessionLaws.LateQuestionsOutliveRemoval | src/app/page.tsx:336 | Generate, remove the résumé, then let a valid non-empty reply arrive: the questions are stored with no résumé behind them, breaking the invariant. |
| SessionLaws.StepKeepsLiveSynced | src/app/page.tsx:204-208 | Every offered event except the recorder's stop callback keeps the live tab's sample equal to its transcript, or null while that transcript is empty. |
| SessionLaws.RequestsSatisfySharedSchema | src/app/page.tsx:345-367 | Every request the page lets through satisfies the centralised input schema. |
| SessionLaws.RehearsalAnalysisFails | src/app/page.tsx:360-367 | A rehearsal request that the page accepts is refused by the flow's own input schema, so no result is ever stored. |
| SessionLaws.SharedFlowServesEveryMode | src/app/page.tsx:345-381 | With the shared enumeration, every accepted request gets a result iff the model answers in range. Presentation uses the coach framing and Rehearsal the evaluator framing. Interview uses the evaluator framing exactly when the selected question's ideal answer is non-empty. |
| SessionLaws.StoredResultInRange | src/app/page.tsx:368-381 | Any result the page stores from the flow has its percentages in [0,100] and its criterion scores in [0,10]. |
| SessionLaws.RestartForgetsEarlierSpeech | src/app/page.tsx:219-239 | After a restart, the first result shows only the new session's speech. |
| SessionLaws.ClearedRecordingReturns | src/app/page.tsx:251-257 | Switch to the live tab while recording, then let the recorder deliver its data and stop. The cleared sample comes back as the recording, next to an empty live transcript. |
| ClientSession.OnResult | src/components/speech-analysis-client.tsx:166-176 | The client's accumulator gains the event's final text, and the transcript is the accumulator followed by the interim text. |
| ClientSession.OnRecognitionError | src/components/speech-analysis-client.tsx:182-190 | Every error code stops listening and gives a generic notice naming the code. |
| ClientSession.ToggleListening | src/components/speech-analysis-client.tsx:202-211 | Listening flips only with a recognizer. Starting clears the transcript but never the accumulator. |
| ClientSession.StopRecording | src/components/speech-analysis-client.tsx:243-248 | With a recorder present, stopping ends recording; without one nothing changes. |
| ClientSession.StartRecording | src/components/speech-analysis-client.tsx:213-241 | With microphone access the recorder records with no chunks yet. Without it nothing changes. The blob and the transcript are untouched either way. |
| ClientSession.ChunkAvailable | src/components/speech-analysis-client.tsx:219-221 | While the recorder is recording or finishing, the chunk is appended, so the recording's data grows by exactly that chunk. Otherwise nothing changes. |
| ClientSession.RecorderStopped | src/components/speech-analysis-client.tsx:223-229 | The stop callback stores the chunks as an audio/webm blob with an object URL. |
| ClientSession.ClearAudio | src/components/speech-analysis-client.tsx:288-299 | Clearing drops the blob, URL and chunks, stops an active recording, and keeps the transcript and tab. |
| ClientSession.ToggleRecording | src/components/speech-analysis-client.tsx:250-257 | While recording, the toggle stops. Otherwise it clears the audio first and records iff the microphone is granted. |
| ClientSession.AudioFileChosen | src/components/speech-analysis-client.tsx:270-278 | A chosen file becomes the blob with a URL, on the upload tab. |
| ClientSession.TabChange | src/components/speech-analysis-client.tsx:466 | A tab change switches the tab and clears the audio, chunks and transcript. It keeps the accumulator and the listening flag. |
| ClientSession.ResetInterview | src/components/speech-analysis-client.tsx:449-454 | The reset empties the whole interview state, file included. |
| ClientSession.ResumeFileChange | src/components/speech-analysis-client.tsx:280-286 | A new file is kept with the questions and selection cleared. Résumé text is stored only when the extraction request was valid. |
| ClientSession.GenerateQuestions | src/components/speech-analysis-client.tsx:347-378 | Generation is a no-op without résumé text. Otherwise it clears the list and the selection and keeps the file. The stored list is the generator's decoded reply when the request is valid, the reply meets the output schema and holds at least one question; in every other case the list stays empty. At most three questions are ever stored. |
| ClientSession.AccordionChange | src/components/speech-analysis-client.tsx:660-663 | The accordion selects only one of the generated questions. |
| ClientSession.ModeCardClicked | src/components/speech-analysis-client.tsx:577-582 | Any mode card click, even on the selected card, clears the interview state, question and answer. It leaves the input and the result alone. |
| ClientSession.BuildRequest | src/components/speech-analysis-client.tsx:380-422 | The live tab needs a non-empty transcript, and the record and upload tabs need a blob, sent as its data URI. Interview is rejected without an active question and is otherwise sent as "Practice Mode" with its question and answer. Practice needs both fields, keyed on the UI mode. |
| ClientSession.Analyze | src/components/speech-analysis-client.tsx:380-441 | A rejected request changes nothing. An accepted one stores the service's answer. |
| ClientLaws.RequestsSatisfyFlowSchema | src/components/speech-analysis-client.tsx:403-422 | Every request the client sends passes the flow's input schema and never carries "Interview Mode". Practice always uses the evaluator framing, and Interview uses it iff the ideal answer is non-empty. |
| ClientLaws.StaleSpeechAfterRestart | src/components/speech-analysis-client.tsx:165-176 | After a restart, the first result shows the previous session's final text before the new speech. |
| ClientLaws.ResumeRequestsRefused | src/components/speech-analysis-client.tsx:317-358 | Neither résumé request the client builds satisfies its input schema. |
| ClientLaws.InterviewNeverGetsQuestions | src/components/speech-analysis-client.tsx:280-378 | Choosing a file never stores résumé text. Even with text, generation never stores a question. |
| ClientLaws.InterviewHandlersKeepPipeline | src/components/speech-analysis-client.tsx:280-378 | Every interview handler keeps three facts: the selection is among the questions, there are at most three, and questions only exist with a file. |
| ClientLaws.AccordionSelectsItem | src/components/speech-analysis-client.tsx:660-663 | The value `item-k` selects question k, and the empty value selects nothing. |
| Accordion.ParseIntNatToString | src/components/speech-analysis-client.tsx:660-663 | `parseInt` of a decimal numeral gives back the number it was written from. |
| Accordion.SelectItemValue | src/components/speech-analysis-client.tsx:660-663 | An in-range `item-k` selects item k. An out-of-range index or the empty value selects nothing. |
| SpeechInput.Forward | src/components/speech-input.tsx:140-144 | The forwarding effect runs only on a change of transcript or tab. On the live tab it then forwards the transcript as the sample. |
| SpeechInput.Init | src/components/speech-input.tsx:140-144 | The component starts on the live tab with an empty transcript, which the first effect run hands to the parent as "". |
| SpeechInput.EditTranscript | src/components/speech-input.tsx:283-285 | Typing is ignored while listening. Otherwise the transcript becomes the typed text, and on the live tab a changed text is forwarded. |
| SpeechInput.StartRecording | src/components/speech-input.tsx:178-204 | With microphone access the recorder records with no chunks yet. Without it nothing changes. |
| SpeechInput.ChunkAvailable | src/components/speech-input.tsx:184-186 | While the recorder is recording or finishing, the chunk is appended, so the recording's data grows by exactly that chunk. Otherwise nothing changes. |
| SpeechInput.OnResult | src/components/speech-input.tsx:104-114 | The component's accumulator gains the final text, and the transcript is the accumulator followed by the interim text. |
| SpeechInput.OnRecognitionError | src/components/speech-input.tsx:120-128 | Every error code stops listening with a generic notice. |
| SpeechInput.ToggleListening | src/components/speech-input.tsx:167-176 | Without a recognizer nothing changes. Otherwise listening flips, and starting clears the transcript but not the accumulator. |
| SpeechInput.AudioBlobReady | src/components/speech-input.tsx:154-165 | A null blob forwards a null sample and a null URL. A blob forwards its data URI and sets an object URL. |
| SpeechInput.StopRecording | src/components/speech-input.tsx:206-211 | Stopping acts only when a recorder exists. |
| SpeechInput.RecorderStopped | src/components/speech-input.tsx:188-192 | The stop callback forwards the recording's data URI as the sample. |
| SpeechInput.ClearAudio | src/components/speech-input.tsx:241-248 | Clearing audio forwards a null sample and drops blob, URL and chunks, stopping an active recording. |
| SpeechInput.ToggleRecording | src/components/speech-input.tsx:213-220 | While recording, the toggle stops. Otherwise it always clears the audio first. |
| SpeechInput.AudioFileChosen | src/components/speech-input.tsx:233-239 | A chosen file is forwarded as its data URI. |
| SpeechInput.ClearAll | src/components/speech-input.tsx:250-254 | Clearing all forwards null and empties the transcript and audio. |
| SpeechInput.TabChange | src/components/speech-input.tsx:257 | Every tab change clears everything before switching. The effect then forwards the empty live transcript or nothing. |
| SpeechInput.LiveHandlersKeepForwarding | src/components/speech-input.tsx:140-144 | Recognition results, toggling, editing, errors and tab changes all keep the parent's sample equal to the live transcript, or null while that transcript is empty. |
| SpeechInput.TabChangeDropsAudio | src/components/speech-input.tsx:250-257 | After a tab change the parent holds no audio sample, only "" or null, and no blob, URL or transcript survives. |
| SpeechInput.StaleSpeechAfterRestart | src/components/speech-input.tsx:103-114 | After a restart, the first result shows the previous session's final text before the new speech. |
| Grouping.IndexOf | src/lib/pdf.ts:146-151 | The lookup finds the group with the key, or reports that there is none. |
| Grouping.CategoryOrderFacts | src/lib/pdf.ts:146-151 | The group keys are distinct and are exactly the categories that occur. |
| Grouping.GroupsMatchReference | src/lib/pdf.ts:146-151 | The reduce gives one group per category, in first-occurrence order. Each group's items are exactly that category's criteria in input order. |
| Grouping.GroupsDistinct | src/lib/pdf.ts:146-151 | No two groups share a category. |
| Grouping.InCategoryFacts | src/lib/pdf.ts:146-151 | A category's list holds exactly the criteria of that category. |
| Grouping.EveryCriterionPlaced | src/lib/pdf.ts:146-161 | Every criterion lands in the group of its own category, and a group holds only its own category. |
| Report.CheckY | src/lib/pdf.ts:40-45 | A new page starts iff y + increment > pageHeight − margin. Then y becomes the margin and the page count rises by one; otherwise the cursor is unchanged. The cursor stays on its page or moves to the next one. After the check, any increment no taller than the page between its margins fits above the bottom margin. |
| Report.Metrics | src/lib/pdf.ts:123-137 | There are exactly the eight fixed metric lines, plus a ninth for the audio duration iff audioDurationSeconds is present and non-zero. |
| ReportLaws.RunInReadingOrder | src/lib/pdf.ts:40-224 | With non-negative advances, the placed elements are in reading order: page by page, and downward within a page. |
| ReportLaws.ReportNonNegative | src/lib/pdf.ts:60-224 | Every cursor step of the report adds a non-negative amount. |
| ReportLaws.ReportInReadingOrder | src/lib/pdf.ts:60-224 | Everything the report places lies in reading order. |
| ReportLaws.HeaderHeightFixed | src/lib/pdf.ts:47-60 | The header advances the cursor by 30 on the same page, whether or not the logo loaded. |
| ReportLaws.CriterionParagraphs | src/lib/pdf.ts:168-203 | A criterion draws its evaluation, then a comparison iff the comparison is non-empty, then its feedback. It draws no section, metric or category heading. |
| ReportLaws.GroupHeadings | src/lib/pdf.ts:161-204 | The feedback loop draws one category heading per group, in group order. |
| ReportLaws.TranscriptionDrawn | src/lib/pdf.ts:92-110 | The transcription section appears iff the segment list is present and non-empty. |
| ReportLaws.MetricsSectionDrawn | src/lib/pdf.ts:112-144 | The metrics section draws exactly the metric list, in order. |
| ReportLaws.FeedbackDrawn | src/lib/pdf.ts:146-204 | The feedback section's category headings are the criteria's categories, in first-occurrence order. |
| ReportLaws.SuggestionDrawn | src/lib/pdf.ts:206-224 | The suggested-delivery section appears iff suggestedSpeech is non-empty. |
| ReportLaws.ReportSections | src/lib/pdf.ts:63-224 | In order, the report's section headings are Overall Assessment, Full Transcription (iff transcribed), Key Metrics, Detailed Feedback, and Suggested Delivery Example (iff present). |
| ReportLaws.ReportMetrics | src/lib/pdf.ts:123-143 | The report draws exactly the metric lines of the result's metadata: nine with an audio duration, eight without. |
| ReportLaws.ReportCategories | src/lib/pdf.ts:146-204 | The report draws each category heading exactly once, in first-occurrence order. |

## Left out

- Rendering, toasts and loading indicators: the JSX and the toast texts are left out. On the page, `isLoading` with its message is kept only as far as it disables the Generate and Analyze buttons; in the older client and the input component it is left out.
- Browser APIs are not modelled directly:
  - SpeechRecognition, MediaRecorder, getUserMedia and FileReader become events or parameters: a result or error event, a chunk, a stop callback, a granted flag, or a chosen blob.
  - `URL.createObjectURL` becomes the uninterpreted `ObjectUrl`.
  - URL revocation is not modelled.
  - The Base64 payload of a data URI is an uninterpreted string.
  - A FileReader failure is not modelled.
- Asynchronous interleavings are modelled for the recorder's chunk and stop callbacks and for the page's two résumé requests, whose replies are events of their own. Every other awaited call is modelled as completing within its event. Effects are run right after the handler that triggers them.
- Session.Analyze: the analysis is modelled as completing within its click. The mode cards stay enabled while it is awaited, so on the page a mode change during an analysis would be followed by the earlier mode's result; this interleaving is not modelled.
- ClientLaws.InterviewHandlersKeepPipeline: the older client's résumé handlers are modelled as completing within their event. Their late parts store nothing, because both of its résumé requests are refused (ClientLaws.ResumeRequestsRefused), so an interleaving cannot break the invariant.
- Session.TabChange, ClientSession.TabChange, SpeechInput.TabChange: the handlers accept any tab, including the one shown. The tabs component only reports a change to a different tab, and SessionLaws.Available offers only those.
- The model services are function parameters that may fail. This covers analyzeSpeech, extractResumeInfo, extractTextFromFile and generateQuestionsFromResume. The `Promise.all` concurrency is reduced to its commit-both-or-neither outcome.
- The prompt-wrapper flows (question generation, résumé extraction, text extraction, summarize-speech) are left out, along with the analysis dashboard and the page chrome. Their schemas are already in the centralised schema file.
- jsPDF drawing is not modelled:
  - x positions, fonts, colours and the logo image are left out;
  - `splitTextToSize` is an opaque `wrap` parameter;
  - `toFixed` number formatting and the text of each metric line beyond its label are left out;
  - the download anchors are left out.
- A logo that fails to load is the `logoLoaded` flag. The canvas conversion is not modelled.
- Grouping.GroupByCategory: the category keys iterate in first-insertion order. JavaScript's `Object.entries` lists integer-like keys first, but the schema's category enumeration has no such key.
- Accordion.ParseInt: leading '+' and '-' signs and ASCII whitespace are handled. Unicode whitespace and the hexadecimal `0x` prefix are left out, since `item-k` values never contain them.
- Numbers are modelled as `real`. Floating-point rounding is left out.
- SpeechInput.Forward: the forwarding effect also depends on the parent's `onSpeechSampleReady` callback (src/components/speech-input.tsx:144). The model re-runs it only when the transcript or the tab changes, so it assumes the parent passes a stable callback. The parent component is not part of this model. With a callback recreated on every render, a parent re-render would forward the live transcript again.
- Report.Run: it tracks the cursor and the order of placement, not the drawn geometry.

## Findings

| source | as written | input that shows it | evidently intended | confidence | as-written member | corrected member |
|---|---|---|---|---|---|---|
| src/app/page.tsx:351 | The page sends "Rehearsal Mode" to the analysis flow. The flow's input enumeration is Presentation, Interview and Practice (src/ai/flows/analyze-speech.ts:49). | Rehearsal mode with a non-empty sample, question and perfect answer. | Rehearsal requests validate against the enumeration the page was written for (src/ai/schemas.ts:43). | high, not executed | SessionLaws.RehearsalAnalysisFails | SessionLaws.SharedFlowServesEveryMode |
| src/components/speech-analysis-client.tsx:165 | The final-text accumulator is created once per recognizer. Starting to listen again clears only the displayed transcript (line 207; likewise src/components/speech-input.tsx:103, 172). | Say "hello", stop, start again, then say "world". The display reads "helloworld". | A restart starts an empty transcript, as src/app/page.tsx:227 does. | high, not executed | ClientLaws.StaleSpeechAfterRestart | SessionLaws.RestartForgetsEarlierSpeech |
| src/app/page.tsx:251-257 | The recorder's stop callback writes the recording as the sample, even after a tab change cleared the inputs and stopped the recorder (lines 284-298, 406). | Record, switch to the Live tab, then let the recorder deliver its chunk and stop. The sample becomes the recording, beside an empty live transcript. | Clearing the audio discards the pending recording. | medium, not executed | SessionLaws.ClearedRecordingReturns | Session.ClearAudioDetached |
| src/app/page.tsx:316-317, 336 | The résumé replies are stored into whatever state the page holds when they arrive. The résumé's remove button (line 548) and the mode cards (line 497) stay enabled while they are awaited. | Choose a résumé, remove it (or switch to Presentation mode) before the extraction replies. The page then holds résumé data and text without a résumé, or in Presentation mode. Likewise, remove the résumé while questions are generated, and the questions arrive without it. | A reply whose request was superseded by a reset of the interview state is discarded. | medium, not executed | SessionLaws.LateExtractionOutlivesRemoval | SessionLaws.StepKeepsInv |
| src/components/speech-analysis-client.tsx:329 | The extractor is called with `{resumeText}`, while its schema requires resumeDataUri (src/ai/schemas.ts:81-87). The question generator is called without resumeSummary (line 358; src/ai/schemas.ts:143-146). | Choose any résumé file. | The requests carry the fields their schemas require, as src/app/page.tsx does. | high, not executed | ClientLaws.ResumeRequestsRefused | SchemaCodec.TypedResumeRequestsValid |

The late stop callback of the third finding also affects the other two components. In src/components/speech-input.tsx:188-192 it forwards the recording after a tab change has cleared it. In src/components/speech-analysis-client.tsx:223-229 it restores the blob on whatever tab is showing. SpeechInput.TabChangeDropsAudio holds only at the moment of the switch.

Where the page and the older client differ, each is modelled as written:
- Interview→Practice remap: the client sends Interview requests as "Practice Mode"; the page does not remap.
- Error classification: the page classifies recognition errors three ways; the client and the input component give a generic notice for every code.
- Missing summary: when a résumé has neither a summary nor any experience entry, the page's summary text ends in "undefined." (src/app/page.tsx:334). Session.ResumeSummary keeps that behaviour.

=== FILE: accordion.dfy ===
/**
  The accordion's selection rule in the older analysis client
  (src/components/speech-analysis-client.tsx): an item value `item-<k>` is
  split on '-', its second field goes through `parseInt`, and the resulting
  index picks a generated question.
 */
module Accordion {

  import opened Basics

  /** The characters `parseInt` skips before the number (the ASCII part of the JavaScript white space set). */
  predicate IsSpace(c: char) {
    c == ' ' || c == '\t' || c == '\n' || c == '\r' || c == '\U{000B}' || c == '\U{000C}'
  }

  predicate IsDigit(c: char) {
    '0' <= c <= '9'
  }

  predicate AllDigits(s: string) {
    forall i :: 0 <= i < |s| ==> IsDigit(s[i])
  }

  /** The prefix of `s` before the first `c` (all of `s` when there is none). */
  function UpTo(s: string, c: char): (r: string)
    ensures c !in r
    ensures |r| <= |s| && s[..|r|] == r
    ensures |r| < |s| ==> s[|r|] == c
  {
    if |s| == 0 || s[0] == c then "" else [s[0]] + UpTo(s[1..], c)
  }

  /** `value.split('-')[1]`: None stands for `undefined` when there is no '-'. */
  function SecondField(value: string): (r: Option<string>)
    ensures r.None? <==> '-' !in value
    ensures r.Some? ==> '-' !in r.value
  {
    if '-' !in value then None
    else
      var first := UpTo(value, '-');
      Some(UpTo(value[|first| + 1..], '-'))
  }

  function DropSpaces(s: string): (r: string)
    ensures |r| == 0 || !IsSpace(r[0])
  {
    if |s| > 0 && IsSpace(s[0]) then DropSpaces(s[1..]) else s
  }

  /** The longest prefix of decimal digits. */
  function LeadingDigits(s: string): (r: string)
    ensures AllDigits(r) && |r| <= |s| && s[..|r|] == r
    ensures |r| < |s| ==> !IsDigit(s[|r|])
  {
    if |s| > 0 && IsDigit(s[0]) then [s[0]] + LeadingDigits(s[1..]) else ""
  }

  /** The value of a string of decimal digits. */
  function DigitsValue(d: string): nat
    requires AllDigits(d)
  {
    if |d| == 0 then 0 else DigitsValue(d[..|d| - 1]) * 10 + (d[|d| - 1] as int - '0' as int)
  }

  /** `parseInt(s)` in base 10; None stands for NaN. */
  function ParseInt(s: string): Option<int>
  {
    var t := DropSpaces(s);
    var negative := |t| > 0 && t[0] == '-';
    var body := if |t| > 0 && (t[0] == '-' || t[0] == '+') then t[1..] else t;
    var d := LeadingDigits(body);
    if d == "" then None
    else Some(if negative then -(DigitsValue(d) as int) else DigitsValue(d))
  }

  /** The decimal representation of `n`, as a template literal prints it. */
  function NatToString(n: nat): (r: string)
    ensures r != "" && AllDigits(r)
  {
    var last := ['0' + (n % 10) as char];
    if n < 10 then last else NatToString(n / 10) + last
  }

  lemma {:induction false} NatToStringValue(n: nat)
    ensures DigitsValue(NatToString(n)) == n
  {
    var s := NatToString(n);
    if n >= 10 {
      NatToStringValue(n / 10);
      assert s[..|s| - 1] == NatToString(n / 10);
    }
  }

  lemma {:induction false} LeadingDigitsOfDigits(d: string)
    requires AllDigits(d)
    ensures LeadingDigits(d) == d
  {
    if |d| > 0 {
      LeadingDigitsOfDigits(d[1..]);
      assert d == [d[0]] + d[1..];
    }
  }

  /** `parseInt` reads back what the template literal printed. */
  lemma ParseIntNatToString(n: nat)
    ensures ParseInt(NatToString(n)) == Some(n)
  {
    var s := NatToString(n);
    LeadingDigitsOfDigits(s);
    NatToStringValue(n);
    assert !IsSpace(s[0]) && s[0] != '-' && s[0] != '+';
  }

  /** The item value the accordion gives the k-th question. */
  function ItemValue(k: nat): string
  {
    "item-" + NatToString(k)
  }

  /** `generatedQuestions[parseInt(value.split('-')[1])] || null` */
  function Select<T>(items: seq<T>, value: string): (r: Option<T>)
    ensures r.Some? ==> r.value in items
  {
    var field := SecondField(value);
    var index := if field.None? then None else ParseInt(field.value);
    if index.Some? && 0 <= index.value < |items| then Some(items[index.value]) else None
  }

  lemma {:induction false} UpToAbsent(s: string, c: char)
    requires c !in s
    ensures UpTo(s, c) == s
  {
    if |s| > 0 {
      UpToAbsent(s[1..], c);
      assert s == [s[0]] + s[1..];
    }
  }

  /** Opening item k selects exactly the k-th item; closing the accordion (value "") selects nothing. */
  lemma SelectItemValue<T>(items: seq<T>, k: nat)
    ensures k < |items| ==> Select(items, ItemValue(k)) == Some(items[k])
    ensures k >= |items| ==> Select(items, ItemValue(k)) == None
    ensures Select(items, "") == None
  {
    var d := NatToString(k);
    var v := ItemValue(k);
    assert '-' !in d by {
      forall i | 0 <= i < |d| ensures d[i] != '-' { assert IsDigit(d[i]); }
    }
    assert v[4] == '-' && v[..4] == "item";
    assert UpTo(v, '-') == "item" by {
      assert v[0] == 'i' && v[1] == 't' && v[2] == 'e' && v[3] == 'm';
      assert v[1..][1..][1..][1..][0] == '-';
    }
    assert v[5..] == d;
    UpToAbsent(d, '-');
    assert SecondField(v) == Some(d);
    ParseIntNatToString(k);
  }
}

=== FILE: analyze_flow.dfy ===
/**
  The speech-analysis flow (src/ai/flows/analyze-speech.ts): its own copy of
  the input and output schemas, the audio test on the sample, the choice of
  prompt framing, and the validate-call-validate pipeline around the model.
 */
module AnalyzeFlow {

  import opened Basics
  import opened Json
  import opened Schemas
  import opened SchemaCodec

  /** This flow's mode enumeration: "Practice Mode" where the shared schema says "Rehearsal Mode". */
  const FlowModes: set<string> := {"Presentation Mode", "Interview Mode", "Practice Mode"}

  predicate FlowInputValid(j: Json) {
    InputValidFor(j, FlowModes)
  }

  /** This flow's output schema declares no `suggestedSpeech` property at all. */
  predicate FlowOutputValid(j: Json) {
    OutputCoreValid(j)
  }

  /** The flow hands the sample to the model as media exactly when it is an audio data URI. */
  predicate IsAudio(sample: string) {
    StartsWith(sample, "data:audio")
  }

  /** The two framings of the prompt template. */
  datatype Framing = ExamEvaluator | SpeechCoach

  /**
    `{{#if perfectAnswer}}` selects the evaluator framing (and the demand for a
    per-criterion comparison); Handlebars treats an absent or empty string as false.
   */
  function PromptFraming(req: AnalyzeRequest): (f: Framing)
    ensures f == ExamEvaluator <==> req.perfectAnswer.Some? && req.perfectAnswer.value != ""
  {
    if TruthyOpt(req.perfectAnswer) then ExamEvaluator else SpeechCoach
  }

  /**
    One run of the flow with the given mode enumeration: the input is validated
    against the input schema, the prompt is called with the `isAudio` flag, and
    its output is validated against the output schema. None is a thrown error.
   */
  function RunFlow(modes: set<string>, req: AnalyzeRequest,
                   prompt: (AnalyzeRequest, bool) -> Option<AnalysisOutput>): (r: Option<AnalysisOutput>)
    ensures r.Some? <==> req.mode in modes
                         && prompt(req, IsAudio(req.speechSample)).Some?
                         && OutputCoreInRange(prompt(req, IsAudio(req.speechSample)).value)
    ensures r.Some? ==> r == prompt(req, IsAudio(req.speechSample))
  {
    RequestValidIff(req, modes);
    if !InputValidFor(EncodeRequest(req), modes) then None
    else
      var out := prompt(req, IsAudio(req.speechSample));
      if out.None? then None
      else
        OutputCoreValidIff(out.value);
        if FlowOutputValid(EncodeOutput(out.value)) then out else None
  }

  /** The flow as the repository defines it. */
  function AnalyzeSpeech(req: AnalyzeRequest, prompt: (AnalyzeRequest, bool) -> Option<AnalysisOutput>): Option<AnalysisOutput>
  {
    RunFlow(FlowModes, req, prompt)
  }

  /**
    The flow's output schema accepts a result with no suggested delivery, which
    the centralised schema refuses.
   */
  lemma FlowOutputOmitsSuggestion(o: AnalysisOutput)
    ensures FlowOutputValid(EncodeOutput(o)) <==> OutputCoreInRange(o)
    ensures o.suggestedSpeech.None? ==> !OutputValid(EncodeOutput(o))
  {
    OutputCoreValidIff(o);
    OutputValidIff(o);
  }

  /** A blob's data URI counts as audio exactly when its MIME type is an audio type. */
  lemma DataUriIsAudioIff(b: Blob)
    ensures IsAudio(DataUri(b)) <==> StartsWith(b.mimeType, "audio")
  {
    DataUriAudioPrefix(b);
  }

  /** What the browser records ("audio/webm") is always sent to the model as media. */
  lemma RecordingIsAudio(payload: string)
    ensures IsAudio(DataUri(Blob("audio/webm", payload)))
  {
    DataUriAudioPrefix(Blob("audio/webm", payload));
    assert "audio/webm"[..5] == "audio";
  }

  /**
    The flow with the shared input schema, whose enumeration names the mode the
    page actually sends for rehearsals.
   */
  function AnalyzeSpeechShared(req: AnalyzeRequest, prompt: (AnalyzeRequest, bool) -> Option<AnalysisOutput>): (r: Option<AnalysisOutput>)
    ensures req.mode in AnalysisModes ==>
              (r.Some? <==> prompt(req, IsAudio(req.speechSample)).Some?
                            && OutputCoreInRange(prompt(req, IsAudio(req.speechSample)).value))
  {
    RunFlow(AnalysisModes, req, prompt)
  }

  /** With its own enumeration the flow refuses every rehearsal request, whatever the model would say. */
  lemma RehearsalRefused(req: AnalyzeRequest, prompt: (AnalyzeRequest, bool) -> Option<AnalysisOutput>)
    requires req.mode == "Rehearsal Mode"
    ensures AnalyzeSpeech(req, prompt).None?
  {
    assert "Rehearsal Mode" != "Practice Mode";
  }

  /** The two enumerations agree on every mode but the rehearsal one. */
  lemma FlowsAgreeOutsideRehearsal(req: AnalyzeRequest, prompt: (AnalyzeRequest, bool) -> Option<AnalysisOutput>)
    requires req.mode == "Presentation Mode" || req.mode == "Interview Mode"
    ensures AnalyzeSpeech(req, prompt) == AnalyzeSpeechShared(req, prompt)
  {
  }
}

=== FILE: basics.dfy ===
/**
  Small vocabulary shared by every part of the model: optional values, the
  JavaScript notions of string truthiness, `startsWith` and `Array.join`, the
  three input tabs, and blobs with their `data:` URIs.
 */
module Basics {

  /** `T | null` (or an absent optional property) in the source. */
  datatype Option<+T> = None | Some(value: T)

  /** JavaScript truthiness of a string: only the empty string is falsy. */
  predicate Truthy(s: string) {
    s != ""
  }

  /** Truthiness of `string | null | undefined`. */
  predicate TruthyOpt(s: Option<string>) {
    s.Some? && Truthy(s.value)
  }

  /** `s.startsWith(prefix)`. */
  predicate StartsWith(s: string, prefix: string) {
    |prefix| <= |s| && s[..|prefix|] == prefix
  }

  /** `parts.join(sep)`. */
  function Join(parts: seq<string>, sep: string): string
  {
    if |parts| == 0 then ""
    else if |parts| == 1 then parts[0]
    else parts[0] + sep + Join(parts[1..], sep)
  }

  /** Joining one more part puts the separator between it and the earlier ones. */
  lemma {:induction false} JoinAppend(parts: seq<string>, s: string, sep: string)
    requires |parts| > 0
    ensures Join(parts + [s], sep) == Join(parts, sep) + sep + s
  {
    if |parts| > 1 {
      JoinAppend(parts[1..], s, sep);
      assert (parts + [s])[1..] == parts[1..] + [s];
    } else {
      assert (parts + [s])[1..] == [s];
    }
  }

  /** Concatenation of all parts, i.e. `parts.join('')`. */
  function Concat(parts: seq<string>): string
  {
    if |parts| == 0 then "" else Concat(parts[..|parts| - 1]) + parts[|parts| - 1]
  }

  lemma {:induction false} ConcatAppend(parts: seq<string>, s: string)
    ensures Concat(parts + [s]) == Concat(parts) + s
  {
    assert (parts + [s])[..|parts|] == parts;
  }

  /** The three acquisition tabs; any other tab value the widget might report. */
  datatype Tab = Live | Record | Upload | OtherTab(name: string)

  /**
    A blob or file: its MIME type and its content, already in the base64
    alphabet (the encoding itself is the browser's and is not modelled).
   */
  datatype Blob = Blob(mimeType: string, base64: string)

  /** The result of `FileReader.readAsDataURL`. */
  function DataUri(b: Blob): string
  {
    "data:" + b.mimeType + ";base64," + b.base64
  }

  /** An object URL returned by `URL.createObjectURL(blob)`. */
  datatype ObjectUrl = ObjectUrl(target: Blob)

  /** A data URI is never empty, so it is always a truthy sample. */
  lemma DataUriIsTruthy(b: Blob)
    ensures Truthy(DataUri(b))
    ensures StartsWith(DataUri(b), "data:")
  {
    assert DataUri(b)[..5] == "data:";
  }

  /**
    A data URI starts with "data:audio" exactly when the blob's MIME type starts
    with "audio": the separator ';' cannot stand in for a letter of "audio".
   */
  lemma DataUriAudioPrefix(b: Blob)
    ensures StartsWith(DataUri(b), "data:audio") <==> StartsWith(b.mimeType, "audio")
  {
    var u := DataUri(b);
    var rest := b.mimeType + ";base64," + b.base64;
    assert u == "data:" + rest;
    if |b.mimeType| < 5 {
      var k := |b.mimeType|;
      assert u[5 + k] == ';';
      assert "data:audio"[5 + k] != ';';
    } else {
      assert u[..10] == "data:" + b.mimeType[..5];
      var m5 := b.mimeType[..5];
      assert ("data:" + m5)[5..] == m5;
      assert "data:audio" == "data:" + "audio";
      assert u[..10] == "data:audio" ==> m5 == "audio";
    }
  }
}

=== FILE: client_laws.dfy ===
/**
  What the older analysis client guarantees, and where it parts from the
  main page.
 */
module ClientLaws {

  import opened Basics
  import opened Json
  import opened Schemas
  import opened SchemaCodec
  import Transcription
  import AnalyzeFlow
  import Accordion
  import opened ClientSession

  /**
    Every request the client lets through is one the analysis flow's own
    schema accepts: the Interview remap keeps "Interview Mode" out, and the
    comparison framing is used for Practice and for Interview answers that
    are non-empty.
   */
  lemma RequestsSatisfyFlowSchema(s: ClientState)
    requires BuildRequest(s).Accepted?
    ensures var req := BuildRequest(s).request;
            && AnalyzeFlow.FlowInputValid(EncodeRequest(req))
            && req.mode != "Interview Mode"
            && (s.mode == Practice ==> AnalyzeFlow.PromptFraming(req) == AnalyzeFlow.ExamEvaluator)
            && (s.mode == Interview ==>
                  (AnalyzeFlow.PromptFraming(req) == AnalyzeFlow.ExamEvaluator <==>
                   s.interview.activeQuestion.value.answer != ""))
  {
    RequestValidIff(BuildRequest(s).request, AnalyzeFlow.FlowModes);
  }

  /**
    Restarting live transcription clears the display but not the accumulator:
    the first result after the restart shows the earlier session's final text
    again in front of the new speech.
   */
  lemma StaleSpeechAfterRestart(i: ClientInput, ev: Transcription.RecognitionEvent)
    requires i.hasRecognizer && !i.isListening
    ensures OnResult(ToggleListening(i), ev).transcript
              == i.finalTranscript + Transcription.FinalText(ev) + Transcription.InterimText(ev)
    ensures i.finalTranscript != "" ==>
              OnResult(ToggleListening(i), ev).transcript != Transcription.FinalText(ev) + Transcription.InterimText(ev)
  {
    var t := OnResult(ToggleListening(i), ev).transcript;
    var spoken := Transcription.FinalText(ev) + Transcription.InterimText(ev);
    if i.finalTranscript != "" {
      assert |t| == |i.finalTranscript| + |spoken|;
    }
  }

  /**
    The two resume requests this client sends name the wrong properties: the
    extractor's schema wants `resumeDataUri` and the generator's also wants
    `resumeSummary`, so both are refused before any model is asked.
   */
  lemma ResumeRequestsRefused(text: string)
    ensures !ExtractRequestValid(ExtractRequest(text))
    ensures !QuestionRequestValid(GenerateRequest(text))
  {
    assert "resumeDataUri" !in ExtractRequest(text).fields by {
      assert "resumeDataUri" != "resumeText";
    }
    assert "resumeSummary" !in GenerateRequest(text).fields by {
      assert "resumeSummary" != "resumeText";
    }
  }

  /** Hence no resume text ever appears, and no generated question is ever stored. */
  lemma InterviewNeverGetsQuestions(v: ClientInterview, file: Option<Blob>, text: string,
                                    extract: Json -> Option<ResumeInfo>, stringify: ResumeInfo -> string,
                                    generate: Json -> Option<Json>)
    ensures file.Some? ==> ResumeFileChange(v, file, text, extract, stringify).resumeInfoText == ""
    ensures v.resumeInfoText != "" ==> GenerateQuestions(v, generate).generatedQuestions == []
  {
    ResumeRequestsRefused(text);
    ResumeRequestsRefused(v.resumeInfoText);
  }

  /**
    The selection is one of the listed questions, there are never more than
    three, and questions exist only while a résumé file is chosen.
   */
  predicate PipelineOrdered(v: ClientInterview)
  {
    && (v.activeQuestion.Some? ==> v.activeQuestion.value in v.generatedQuestions)
    && |v.generatedQuestions| <= MaxQuestions
    && (|v.generatedQuestions| > 0 ==> v.resumeFile.Some?)
  }

  /** Every interview handler keeps the selection within the list, the list within three, and the file with the list. */
  lemma InterviewHandlersKeepPipeline(v: ClientInterview, file: Option<Blob>, text: string,
                                      extract: Json -> Option<ResumeInfo>, stringify: ResumeInfo -> string,
                                      generate: Json -> Option<Json>, value: string, edited: string)
    requires PipelineOrdered(v)
    ensures PipelineOrdered(ResumeFileChange(v, file, text, extract, stringify))
    ensures PipelineOrdered(GenerateQuestions(v, generate))
    ensures PipelineOrdered(AccordionChange(v, value))
    ensures PipelineOrdered(ResetInterview(v))
    ensures PipelineOrdered(v.(resumeInfoText := edited))
  {
  }

  /** Opening the k-th accordion item selects the k-th question; closing it clears the selection. */
  lemma AccordionSelectsItem(v: ClientInterview, k: nat)
    requires k < |v.generatedQuestions|
    ensures AccordionChange(v, Accordion.ItemValue(k)).activeQuestion == Some(v.generatedQuestions[k])
    ensures AccordionChange(v, "").activeQuestion == None
  {
    Accordion.SelectItemValue(v.generatedQuestions, k);
  }
}

=== FILE: client_session.dfy ===
/**
  The older analysis client (src/components/speech-analysis-client.tsx): the
  same three-step flow as the main page, but with Practice in place of
  Rehearsal, no shared sample state (the sample is taken from the tab when
  Analyze is pressed), and the extraction request built from the file's text.
 */
module ClientSession {

  import opened Basics
  import opened Json
  import opened Schemas
  import opened SchemaCodec
  import Transcription
  import AnalyzeFlow
  import Accordion
  import Session

  datatype ClientMode = Presentation | Interview | Practice

  function ModeLabel(m: ClientMode): string
  {
    match m
    case Presentation => "Presentation Mode"
    case Interview => "Interview Mode"
    case Practice => "Practice Mode"
  }

  datatype ClientInput = ClientInput(
    currentTab: Tab,
    transcript: string,
    isListening: bool,
    isRecording: bool,
    audioUrl: Option<ObjectUrl>,
    audioBlob: Option<Blob>,
    hasRecognizer: bool,
    finalTranscript: string,    // the closure variable of the recognition set-up effect
    recorder: Session.Recorder,
    audioChunks: seq<string>)

  datatype ClientInterview = ClientInterview(
    resumeFile: Option<Blob>,
    resumeInfoText: string,
    generatedQuestions: seq<InterviewQuestion>,
    activeQuestion: Option<InterviewQuestion>)

  datatype ClientState = ClientState(
    mode: ClientMode,
    question: string,
    perfectAnswer: string,
    interview: ClientInterview,
    input: ClientInput,
    analysisResult: Option<AnalysisOutput>)

  const NoInterview := ClientInterview(None, "", [], None)

  // ---------------------------------------------------------------------------
  // Live transcription

  /**
    `onresult`: the same fold as the page's, on an accumulator that lives as
    long as the recognizer does.
   */
  function OnResult(i: ClientInput, ev: Transcription.RecognitionEvent): (r: ClientInput)
    ensures r.finalTranscript == i.finalTranscript + Transcription.FinalText(ev)
    ensures r.transcript == r.finalTranscript + Transcription.InterimText(ev)
  {
    var l := Transcription.OnResult(Transcription.LiveText(i.finalTranscript, i.transcript), ev);
    i.(finalTranscript := l.accumulator, transcript := l.transcript)
  }

  /** `onerror`: listening ends and every code, including no-speech and aborted, is reported. */
  function OnRecognitionError(i: ClientInput, code: string): (r: (ClientInput, Transcription.ErrorNotice))
    ensures r.0 == i.(isListening := false) && r.1 == Transcription.GenericNotice(code)
  {
    (i.(isListening := false), Transcription.GenericNotice(code))
  }

  /** `handleToggleListening`: starting clears the displayed transcript only. */
  function ToggleListening(i: ClientInput): (r: ClientInput)
    ensures !i.hasRecognizer ==> r == i
    ensures i.hasRecognizer ==> r.isListening == !i.isListening
    ensures i.hasRecognizer && !i.isListening ==> r.transcript == ""
    ensures r.finalTranscript == i.finalTranscript
  {
    if !i.hasRecognizer then i
    else if i.isListening then i.(isListening := false)
    else i.(transcript := "", isListening := true)
  }

  // ---------------------------------------------------------------------------
  // Recording and upload

  /** `startRecording`, once the microphone request has been granted or refused. */
  function StartRecording(i: ClientInput, granted: bool): (r: ClientInput)
    ensures !granted ==> r == i
    ensures granted ==> r.recorder == Session.Recording && r.isRecording && r.audioChunks == []
    ensures r.audioBlob == i.audioBlob && r.transcript == i.transcript
  {
    if granted then i.(recorder := Session.Recording, audioChunks := [], isRecording := true) else i
  }

  function ChunkAvailable(i: ClientInput, chunk: string): (r: ClientInput)
    ensures i.recorder == Session.Recording || i.recorder == Session.Finalizing ==> r == i.(audioChunks := i.audioChunks + [chunk])
    ensures i.recorder != Session.Recording && i.recorder != Session.Finalizing ==> r == i
    ensures Concat(r.audioChunks) == Concat(i.audioChunks) + (if i.recorder == Session.Recording || i.recorder == Session.Finalizing then chunk else "")
  {
    ConcatAppend(i.audioChunks, chunk);
    if i.recorder == Session.Recording || i.recorder == Session.Finalizing
    then i.(audioChunks := i.audioChunks + [chunk]) else i
  }

  /** `stopRecording`: acts on any recorder that exists, whatever its state. */
  function StopRecording(i: ClientInput): (r: ClientInput)
    ensures i.recorder == Session.NoRecorder ==> r == i
    ensures i.recorder != Session.NoRecorder ==> !r.isRecording && r.recorder != Session.Recording
  {
    if i.recorder == Session.NoRecorder then i
    else i.(recorder := if i.recorder == Session.Recording then Session.Finalizing else i.recorder,
            isRecording := false)
  }

  /** The recorder's `onstop`: the chunks become the audio blob; no sample is forwarded. */
  function RecorderStopped(i: ClientInput): (r: ClientInput)
    ensures i.recorder == Session.Finalizing ==>
              r.audioBlob == Some(Blob("audio/webm", Concat(i.audioChunks))) && r.audioUrl == Some(ObjectUrl(r.audioBlob.value))
    ensures i.recorder != Session.Finalizing ==> r == i
  {
    if i.recorder == Session.Finalizing then
      var blob := Blob("audio/webm", Concat(i.audioChunks));
      i.(recorder := Session.Inactive, audioBlob := Some(blob), audioUrl := Some(ObjectUrl(blob)))
    else i
  }

  /** `clearAudio` */
  function ClearAudio(i: ClientInput): (r: ClientInput)
    ensures r.audioBlob == None && r.audioUrl == None && r.audioChunks == []
    ensures i.isRecording && i.recorder != Session.NoRecorder ==> !r.isRecording && r.recorder != Session.Recording
    ensures r.transcript == i.transcript && r.currentTab == i.currentTab
  {
    var stopped := if i.isRecording then StopRecording(i) else i;
    stopped.(audioBlob := None, audioUrl := None, audioChunks := [])
  }

  /** `handleToggleRecording`: stop, or clear and start afresh. */
  function ToggleRecording(i: ClientInput, granted: bool): (r: ClientInput)
    ensures i.isRecording ==> r == StopRecording(i)
    ensures !i.isRecording ==> r.audioBlob == None && r.audioUrl == None && r.isRecording == granted
  {
    if i.isRecording then StopRecording(i) else StartRecording(ClearAudio(i), granted)
  }

  /** `handleFileChange`: a chosen file becomes the blob and the upload tab is shown. */
  function AudioFileChosen(i: ClientInput, file: Option<Blob>): (r: ClientInput)
    ensures file.None? ==> r == i
    ensures file.Some? ==> r.audioBlob == file && r.currentTab == Upload && r.audioUrl == Some(ObjectUrl(file.value))
  {
    if file.None? then i
    else ClearAudio(i).(audioBlob := file, audioUrl := Some(ObjectUrl(file.value)), currentTab := Upload)
  }

  /** Switching tabs clears the audio and the transcript (but neither the accumulator nor the recognizer). */
  function TabChange(i: ClientInput, tab: Tab): (r: ClientInput)
    ensures r.currentTab == tab && r.transcript == ""
    ensures r.audioBlob == None && r.audioUrl == None && r.audioChunks == []
    ensures r.finalTranscript == i.finalTranscript && r.isListening == i.isListening
  {
    ClearAudio(i).(transcript := "", currentTab := tab)
  }

  // ---------------------------------------------------------------------------
  // Interview mode

  /** `resetInterviewState`, also run by the remove button next to the resume. */
  function ResetInterview(v: ClientInterview): (r: ClientInterview)
    ensures r == NoInterview
  {
    ClientInterview(None, "", [], None)
  }

  /** The extraction request this client builds: the file's plain text under `resumeText`. */
  function ExtractRequest(text: string): Json
  {
    JObj(map["resumeText" := JStr(text)])
  }

  /** The generation request this client builds: the (editable) text alone. */
  function GenerateRequest(resumeInfoText: string): Json
  {
    JObj(map["resumeText" := JStr(resumeInfoText)])
  }

  /**
    `handleResumeFileChange` with `handleExtractResumeInfo`: the file is kept,
    the interview state cleared, and the extractor's reply, if the extractor
    accepts the request, is shown as pretty-printed JSON.
   */
  function ResumeFileChange(v: ClientInterview, file: Option<Blob>, text: string,
                            extract: Json -> Option<ResumeInfo>, stringify: ResumeInfo -> string): (r: ClientInterview)
    ensures file.None? ==> r == v
    ensures file.Some? ==> r.resumeFile == file && r.generatedQuestions == [] && r.activeQuestion == None
    ensures file.Some? && r.resumeInfoText != "" ==> ExtractRequestValid(ExtractRequest(text))
  {
    if file.None? then v
    else
      var cleared := ClientInterview(file, "", [], None);
      var request := ExtractRequest(text);
      var info := if ExtractRequestValid(request) then extract(request) else None;
      if info.Some? then cleared.(resumeInfoText := stringify(info.value)) else cleared
  }

  /**
    `handleGenerateQuestions`: needs resume text; clears list and selection;
    stores the reply only when the generator accepted the request, the reply
    satisfies the output schema and holds at least one question.
   */
  function GenerateQuestions(v: ClientInterview, generate: Json -> Option<Json>): (r: ClientInterview)
    ensures v.resumeInfoText == "" ==> r == v
    ensures v.resumeInfoText != "" ==> r.activeQuestion == None && r.resumeInfoText == v.resumeInfoText
    ensures |r.generatedQuestions| <= MaxQuestions || r == v
    ensures r.generatedQuestions != [] && r != v ==> QuestionRequestValid(GenerateRequest(v.resumeInfoText))
    ensures v.resumeInfoText != "" ==>
              && r.resumeFile == v.resumeFile
              && var request := GenerateRequest(v.resumeInfoText);
                 var reply := if QuestionRequestValid(request) then generate(request) else None;
                 r.generatedQuestions ==
                   (if reply.Some? && QuestionsOutputValid(reply.value) && |DecodeQuestions(reply.value).value| > 0
                    then DecodeQuestions(reply.value).value else [])
  {
    if v.resumeInfoText == "" then v
    else
      var cleared := v.(generatedQuestions := [], activeQuestion := None);
      var request := GenerateRequest(v.resumeInfoText);
      var reply := if QuestionRequestValid(request) then generate(request) else None;
      var questions := if reply.Some? then DecodeQuestions(reply.value) else None;
      if questions.Some? && |questions.value| > 0 then cleared.(generatedQuestions := questions.value) else cleared
  }

  /** Opening or closing an accordion item. */
  function AccordionChange(v: ClientInterview, value: string): (r: ClientInterview)
    ensures r.activeQuestion.Some? ==> r.activeQuestion.value in v.generatedQuestions
  {
    v.(activeQuestion := Accordion.Select(v.generatedQuestions, value))
  }

  /** A mode card click, even on the selected card: interview and practice fields are cleared; inputs and result stay. */
  function ModeCardClicked(s: ClientState, m: ClientMode): (r: ClientState)
    ensures r.mode == m && r.interview == NoInterview && r.question == "" && r.perfectAnswer == ""
    ensures r.input == s.input && r.analysisResult == s.analysisResult
  {
    s.(mode := m, interview := ResetInterview(s.interview), question := "", perfectAnswer := "")
  }

  // ---------------------------------------------------------------------------
  // Analysis

  datatype Rejection = NoTranscription | NoAudio | NoSpeechSample | NoQuestionSelected | MissingQuestionOrAnswer

  datatype RequestOutcome = Accepted(request: AnalyzeRequest) | Rejected(reason: Rejection)

  /** The sample `handleAnalyze` takes from the current tab ("" on any other tab). */
  function TabSample(i: ClientInput): (r: Result)
  {
    match i.currentTab
    case Live => if i.transcript == "" then Failure(NoTranscription) else Success(i.transcript)
    case Record => if i.audioBlob.None? then Failure(NoAudio) else Success(DataUri(i.audioBlob.value))
    case Upload => if i.audioBlob.None? then Failure(NoAudio) else Success(DataUri(i.audioBlob.value))
    case OtherTab(_) => Success("")
  }

  datatype Result = Success(sample: string) | Failure(reason: Rejection)

  /**
    The validation gate and request builder of `handleAnalyze`: the sample
    checks come first, Interview requests are sent as "Practice Mode", and the
    Practice check looks at the UI mode.
   */
  function BuildRequest(s: ClientState): (r: RequestOutcome)
    ensures s.input.currentTab == Live ==>
              (r == Rejected(NoTranscription) <==> s.input.transcript == "")
              && (r.Accepted? ==> r.request.speechSample == s.input.transcript)
    ensures (s.input.currentTab == Record || s.input.currentTab == Upload) ==>
              (r == Rejected(NoAudio) <==> s.input.audioBlob.None?)
              && (r.Accepted? ==> r.request.speechSample == DataUri(s.input.audioBlob.value))
    ensures s.input.currentTab.OtherTab? ==> r == Rejected(NoSpeechSample)
    ensures r.Accepted? ==> r.request.speechSample != ""
    ensures s.mode == Presentation && r.Accepted? ==>
              r.request.mode == "Presentation Mode" && r.request.question.None? && r.request.perfectAnswer.None?
    ensures s.mode == Interview && TabSample(s.input).Success? && TabSample(s.input).sample != "" ==>
              (r.Accepted? <==> s.interview.activeQuestion.Some?)
    ensures s.mode == Interview && r.Accepted? ==>
              && r.request.mode == "Practice Mode"
              && r.request.question == Some(s.interview.activeQuestion.value.question)
              && r.request.perfectAnswer == Some(s.interview.activeQuestion.value.answer)
    ensures s.mode == Practice && TabSample(s.input).Success? && TabSample(s.input).sample != "" ==>
              (r.Accepted? <==> s.question != "" && s.perfectAnswer != "")
    ensures s.mode == Practice && r.Accepted? ==>
              r.request.mode == "Practice Mode"
              && r.request.question == Some(s.question) && r.request.perfectAnswer == Some(s.perfectAnswer)
  {
    match TabSample(s.input)
    case Failure(reason) => Rejected(reason)
    case Success(sample) =>
      if sample == "" then Rejected(NoSpeechSample)
      else
        var base := AnalyzeRequest(sample, ModeLabel(s.mode), None, None);
        match s.mode
        case Presentation => Accepted(base)
        case Interview =>
          var q := s.interview.activeQuestion;
          if q.None? then Rejected(NoQuestionSelected)
          else Accepted(base.(question := Some(q.value.question), perfectAnswer := Some(q.value.answer),
                              mode := "Practice Mode"))
        case Practice =>
          if s.question == "" || s.perfectAnswer == "" then Rejected(MissingQuestionOrAnswer)
          else Accepted(base.(question := Some(s.question), perfectAnswer := Some(s.perfectAnswer)))
  }

  /** `handleAnalyze`: a rejected request changes nothing; otherwise the result is replaced. */
  function Analyze(s: ClientState, service: AnalyzeRequest -> Option<AnalysisOutput>): (r: ClientState)
    ensures BuildRequest(s).Rejected? ==> r == s
    ensures BuildRequest(s).Accepted? ==> r == s.(analysisResult := service(BuildRequest(s).request))
  {
    match BuildRequest(s)
    case Rejected(_) => s
    case Accepted(req) => s.(analysisResult := service(req))
  }
}

=== FILE: grouping.dfy ===
/**
  The `groupedCriteria` reduce of the report generator (src/lib/pdf.ts):
  criteria are collected per category into an object, whose entries are then
  visited in insertion order.
 */
module Grouping {

  import opened Basics
  import opened Schemas

  datatype Group = Group(category: string, items: seq<Criterion>)

  /** Where the object already has an entry for `key`. */
  function IndexOf(gs: seq<Group>, key: string): (r: Option<nat>)
    ensures r.Some? ==> r.value < |gs| && gs[r.value].category == key
    ensures r.None? ==> forall i :: 0 <= i < |gs| ==> gs[i].category != key
  {
    if |gs| == 0 then None
    else if gs[0].category == key then Some(0)
    else
      var rest := IndexOf(gs[1..], key);
      if rest.Some? then Some(rest.value + 1) else None
  }

  /** One step of the reduce: push onto the existing entry, or create it at the end. */
  function AddCriterion(gs: seq<Group>, c: Criterion): seq<Group>
  {
    match IndexOf(gs, c.category)
    case None => gs + [Group(c.category, [c])]
    case Some(i) => gs[i := Group(c.category, gs[i].items + [c])]
  }

  /** The reduce over the criteria, in order. */
  function GroupByCategory(cs: seq<Criterion>): seq<Group>
  {
    if |cs| == 0 then [] else AddCriterion(GroupByCategory(cs[..|cs| - 1]), cs[|cs| - 1])
  }

  // ---------------------------------------------------------------------------
  // Reference definitions

  /** The criteria of one category, in input order. */
  function InCategory(cs: seq<Criterion>, key: string): seq<Criterion>
  {
    if |cs| == 0 then []
    else if cs[|cs| - 1].category == key then InCategory(cs[..|cs| - 1], key) + [cs[|cs| - 1]]
    else InCategory(cs[..|cs| - 1], key)
  }

  /** The categories in order of first occurrence. */
  function CategoryOrder(cs: seq<Criterion>): seq<string>
  {
    if |cs| == 0 then []
    else
      var earlier := CategoryOrder(cs[..|cs| - 1]);
      if cs[|cs| - 1].category in earlier then earlier else earlier + [cs[|cs| - 1].category]
  }

  predicate Distinct(ks: seq<string>)
  {
    forall i, j :: 0 <= i < j < |ks| ==> ks[i] != ks[j]
  }

  lemma {:induction false} CategoryOrderFacts(cs: seq<Criterion>)
    ensures Distinct(CategoryOrder(cs))
    ensures forall k :: k in CategoryOrder(cs) <==> exists c :: c in cs && c.category == k
  {
    if |cs| > 0 {
      var init := cs[..|cs| - 1];
      CategoryOrderFacts(init);
      forall k ensures k in CategoryOrder(cs) <==> exists c :: c in cs && c.category == k {
        if k in CategoryOrder(cs) && k != cs[|cs| - 1].category {
          var c :| c in init && c.category == k;
          assert c in cs;
        }
        if exists c :: c in cs && c.category == k {
          var c :| c in cs && c.category == k;
          if c != cs[|cs| - 1] {
            assert c in init by {
              var i :| 0 <= i < |cs| && cs[i] == c;
              assert i < |cs| - 1 && init[i] == c;
            }
          }
        }
      }
    }
  }

  lemma {:induction false} UnlistedIsEmpty(cs: seq<Criterion>, key: string)
    requires key !in CategoryOrder(cs)
    ensures InCategory(cs, key) == []
  {
    if |cs| > 0 {
      UnlistedIsEmpty(cs[..|cs| - 1], key);
    }
  }

  /**
    The groups are the categories in first-occurrence order, each holding
    exactly the criteria of its category in input order: every criterion lands
    in the one group of its category.
   */
  lemma {:induction false} GroupsMatchReference(cs: seq<Criterion>)
    ensures var gs := GroupByCategory(cs);
            && |gs| == |CategoryOrder(cs)|
            && (forall i :: 0 <= i < |gs| ==> gs[i].category == CategoryOrder(cs)[i])
            && (forall i :: 0 <= i < |gs| ==> gs[i].items == InCategory(cs, gs[i].category))
  {
    if |cs| > 0 {
      var init := cs[..|cs| - 1];
      var c := cs[|cs| - 1];
      GroupsMatchReference(init);
      CategoryOrderFacts(init);
      var prev := GroupByCategory(init);
      var gs := GroupByCategory(cs);
      assert gs == AddCriterion(prev, c);
      match IndexOf(prev, c.category)
      case None =>
        assert c.category !in CategoryOrder(init) by {
          forall i | 0 <= i < |CategoryOrder(init)| ensures CategoryOrder(init)[i] != c.category {
            assert prev[i].category == CategoryOrder(init)[i];
          }
        }
        UnlistedIsEmpty(init, c.category);
        assert CategoryOrder(cs) == CategoryOrder(init) + [c.category];
      case Some(j) =>
        assert c.category in CategoryOrder(init) by {
          assert CategoryOrder(init)[j] == c.category;
        }
        assert CategoryOrder(cs) == CategoryOrder(init);
        forall i | 0 <= i < |gs| ensures gs[i].items == InCategory(cs, gs[i].category) {
          if i != j {
            assert CategoryOrder(init)[i] != CategoryOrder(init)[j];
          }
        }
    }
  }

  /** The categories of the groups are pairwise different. */
  lemma GroupsDistinct(cs: seq<Criterion>)
    ensures forall i, j :: 0 <= i < j < |GroupByCategory(cs)| ==>
              GroupByCategory(cs)[i].category != GroupByCategory(cs)[j].category
  {
    GroupsMatchReference(cs);
    CategoryOrderFacts(cs);
  }

  lemma {:induction false} InCategoryFacts(cs: seq<Criterion>, key: string)
    ensures forall c :: c in InCategory(cs, key) ==> c.category == key && c in cs
    ensures forall k :: 0 <= k < |cs| && cs[k].category == key ==> cs[k] in InCategory(cs, key)
  {
    if |cs| > 0 {
      var init := cs[..|cs| - 1];
      InCategoryFacts(init, key);
      forall k | 0 <= k < |cs| && cs[k].category == key ensures cs[k] in InCategory(cs, key) {
        if k < |cs| - 1 {
          assert init[k] == cs[k];
        }
      }
    }
  }

  /** Each criterion is in the group of its own category, and a group holds only its own category. */
  lemma EveryCriterionPlaced(cs: seq<Criterion>)
    ensures var gs := GroupByCategory(cs);
            && (forall k :: 0 <= k < |cs| ==>
                  exists i :: 0 <= i < |gs| && gs[i].category == cs[k].category && cs[k] in gs[i].items)
            && (forall i, c :: 0 <= i < |gs| && c in gs[i].items ==> c.category == gs[i].category)
  {
    var gs := GroupByCategory(cs);
    GroupsMatchReference(cs);
    CategoryOrderFacts(cs);
    forall k | 0 <= k < |cs|
      ensures exists i :: 0 <= i < |gs| && gs[i].category == cs[k].category && cs[k] in gs[i].items
    {
      assert cs[k] in cs;
      assert cs[k].category in CategoryOrder(cs);
      var i :| 0 <= i < |CategoryOrder(cs)| && CategoryOrder(cs)[i] == cs[k].category;
      InCategoryFacts(cs, cs[k].category);
      assert cs[k] in gs[i].items;
    }
    forall i, c | 0 <= i < |gs| && c in gs[i].items ensures c.category == gs[i].category {
      InCategoryFacts(cs, gs[i].category);
    }
  }
}

=== FILE: json.dfy ===
/**
  A parsed JSON value as the schema validator sees it: objects are maps from
  property name to value, so an absent optional property is an absent key.
 */
module Json {

  import opened Basics

  datatype Json =
    | JNull
    | JBool(b: bool)
    | JNum(n: real)
    | JStr(s: string)
    | JArr(items: seq<Json>)
    | JObj(fields: map<string, Json>)

  /** `z.string()` */
  predicate IsString(j: Json) {
    j.JStr?
  }

  /** `z.number()`: JSON numbers are finite, so every parsed number qualifies. */
  predicate IsNumber(j: Json) {
    j.JNum?
  }

  /** `z.number().min(lo).max(hi)` */
  predicate IsNumberIn(j: Json, lo: real, hi: real) {
    j.JNum? && lo <= j.n <= hi
  }

  /** `z.enum(options)` */
  predicate IsOneOf(j: Json, options: set<string>) {
    j.JStr? && j.s in options
  }

  /** `z.array(p)` */
  predicate IsArrayOf(j: Json, p: Json -> bool) {
    j.JArr? && forall i :: 0 <= i < |j.items| ==> p(j.items[i])
  }

  /** `z.array(z.string())` */
  predicate IsStringArray(j: Json) {
    IsArrayOf(j, IsString)
  }

  /** A required property of a `z.object`: present and valid. */
  predicate Required(j: Json, key: string, p: Json -> bool) {
    j.JObj? && key in j.fields && p(j.fields[key])
  }

  /** An `.optional()` property of a `z.object`: absent, or present and valid. */
  predicate Optional(j: Json, key: string, p: Json -> bool) {
    j.JObj? && (key !in j.fields || p(j.fields[key]))
  }

  /** Adds an optional property: present only when the value is (how `undefined` is serialised). */
  function PutOptional(fields: map<string, Json>, key: string, value: Option<Json>): map<string, Json>
  {
    if value.Some? then fields[key := value.value] else fields
  }

  function OptString(value: Option<string>): Option<Json>
  {
    if value.Some? then Some(JStr(value.value)) else None
  }

  /** The JSON array of the given strings. */
  function StringArray(xs: seq<string>): (j: Json)
    ensures IsStringArray(j)
    ensures |j.items| == |xs|
  {
    JArr(seq(|xs|, i requires 0 <= i < |xs| => JStr(xs[i])))
  }
}

=== FILE: report.dfy ===
/**
  The layout bookkeeping of the PDF report (src/lib/pdf.ts): the report is a
  list of layout operations on a vertical cursor, built from an analysis
  result; running the list places each drawn element on a page at a height.
  Drawing itself is not modelled, and line wrapping is a parameter giving the
  number of lines a text takes at a width.
 */
module Report {

  import opened Basics
  import opened Schemas
  import opened Grouping

  const Margin: real := 15.0
  const LineHeight: real := 7.0
  /** Vertical room the header takes, with or without the logo. */
  const HeaderHeight: real := 30.0

  /** `splitTextToSize(text, width).length` */
  type Wrap = (string, real) -> nat

  datatype Cursor = Cursor(page: nat, y: real)

  /** The first page, with the cursor at the top margin. */
  const Start := Cursor(1, 15.0)

  /** `checkY(increment)`: a new page when the increment would cross the bottom margin. */
  function CheckY(c: Cursor, increment: real, pageHeight: real): (r: Cursor)
    ensures c.y + increment > pageHeight - Margin ==> r == Cursor(c.page + 1, Margin)
    ensures c.y + increment <= pageHeight - Margin ==> r == c
    ensures r == c || r.page == c.page + 1
    ensures increment <= pageHeight - 2.0 * Margin ==> r.y + increment <= pageHeight - Margin
  {
    if c.y + increment > pageHeight - Margin then Cursor(c.page + 1, Margin) else c
  }

  datatype ParagraphKind = Assessment | Transcription | Evaluation | Comparison | Feedback | Suggestion

  /** What is drawn. */
  datatype Element =
    | Logo
    | Brand(besideLogo: bool)
    | ReportTitle
    | SectionTitle(name: string)
    | Rule
    | TotalScore(score: real)
    | Paragraph(kind: ParagraphKind, text: string, lines: nat)
    | Metric(metric: string)
    | CategoryTitle(category: string)
    | CriterionTitle(criteria: string, score: real)

  datatype Op = Check(increment: real) | Advance(dy: real) | Draw(e: Element)

  datatype Placed = Placed(at: Cursor, e: Element)

  datatype Layout = Layout(cursor: Cursor, placed: seq<Placed>)

  /** Runs the operations from a cursor: each drawn element is placed where the cursor is. */
  function Run(ops: seq<Op>, c: Cursor, pageHeight: real): (r: Layout)
    ensures |r.placed| <= |ops|
  {
    if |ops| == 0 then Layout(c, [])
    else
      var (next, drawn) := match ops[0]
        case Check(inc) => (CheckY(c, inc, pageHeight), [])
        case Advance(dy) => (c.(y := c.y + dy), [])
        case Draw(e) => (c, [Placed(c, e)]);
      var rest := Run(ops[1..], next, pageHeight);
      Layout(rest.cursor, drawn + rest.placed)
  }

  // ---------------------------------------------------------------------------
  // The report's operations, section by section

  function FullWidth(pageWidth: real): real { pageWidth - Margin * 2.0 }

  function IndentedWidth(pageWidth: real): real { pageWidth - Margin * 2.0 - 5.0 }

  /** The brand line, beside the logo when the logo loads; either way the cursor moves by 30. */
  function HeaderOps(logoLoaded: bool): seq<Op>
  {
    (if logoLoaded then [Draw(Logo), Draw(Brand(true))] else [Draw(Brand(false))]) + [Advance(HeaderHeight)]
  }

  /** A section heading with its rule. */
  function Heading(name: string): seq<Op>
  {
    [Draw(SectionTitle(name)), Advance(LineHeight), Draw(Rule), Advance(LineHeight)]
  }

  function AssessmentOps(o: AnalysisOutput, wrap: Wrap, pageWidth: real): seq<Op>
  {
    var n := wrap(o.overallAssessment, FullWidth(pageWidth));
    [Draw(ReportTitle), Advance(LineHeight * 2.0)]
    + Heading("Overall Assessment")
    + [Draw(TotalScore(o.totalScore)), Advance(LineHeight),
       Draw(Paragraph(Assessment, o.overallAssessment, n)), Advance(n as real * LineHeight + LineHeight)]
  }

  /** The segment texts joined by single spaces. */
  function TranscriptionText(segments: seq<Segment>): string
  {
    Join(seq(|segments|, i requires 0 <= i < |segments| => segments[i].text), " ")
  }

  predicate HasTranscription(o: AnalysisOutput)
  {
    o.highlightedTranscription.Some? && |o.highlightedTranscription.value| > 0
  }

  function TranscriptionOps(o: AnalysisOutput, wrap: Wrap, pageWidth: real): seq<Op>
  {
    if HasTranscription(o) then
      var text := TranscriptionText(o.highlightedTranscription.value);
      var n := wrap(text, FullWidth(pageWidth));
      [Check(LineHeight * 3.0)] + Heading("Full Transcription")
      + [Draw(Paragraph(Transcription, text, n)), Advance(n as real * LineHeight + LineHeight)]
    else []
  }

  const BaseMetrics: seq<string> := [
    "Word Count", "Filler Words", "Speech Rate (WPM)", "Pitch Variance",
    "Average Pause (ms)", "Pace Score", "Clarity Score", "Pause Time"]

  const DurationMetric: string := "Audio Duration (s)"

  /** The metric lines: eight always, the audio duration only when it is present and non-zero. */
  function Metrics(m: Metadata): (r: seq<string>)
    ensures |r| == (if m.audioDurationSeconds.Some? && m.audioDurationSeconds.value != 0.0 then 9 else 8)
    ensures r[..8] == BaseMetrics
    ensures |r| == 9 ==> r[8] == DurationMetric
  {
    if m.audioDurationSeconds.Some? && m.audioDurationSeconds.value != 0.0 then BaseMetrics + [DurationMetric]
    else BaseMetrics
  }

  function MetricLines(labels: seq<string>): (r: seq<Op>)
    ensures |r| == 3 * |labels|
  {
    if |labels| == 0 then []
    else [Check(0.0), Draw(Metric(labels[0])), Advance(LineHeight)] + MetricLines(labels[1..])
  }

  function MetricsOps(m: Metadata): seq<Op>
  {
    [Check(LineHeight * 2.0)] + Heading("Key Metrics") + MetricLines(Metrics(m)) + [Advance(LineHeight)]
  }

  /** One criterion: title, evaluation, the comparison when it is non-empty, feedback. */
  function CriterionOps(c: Criterion, wrap: Wrap, pageWidth: real): seq<Op>
  {
    var w := IndentedWidth(pageWidth);
    var evalText := "Evaluation: " + c.evaluation;
    var ne := wrap(evalText, w);
    var feedbackText := "Feedback: " + c.feedback;
    var nf := wrap(feedbackText, w);
    var comparison :=
      if TruthyOpt(c.comparison) then
        var compText := "Comparison: " + c.comparison.value;
        var nc := wrap(compText, w);
        [Check(nc as real * LineHeight), Draw(Paragraph(Comparison, compText, nc)), Advance(nc as real * LineHeight)]
      else [];
    [Check(LineHeight * 5.0), Draw(CriterionTitle(c.criteria, c.score)), Advance(LineHeight),
     Check(ne as real * LineHeight), Draw(Paragraph(Evaluation, evalText, ne)), Advance(ne as real * LineHeight)]
    + comparison
    + [Check(nf as real * LineHeight), Draw(Paragraph(Feedback, feedbackText, nf)),
       Advance(nf as real * LineHeight + LineHeight / 2.0)]
  }

  function CriteriaOps(cs: seq<Criterion>, wrap: Wrap, pageWidth: real): seq<Op>
  {
    if |cs| == 0 then [] else CriterionOps(cs[0], wrap, pageWidth) + CriteriaOps(cs[1..], wrap, pageWidth)
  }

  function GroupOps(gs: seq<Group>, wrap: Wrap, pageWidth: real): seq<Op>
  {
    if |gs| == 0 then []
    else
      [Check(LineHeight * 2.0), Draw(CategoryTitle(gs[0].category)), Advance(LineHeight)]
      + CriteriaOps(gs[0].items, wrap, pageWidth) + GroupOps(gs[1..], wrap, pageWidth)
  }

  function FeedbackOps(o: AnalysisOutput, wrap: Wrap, pageWidth: real): seq<Op>
  {
    [Check(LineHeight * 2.0)] + Heading("Detailed Feedback")
    + GroupOps(GroupByCategory(o.evaluationCriteria), wrap, pageWidth)
  }

  function SuggestionOps(o: AnalysisOutput, wrap: Wrap, pageWidth: real): seq<Op>
  {
    if TruthyOpt(o.suggestedSpeech) then
      var n := wrap(o.suggestedSpeech.value, FullWidth(pageWidth));
      [Check(LineHeight * 3.0)] + Heading("Suggested Delivery Example")
      + [Check(n as real * LineHeight), Draw(Paragraph(Suggestion, o.suggestedSpeech.value, n)),
         Advance(n as real * LineHeight)]
    else []
  }

  /** `generatePdfReport`'s layout, whether or not the logo could be loaded. */
  function ReportOps(o: AnalysisOutput, logoLoaded: bool, wrap: Wrap, pageWidth: real): seq<Op>
  {
    HeaderOps(logoLoaded)
    + AssessmentOps(o, wrap, pageWidth)
    + TranscriptionOps(o, wrap, pageWidth)
    + MetricsOps(o.metadata)
    + FeedbackOps(o, wrap, pageWidth)
    + SuggestionOps(o, wrap, pageWidth)
  }
}

=== FILE: report_laws.dfy ===
/**
  What the report layout guarantees: elements are placed in reading order
  (page by page, downwards within a page), the header costs the same with and
  without the logo, and which sections, metrics, categories and paragraphs
  appear under which conditions.
 */
module ReportLaws {

  import opened Basics
  import opened Schemas
  import opened Grouping
  import opened Report

  // ---------------------------------------------------------------------------
  // Reading order

  /** `a` is not below `b` in reading order: an earlier page, or the same page and not lower. */
  predicate Le(a: Cursor, b: Cursor)
  {
    a.page < b.page || (a.page == b.page && a.y <= b.y)
  }

  predicate NonNegative(ops: seq<Op>)
  {
    forall i :: 0 <= i < |ops| && ops[i].Advance? ==> ops[i].dy >= 0.0
  }

  /**
    With non-negative advances, running the operations never moves the cursor
    back: every element is placed at or after the starting cursor, at or before
    the final one, and after every element placed before it. In particular the
    cursor only grows between page breaks.
   */
  lemma {:induction false} RunInReadingOrder(ops: seq<Op>, c: Cursor, pageHeight: real)
    requires NonNegative(ops)
    ensures var r := Run(ops, c, pageHeight);
            && Le(c, r.cursor)
            && (forall i :: 0 <= i < |r.placed| ==> Le(c, r.placed[i].at) && Le(r.placed[i].at, r.cursor))
            && (forall i, j :: 0 <= i < j < |r.placed| ==> Le(r.placed[i].at, r.placed[j].at))
  {
    if |ops| > 0 {
      var next := match ops[0]
        case Check(inc) => CheckY(c, inc, pageHeight)
        case Advance(dy) => c.(y := c.y + dy)
        case Draw(e) => c;
      assert ops[0].Advance? ==> ops[0].dy >= 0.0;
      assert Le(c, next);
      assert NonNegative(ops[1..]) by {
        forall i | 0 <= i < |ops[1..]| && ops[1..][i].Advance? ensures ops[1..][i].dy >= 0.0 {
          assert ops[1..][i] == ops[i + 1];
        }
      }
      RunInReadingOrder(ops[1..], next, pageHeight);
    }
  }

  lemma {:induction false} NonNegativeAppend(a: seq<Op>, b: seq<Op>)
    requires NonNegative(a) && NonNegative(b)
    ensures NonNegative(a + b)
  {
    forall i | 0 <= i < |a + b| && (a + b)[i].Advance? ensures (a + b)[i].dy >= 0.0 {
      if i >= |a| {
        assert (a + b)[i] == b[i - |a|];
      }
    }
  }

  lemma {:induction false} MetricLinesNonNegative(labels: seq<string>)
    ensures NonNegative(MetricLines(labels))
  {
    if |labels| > 0 {
      MetricLinesNonNegative(labels[1..]);
      NonNegativeAppend([Check(0.0), Draw(Metric(labels[0])), Advance(LineHeight)], MetricLines(labels[1..]));
    }
  }

  lemma CriterionNonNegative(c: Criterion, wrap: Wrap, pageWidth: real)
    ensures NonNegative(CriterionOps(c, wrap, pageWidth))
  {
  }

  lemma {:induction false} CriteriaNonNegative(cs: seq<Criterion>, wrap: Wrap, pageWidth: real)
    ensures NonNegative(CriteriaOps(cs, wrap, pageWidth))
  {
    if |cs| > 0 {
      CriterionNonNegative(cs[0], wrap, pageWidth);
      CriteriaNonNegative(cs[1..], wrap, pageWidth);
      NonNegativeAppend(CriterionOps(cs[0], wrap, pageWidth), CriteriaOps(cs[1..], wrap, pageWidth));
    }
  }

  lemma {:induction false} GroupsNonNegative(gs: seq<Group>, wrap: Wrap, pageWidth: real)
    ensures NonNegative(GroupOps(gs, wrap, pageWidth))
  {
    if |gs| > 0 {
      var head := [Check(LineHeight * 2.0), Draw(CategoryTitle(gs[0].category)), Advance(LineHeight)];
      CriteriaNonNegative(gs[0].items, wrap, pageWidth);
      GroupsNonNegative(gs[1..], wrap, pageWidth);
      NonNegativeAppend(head, CriteriaOps(gs[0].items, wrap, pageWidth));
      NonNegativeAppend(head + CriteriaOps(gs[0].items, wrap, pageWidth), GroupOps(gs[1..], wrap, pageWidth));
    }
  }

  lemma MetricsNonNegative(m: Metadata)
    ensures NonNegative(MetricsOps(m))
  {
    var head := [Check(LineHeight * 2.0)] + Heading("Key Metrics");
    MetricLinesNonNegative(Metrics(m));
    NonNegativeAppend(head, MetricLines(Metrics(m)));
    NonNegativeAppend(head + MetricLines(Metrics(m)), [Advance(LineHeight)]);
  }

  lemma FeedbackNonNegative(o: AnalysisOutput, wrap: Wrap, pageWidth: real)
    ensures NonNegative(FeedbackOps(o, wrap, pageWidth))
  {
    var groups := GroupOps(GroupByCategory(o.evaluationCriteria), wrap, pageWidth);
    GroupsNonNegative(GroupByCategory(o.evaluationCriteria), wrap, pageWidth);
    NonNegativeAppend([Check(LineHeight * 2.0)] + Heading("Detailed Feedback"), groups);
  }

  lemma HeaderNonNegative(logoLoaded: bool)
    ensures NonNegative(HeaderOps(logoLoaded))
  {
  }

  lemma AssessmentNonNegative(o: AnalysisOutput, wrap: Wrap, pageWidth: real)
    ensures NonNegative(AssessmentOps(o, wrap, pageWidth))
  {
  }

  lemma TranscriptionNonNegative(o: AnalysisOutput, wrap: Wrap, pageWidth: real)
    ensures NonNegative(TranscriptionOps(o, wrap, pageWidth))
  {
  }

  lemma SuggestionNonNegative(o: AnalysisOutput, wrap: Wrap, pageWidth: real)
    ensures NonNegative(SuggestionOps(o, wrap, pageWidth))
  {
  }

  lemma ReportNonNegative(o: AnalysisOutput, logoLoaded: bool, wrap: Wrap, pageWidth: real)
    ensures NonNegative(ReportOps(o, logoLoaded, wrap, pageWidth))
  {
    var header := HeaderOps(logoLoaded);
    var assessment := AssessmentOps(o, wrap, pageWidth);
    var transcription := TranscriptionOps(o, wrap, pageWidth);
    var metrics := MetricsOps(o.metadata);
    var feedback := FeedbackOps(o, wrap, pageWidth);
    var suggestion := SuggestionOps(o, wrap, pageWidth);
    HeaderNonNegative(logoLoaded);
    AssessmentNonNegative(o, wrap, pageWidth);
    TranscriptionNonNegative(o, wrap, pageWidth);
    MetricsNonNegative(o.metadata);
    FeedbackNonNegative(o, wrap, pageWidth);
    SuggestionNonNegative(o, wrap, pageWidth);
    NonNegativeAppend(header, assessment);
    NonNegativeAppend(header + assessment, transcription);
    NonNegativeAppend(header + assessment + transcription, metrics);
    NonNegativeAppend(header + assessment + transcription + metrics, feedback);
    NonNegativeAppend(header + assessment + transcription + metrics + feedback, suggestion);
  }

  /** Every advance in the report is non-negative, so the whole report is laid out in reading order. */
  lemma ReportInReadingOrder(o: AnalysisOutput, logoLoaded: bool, wrap: Wrap, pageWidth: real, pageHeight: real)
    ensures var r := Run(ReportOps(o, logoLoaded, wrap, pageWidth), Start, pageHeight);
            forall i, j :: 0 <= i < j < |r.placed| ==> Le(r.placed[i].at, r.placed[j].at)
  {
    ReportNonNegative(o, logoLoaded, wrap, pageWidth);
    RunInReadingOrder(ReportOps(o, logoLoaded, wrap, pageWidth), Start, pageHeight);
  }

  /** The header moves the cursor down by 30 on the same page, whether or not the logo loaded. */
  lemma HeaderHeightFixed(logoLoaded: bool, c: Cursor, pageHeight: real)
    ensures Run(HeaderOps(logoLoaded), c, pageHeight).cursor == Cursor(c.page, c.y + HeaderHeight)
    ensures Run(HeaderOps(logoLoaded), c, pageHeight).cursor == Run(HeaderOps(!logoLoaded), c, pageHeight).cursor
  {
    var last := [Advance(HeaderHeight)];
    assert Run(last, c, pageHeight).cursor == Cursor(c.page, c.y + HeaderHeight) by {
      assert last[1..] == [];
    }
    var plain := [Draw(Brand(false))] + last;
    assert plain[1..] == last;
    var withLogo := [Draw(Logo), Draw(Brand(true))] + last;
    assert withLogo[1..] == [Draw(Brand(true))] + last;
    assert withLogo[1..][1..] == last;
  }

  // ---------------------------------------------------------------------------
  // What is drawn

  function DrawnBy(op: Op): seq<Element>
  {
    if op.Draw? then [op.e] else []
  }

  /** The elements the operations draw, in order. */
  function Drawn(ops: seq<Op>): seq<Element>
  {
    if |ops| == 0 then [] else DrawnBy(ops[0]) + Drawn(ops[1..])
  }

  lemma {:induction false} DrawnAppend(a: seq<Op>, b: seq<Op>)
    ensures Drawn(a + b) == Drawn(a) + Drawn(b)
  {
    if |a| == 0 {
      assert a + b == b;
    } else {
      assert (a + b)[0] == a[0];
      assert (a + b)[1..] == a[1..] + b;
      assert Drawn(a + b) == DrawnBy(a[0]) + Drawn(a[1..] + b);
      DrawnAppend(a[1..], b);
    }
  }

  lemma Drawn1(a: Op)
    ensures Drawn([a]) == DrawnBy(a)
  {
    assert [a][1..] == [];
  }

  lemma Drawn2(a: Op, b: Op)
    ensures Drawn([a, b]) == DrawnBy(a) + DrawnBy(b)
  {
    assert [a, b][1..] == [b];
    Drawn1(b);
  }

  lemma Drawn3(a: Op, b: Op, c: Op)
    ensures Drawn([a, b, c]) == DrawnBy(a) + DrawnBy(b) + DrawnBy(c)
  {
    assert [a, b, c][1..] == [b, c];
    Drawn2(b, c);
  }

  /** One element drawn between two operations that draw nothing. */
  lemma DrawnFramed(a: Op, e: Element, b: Op)
    requires !a.Draw? && !b.Draw?
    ensures Drawn([a, Draw(e), b]) == [e]
  {
    Drawn3(a, Draw(e), b);
  }

  lemma Drawn4(a: Op, b: Op, c: Op, d: Op)
    ensures Drawn([a, b, c, d]) == DrawnBy(a) + DrawnBy(b) + DrawnBy(c) + DrawnBy(d)
  {
    assert [a, b, c, d][1..] == [b, c, d];
    Drawn3(b, c, d);
  }

  /** The elements a projection picks out, in order. */
  function Pick<T>(es: seq<Element>, f: Element -> Option<T>): seq<T>
  {
    if |es| == 0 then [] else (if f(es[0]).Some? then [f(es[0]).value] else []) + Pick(es[1..], f)
  }

  lemma {:induction false} PickAppend<T>(a: seq<Element>, b: seq<Element>, f: Element -> Option<T>)
    ensures Pick(a + b, f) == Pick(a, f) + Pick(b, f)
  {
    if |a| == 0 {
      assert a + b == b;
    } else {
      assert (a + b)[0] == a[0];
      assert (a + b)[1..] == a[1..] + b;
      PickAppend(a[1..], b, f);
    }
  }

  lemma PickOne<T>(e: Element, f: Element -> Option<T>)
    ensures Pick([e], f) == (if f(e).Some? then [f(e).value] else [])
  {
    assert [e][1..] == [];
  }

  function SectionOf(e: Element): Option<string>
  {
    if e.SectionTitle? then Some(e.name) else None
  }

  function MetricOf(e: Element): Option<string>
  {
    if e.Metric? then Some(e.metric) else None
  }

  function CategoryOf(e: Element): Option<string>
  {
    if e.CategoryTitle? then Some(e.category) else None
  }

  function ParagraphOf(e: Element): Option<ParagraphKind>
  {
    if e.Paragraph? then Some(e.kind) else None
  }

  /** The section headings drawn by the operations. */
  function Sections(ops: seq<Op>): seq<string> { Pick(Drawn(ops), SectionOf) }

  /** The metric lines drawn by the operations. */
  function MetricsDrawn(ops: seq<Op>): seq<string> { Pick(Drawn(ops), MetricOf) }

  /** The category headings drawn by the operations. */
  function CategoriesDrawn(ops: seq<Op>): seq<string> { Pick(Drawn(ops), CategoryOf) }

  /** The kinds of the paragraphs drawn by the operations. */
  function ParagraphKinds(ops: seq<Op>): seq<ParagraphKind> { Pick(Drawn(ops), ParagraphOf) }

  lemma PickOpsAppend<T>(a: seq<Op>, b: seq<Op>, f: Element -> Option<T>)
    ensures Pick(Drawn(a + b), f) == Pick(Drawn(a), f) + Pick(Drawn(b), f)
  {
    DrawnAppend(a, b);
    PickAppend(Drawn(a), Drawn(b), f);
  }

  /** The elements one criterion draws: its title, the evaluation, the comparison when non-empty, the feedback. */
  lemma CriterionElements(c: Criterion, wrap: Wrap, pageWidth: real)
    ensures var w := IndentedWidth(pageWidth);
            Drawn(CriterionOps(c, wrap, pageWidth))
              == [CriterionTitle(c.criteria, c.score),
                  Paragraph(Evaluation, "Evaluation: " + c.evaluation, wrap("Evaluation: " + c.evaluation, w))]
                 + (if TruthyOpt(c.comparison)
                    then [Paragraph(Comparison, "Comparison: " + c.comparison.value, wrap("Comparison: " + c.comparison.value, w))]
                    else [])
                 + [Paragraph(Feedback, "Feedback: " + c.feedback, wrap("Feedback: " + c.feedback, w))]
  {
    var w := IndentedWidth(pageWidth);
    var evalText := "Evaluation: " + c.evaluation;
    var ne := wrap(evalText, w);
    var feedbackText := "Feedback: " + c.feedback;
    var nf := wrap(feedbackText, w);
    var first := [Check(LineHeight * 5.0), Draw(CriterionTitle(c.criteria, c.score)), Advance(LineHeight)];
    var second := [Check(ne as real * LineHeight), Draw(Paragraph(Evaluation, evalText, ne)), Advance(ne as real * LineHeight)];
    var comparison :=
      if TruthyOpt(c.comparison) then
        var compText := "Comparison: " + c.comparison.value;
        var nc := wrap(compText, w);
        [Check(nc as real * LineHeight), Draw(Paragraph(Comparison, compText, nc)), Advance(nc as real * LineHeight)]
      else [];
    var last := [Check(nf as real * LineHeight), Draw(Paragraph(Feedback, feedbackText, nf)),
                 Advance(nf as real * LineHeight + LineHeight / 2.0)];
    assert CriterionOps(c, wrap, pageWidth) == first + second + comparison + last;
    DrawnFramed(first[0], first[1].e, first[2]);
    DrawnFramed(second[0], second[1].e, second[2]);
    if TruthyOpt(c.comparison) {
      DrawnFramed(comparison[0], comparison[1].e, comparison[2]);
    }
    DrawnFramed(last[0], last[1].e, last[2]);
    DrawnAppend(first, second);
    DrawnAppend(first + second, comparison);
    DrawnAppend(first + second + comparison, last);
  }

  /** A criterion shows its comparison exactly when the comparison is non-empty. */
  lemma CriterionParagraphs(c: Criterion, wrap: Wrap, pageWidth: real)
    ensures ParagraphKinds(CriterionOps(c, wrap, pageWidth))
              == [Evaluation] + (if TruthyOpt(c.comparison) then [Comparison] else []) + [Feedback]
    ensures Sections(CriterionOps(c, wrap, pageWidth)) == []
    ensures MetricsDrawn(CriterionOps(c, wrap, pageWidth)) == []
    ensures CategoriesDrawn(CriterionOps(c, wrap, pageWidth)) == []
  {
    CriterionElements(c, wrap, pageWidth);
    var w := IndentedWidth(pageWidth);
    var title := CriterionTitle(c.criteria, c.score);
    var evaluation := Paragraph(Evaluation, "Evaluation: " + c.evaluation, wrap("Evaluation: " + c.evaluation, w));
    var mid := if TruthyOpt(c.comparison)
               then [Paragraph(Comparison, "Comparison: " + c.comparison.value, wrap("Comparison: " + c.comparison.value, w))]
               else [];
    var feedback := Paragraph(Feedback, "Feedback: " + c.feedback, wrap("Feedback: " + c.feedback, w));
    CriterionShapePicks(title, evaluation, mid, feedback);
  }

  /** The projections of a criterion-shaped element list: a title, then paragraphs. */
  lemma CriterionShapePicks(title: Element, evaluation: Element, mid: seq<Element>, feedback: Element)
    requires title.CriterionTitle?
    requires evaluation.Paragraph? && evaluation.kind == Evaluation
    requires |mid| <= 1 && (|mid| == 1 ==> mid[0].Paragraph? && mid[0].kind == Comparison)
    requires feedback.Paragraph? && feedback.kind == Feedback
    ensures Pick([title, evaluation] + mid + [feedback], ParagraphOf)
              == [Evaluation] + (if |mid| == 1 then [Comparison] else []) + [Feedback]
    ensures Pick([title, evaluation] + mid + [feedback], SectionOf) == []
    ensures Pick([title, evaluation] + mid + [feedback], MetricOf) == []
    ensures Pick([title, evaluation] + mid + [feedback], CategoryOf) == []
  {
    PickSpread(title, evaluation, mid, feedback, ParagraphOf);
    PickSpread(title, evaluation, mid, feedback, SectionOf);
    PickSpread(title, evaluation, mid, feedback, MetricOf);
    PickSpread(title, evaluation, mid, feedback, CategoryOf);
    if |mid| == 1 {
      assert mid == [mid[0]];
      PickOne(mid[0], ParagraphOf);
      PickOne(mid[0], SectionOf);
      PickOne(mid[0], MetricOf);
      PickOne(mid[0], CategoryOf);
    }
  }

  lemma PickSpread<T>(a: Element, b: Element, mid: seq<Element>, z: Element, f: Element -> Option<T>)
    ensures Pick([a, b] + mid + [z], f)
              == (if f(a).Some? then [f(a).value] else []) + (if f(b).Some? then [f(b).value] else [])
                 + Pick(mid, f) + (if f(z).Some? then [f(z).value] else [])
  {
    PickOne(a, f);
    PickOne(b, f);
    PickOne(z, f);
    assert [a, b] == [a] + [b];
    PickAppend([a], [b], f);
    PickAppend([a, b], mid, f);
    PickAppend([a, b] + mid, [z], f);
  }

  /** The elements the metric lines draw: one metric line per label. */
  lemma {:induction false} MetricLinesElements(labels: seq<string>)
    ensures |Drawn(MetricLines(labels))| == |labels|
    ensures forall i :: 0 <= i < |labels| ==> Drawn(MetricLines(labels))[i] == Metric(labels[i])
  {
    if |labels| > 0 {
      var head := [Check(0.0), Draw(Metric(labels[0])), Advance(LineHeight)];
      Drawn3(head[0], head[1], head[2]);
      DrawnAppend(head, MetricLines(labels[1..]));
      MetricLinesElements(labels[1..]);
      var d := Drawn(MetricLines(labels));
      assert d == [Metric(labels[0])] + Drawn(MetricLines(labels[1..]));
      forall i | 0 <= i < |labels| ensures d[i] == Metric(labels[i]) {
        if i > 0 {
          assert d[i] == Drawn(MetricLines(labels[1..]))[i - 1];
        }
      }
    }
  }

  /** A projection that picks every element maps the list element by element. */
  lemma {:induction false} PickAll<T>(es: seq<Element>, f: Element -> Option<T>)
    requires forall i :: 0 <= i < |es| ==> f(es[i]).Some?
    ensures |Pick(es, f)| == |es|
    ensures forall i :: 0 <= i < |es| ==> Pick(es, f)[i] == f(es[i]).value
  {
    if |es| > 0 {
      PickAll(es[1..], f);
      var r := Pick(es, f);
      assert r == [f(es[0]).value] + Pick(es[1..], f);
      forall i | 0 <= i < |es| ensures r[i] == f(es[i]).value {
        if i > 0 {
          assert r[i] == Pick(es[1..], f)[i - 1];
        }
      }
    }
  }

  /** A projection that picks no element picks nothing. */
  lemma {:induction false} PickNone<T>(es: seq<Element>, f: Element -> Option<T>)
    requires forall i :: 0 <= i < |es| ==> f(es[i]).None?
    ensures Pick(es, f) == []
  {
    if |es| > 0 {
      PickNone(es[1..], f);
    }
  }

  /** The metric lines draw exactly the given labels, in order, and no section or category heading. */
  lemma MetricLinesDrawn(labels: seq<string>)
    ensures MetricsDrawn(MetricLines(labels)) == labels
    ensures Sections(MetricLines(labels)) == []
    ensures CategoriesDrawn(MetricLines(labels)) == []
  {
    var d := Drawn(MetricLines(labels));
    MetricLinesElements(labels);
    PickAll(d, MetricOf);
    PickNone(d, SectionOf);
    PickNone(d, CategoryOf);
  }

  /** Criteria draw no section heading, metric line or category heading. */
  lemma {:induction false} CriteriaDrawn(cs: seq<Criterion>, wrap: Wrap, pageWidth: real)
    ensures Sections(CriteriaOps(cs, wrap, pageWidth)) == []
    ensures MetricsDrawn(CriteriaOps(cs, wrap, pageWidth)) == []
    ensures CategoriesDrawn(CriteriaOps(cs, wrap, pageWidth)) == []
  {
    if |cs| > 0 {
      CriterionParagraphs(cs[0], wrap, pageWidth);
      CriteriaDrawn(cs[1..], wrap, pageWidth);
      PickOpsAppend(CriterionOps(cs[0], wrap, pageWidth), CriteriaOps(cs[1..], wrap, pageWidth), SectionOf);
      PickOpsAppend(CriterionOps(cs[0], wrap, pageWidth), CriteriaOps(cs[1..], wrap, pageWidth), MetricOf);
      PickOpsAppend(CriterionOps(cs[0], wrap, pageWidth), CriteriaOps(cs[1..], wrap, pageWidth), CategoryOf);
    }
  }

  /** One category heading per group, in the groups' order. */
  lemma {:induction false} GroupHeadings(gs: seq<Group>, wrap: Wrap, pageWidth: real)
    ensures |CategoriesDrawn(GroupOps(gs, wrap, pageWidth))| == |gs|
    ensures forall i :: 0 <= i < |gs| ==> CategoriesDrawn(GroupOps(gs, wrap, pageWidth))[i] == gs[i].category
  {
    if |gs| > 0 {
      var head := [Check(LineHeight * 2.0), Draw(CategoryTitle(gs[0].category)), Advance(LineHeight)];
      var items := CriteriaOps(gs[0].items, wrap, pageWidth);
      var rest := GroupOps(gs[1..], wrap, pageWidth);
      Drawn3(head[0], head[1], head[2]);
      PickOne(CategoryTitle(gs[0].category), CategoryOf);
      CriteriaDrawn(gs[0].items, wrap, pageWidth);
      GroupHeadings(gs[1..], wrap, pageWidth);
      PickOpsAppend(head, items, CategoryOf);
      PickOpsAppend(head + items, rest, CategoryOf);
      var r := CategoriesDrawn(GroupOps(gs, wrap, pageWidth));
      assert r == [gs[0].category] + CategoriesDrawn(rest);
      forall i | 0 <= i < |gs| ensures r[i] == gs[i].category {
        if i > 0 {
          assert r[i] == CategoriesDrawn(rest)[i - 1];
        }
      }
    }
  }

  /** The feedback groups draw no section heading and no metric line. */
  lemma {:induction false} GroupsHaveNoSections(gs: seq<Group>, wrap: Wrap, pageWidth: real)
    ensures Sections(GroupOps(gs, wrap, pageWidth)) == []
    ensures MetricsDrawn(GroupOps(gs, wrap, pageWidth)) == []
  {
    if |gs| > 0 {
      var head := [Check(LineHeight * 2.0), Draw(CategoryTitle(gs[0].category)), Advance(LineHeight)];
      var items := CriteriaOps(gs[0].items, wrap, pageWidth);
      var rest := GroupOps(gs[1..], wrap, pageWidth);
      Drawn3(head[0], head[1], head[2]);
      PickOne(CategoryTitle(gs[0].category), SectionOf);
      PickOne(CategoryTitle(gs[0].category), MetricOf);
      CriteriaDrawn(gs[0].items, wrap, pageWidth);
      GroupsHaveNoSections(gs[1..], wrap, pageWidth);
      PickOpsAppend(head, items, SectionOf);
      PickOpsAppend(head, items, MetricOf);
      PickOpsAppend(head + items, rest, SectionOf);
      PickOpsAppend(head + items, rest, MetricOf);
    }
  }

  lemma HeadingDrawn(name: string)
    ensures Sections(Heading(name)) == [name]
    ensures MetricsDrawn(Heading(name)) == []
    ensures CategoriesDrawn(Heading(name)) == []
  {
    var h := Heading(name);
    Drawn4(h[0], h[1], h[2], h[3]);
    assert Drawn(h) == [SectionTitle(name), Rule];
    assert [SectionTitle(name), Rule] == [SectionTitle(name)] + [Rule];
    PickAppend([SectionTitle(name)], [Rule], SectionOf);
    PickAppend([SectionTitle(name)], [Rule], MetricOf);
    PickAppend([SectionTitle(name)], [Rule], CategoryOf);
    PickOne(SectionTitle(name), SectionOf);
    PickOne(SectionTitle(name), MetricOf);
    PickOne(SectionTitle(name), CategoryOf);
    PickOne(Rule, SectionOf);
    PickOne(Rule, MetricOf);
    PickOne(Rule, CategoryOf);
  }

  // ---------------------------------------------------------------------------
  // Section by section

  /** No element the operations draw is picked by the projection. */
  predicate Hides<T>(ops: seq<Op>, f: Element -> Option<T>)
  {
    forall i :: 0 <= i < |ops| && ops[i].Draw? ==> f(ops[i].e).None?
  }

  lemma {:induction false} HiddenPicksNothing<T>(ops: seq<Op>, f: Element -> Option<T>)
    requires Hides(ops, f)
    ensures Pick(Drawn(ops), f) == []
  {
    if |ops| > 0 {
      assert Hides(ops[1..], f) by {
        forall i | 0 <= i < |ops[1..]| && ops[1..][i].Draw? ensures f(ops[1..][i].e).None? {
          assert ops[1..][i] == ops[i + 1];
        }
      }
      HiddenPicksNothing(ops[1..], f);
      assert Drawn(ops) == DrawnBy(ops[0]) + Drawn(ops[1..]);
      if ops[0].Draw? {
        PickOne(ops[0].e, f);
        PickAppend([ops[0].e], Drawn(ops[1..]), f);
      } else {
        assert Drawn(ops) == Drawn(ops[1..]);
      }
    }
  }

  /** A heading framed by operations the projection ignores picks what the heading picks. */
  lemma Framed<T>(pre: seq<Op>, name: string, post: seq<Op>, f: Element -> Option<T>)
    requires Hides(pre, f) && Hides(post, f)
    ensures Pick(Drawn(pre + Heading(name) + post), f) == Pick(Drawn(Heading(name)), f)
  {
    HiddenPicksNothing(pre, f);
    HiddenPicksNothing(post, f);
    PickOpsAppend(pre, Heading(name), f);
    PickOpsAppend(pre + Heading(name), post, f);
  }

  lemma HeaderDrawn(logoLoaded: bool)
    ensures Sections(HeaderOps(logoLoaded)) == []
    ensures MetricsDrawn(HeaderOps(logoLoaded)) == []
    ensures CategoriesDrawn(HeaderOps(logoLoaded)) == []
  {
    HiddenPicksNothing(HeaderOps(logoLoaded), SectionOf);
    HiddenPicksNothing(HeaderOps(logoLoaded), MetricOf);
    HiddenPicksNothing(HeaderOps(logoLoaded), CategoryOf);
  }

  lemma AssessmentDrawn(o: AnalysisOutput, wrap: Wrap, pageWidth: real)
    ensures Sections(AssessmentOps(o, wrap, pageWidth)) == ["Overall Assessment"]
    ensures MetricsDrawn(AssessmentOps(o, wrap, pageWidth)) == []
    ensures CategoriesDrawn(AssessmentOps(o, wrap, pageWidth)) == []
  {
    var n := wrap(o.overallAssessment, FullWidth(pageWidth));
    var pre := [Draw(ReportTitle), Advance(LineHeight * 2.0)];
    var post := [Draw(TotalScore(o.totalScore)), Advance(LineHeight),
                 Draw(Paragraph(Assessment, o.overallAssessment, n)), Advance(n as real * LineHeight + LineHeight)];
    assert AssessmentOps(o, wrap, pageWidth) == pre + Heading("Overall Assessment") + post;
    HeadingDrawn("Overall Assessment");
    Framed(pre, "Overall Assessment", post, SectionOf);
    Framed(pre, "Overall Assessment", post, MetricOf);
    Framed(pre, "Overall Assessment", post, CategoryOf);
  }

  /** The transcription section appears exactly when there are segments. */
  lemma TranscriptionDrawn(o: AnalysisOutput, wrap: Wrap, pageWidth: real)
    ensures Sections(TranscriptionOps(o, wrap, pageWidth)) == (if HasTranscription(o) then ["Full Transcription"] else [])
    ensures MetricsDrawn(TranscriptionOps(o, wrap, pageWidth)) == []
    ensures CategoriesDrawn(TranscriptionOps(o, wrap, pageWidth)) == []
  {
    if HasTranscription(o) {
      var text := TranscriptionText(o.highlightedTranscription.value);
      var n := wrap(text, FullWidth(pageWidth));
      var pre := [Check(LineHeight * 3.0)];
      var post := [Draw(Paragraph(Transcription, text, n)), Advance(n as real * LineHeight + LineHeight)];
      assert TranscriptionOps(o, wrap, pageWidth) == pre + Heading("Full Transcription") + post;
      HeadingDrawn("Full Transcription");
      Framed(pre, "Full Transcription", post, SectionOf);
      Framed(pre, "Full Transcription", post, MetricOf);
      Framed(pre, "Full Transcription", post, CategoryOf);
    }
  }

  lemma MetricsSectionPick<T>(labels: seq<string>, f: Element -> Option<T>)
    ensures Pick(Drawn([Check(LineHeight * 2.0)] + Heading("Key Metrics") + MetricLines(labels) + [Advance(LineHeight)]), f)
              == Pick(Drawn(Heading("Key Metrics")), f) + Pick(Drawn(MetricLines(labels)), f)
  {
    var pre := [Check(LineHeight * 2.0)];
    var lines := MetricLines(labels);
    var post := [Advance(LineHeight)];
    HiddenPicksNothing(pre, f);
    HiddenPicksNothing(post, f);
    PickOpsAppend(pre, Heading("Key Metrics"), f);
    PickOpsAppend(pre + Heading("Key Metrics"), lines, f);
    PickOpsAppend(pre + Heading("Key Metrics") + lines, post, f);
  }

  lemma MetricsSectionDrawn(m: Metadata)
    ensures Sections(MetricsOps(m)) == ["Key Metrics"]
    ensures MetricsDrawn(MetricsOps(m)) == Metrics(m)
    ensures CategoriesDrawn(MetricsOps(m)) == []
  {
    HeadingDrawn("Key Metrics");
    MetricLinesDrawn(Metrics(m));
    MetricsSectionPick(Metrics(m), SectionOf);
    MetricsSectionPick(Metrics(m), MetricOf);
    MetricsSectionPick(Metrics(m), CategoryOf);
  }

  lemma FeedbackPick<T>(o: AnalysisOutput, wrap: Wrap, pageWidth: real, f: Element -> Option<T>)
    ensures Pick(Drawn(FeedbackOps(o, wrap, pageWidth)), f)
              == Pick(Drawn(Heading("Detailed Feedback")), f)
                 + Pick(Drawn(GroupOps(GroupByCategory(o.evaluationCriteria), wrap, pageWidth)), f)
  {
    var pre := [Check(LineHeight * 2.0)];
    var groups := GroupOps(GroupByCategory(o.evaluationCriteria), wrap, pageWidth);
    HiddenPicksNothing(pre, f);
    PickOpsAppend(pre, Heading("Detailed Feedback"), f);
    PickOpsAppend(pre + Heading("Detailed Feedback"), groups, f);
  }

  lemma FeedbackDrawn(o: AnalysisOutput, wrap: Wrap, pageWidth: real)
    ensures Sections(FeedbackOps(o, wrap, pageWidth)) == ["Detailed Feedback"]
    ensures MetricsDrawn(FeedbackOps(o, wrap, pageWidth)) == []
    ensures CategoriesDrawn(FeedbackOps(o, wrap, pageWidth)) == CategoryOrder(o.evaluationCriteria)
  {
    var gs := GroupByCategory(o.evaluationCriteria);
    HeadingDrawn("Detailed Feedback");
    GroupHeadings(gs, wrap, pageWidth);
    GroupsHaveNoSections(gs, wrap, pageWidth);
    GroupsMatchReference(o.evaluationCriteria);
    FeedbackPick(o, wrap, pageWidth, SectionOf);
    FeedbackPick(o, wrap, pageWidth, MetricOf);
    FeedbackPick(o, wrap, pageWidth, CategoryOf);
    var cats := CategoriesDrawn(GroupOps(gs, wrap, pageWidth));
    assert cats == CategoryOrder(o.evaluationCriteria);
  }

  /** The suggested-delivery section appears exactly when a non-empty suggestion is present. */
  lemma SuggestionDrawn(o: AnalysisOutput, wrap: Wrap, pageWidth: real)
    ensures Sections(SuggestionOps(o, wrap, pageWidth)) == (if TruthyOpt(o.suggestedSpeech) then ["Suggested Delivery Example"] else [])
    ensures MetricsDrawn(SuggestionOps(o, wrap, pageWidth)) == []
    ensures CategoriesDrawn(SuggestionOps(o, wrap, pageWidth)) == []
  {
    if TruthyOpt(o.suggestedSpeech) {
      var n := wrap(o.suggestedSpeech.value, FullWidth(pageWidth));
      var pre := [Check(LineHeight * 3.0)];
      var post := [Check(n as real * LineHeight), Draw(Paragraph(Suggestion, o.suggestedSpeech.value, n)),
                   Advance(n as real * LineHeight)];
      assert SuggestionOps(o, wrap, pageWidth) == pre + Heading("Suggested Delivery Example") + post;
      HeadingDrawn("Suggested Delivery Example");
      Framed(pre, "Suggested Delivery Example", post, SectionOf);
      Framed(pre, "Suggested Delivery Example", post, MetricOf);
      Framed(pre, "Suggested Delivery Example", post, CategoryOf);
    }
  }

  /** What any projection picks from the report is what it picks from each section, in order. */
  lemma ReportPick<T>(o: AnalysisOutput, logoLoaded: bool, wrap: Wrap, pageWidth: real, f: Element -> Option<T>)
    ensures Pick(Drawn(ReportOps(o, logoLoaded, wrap, pageWidth)), f)
              == Pick(Drawn(HeaderOps(logoLoaded)), f)
                 + Pick(Drawn(AssessmentOps(o, wrap, pageWidth)), f)
                 + Pick(Drawn(TranscriptionOps(o, wrap, pageWidth)), f)
                 + Pick(Drawn(MetricsOps(o.metadata)), f)
                 + Pick(Drawn(FeedbackOps(o, wrap, pageWidth)), f)
                 + Pick(Drawn(SuggestionOps(o, wrap, pageWidth)), f)
  {
    var header := HeaderOps(logoLoaded);
    var assessment := AssessmentOps(o, wrap, pageWidth);
    var transcription := TranscriptionOps(o, wrap, pageWidth);
    var metrics := MetricsOps(o.metadata);
    var feedback := FeedbackOps(o, wrap, pageWidth);
    var suggestion := SuggestionOps(o, wrap, pageWidth);
    PickOpsAppend(header, assessment, f);
    PickOpsAppend(header + assessment, transcription, f);
    PickOpsAppend(header + assessment + transcription, metrics, f);
    PickOpsAppend(header + assessment + transcription + metrics, feedback, f);
    PickOpsAppend(header + assessment + transcription + metrics + feedback, suggestion, f);
  }

  /**
    The report's sections, in order: the assessment, the transcription when
    there are segments, the metrics, the feedback, and the suggested delivery
    when there is one.
   */
  lemma ReportSections(o: AnalysisOutput, logoLoaded: bool, wrap: Wrap, pageWidth: real)
    ensures Sections(ReportOps(o, logoLoaded, wrap, pageWidth))
              == ["Overall Assessment"]
                 + (if HasTranscription(o) then ["Full Transcription"] else [])
                 + ["Key Metrics", "Detailed Feedback"]
                 + (if TruthyOpt(o.suggestedSpeech) then ["Suggested Delivery Example"] else [])
  {
    ReportPick(o, logoLoaded, wrap, pageWidth, SectionOf);
    HeaderDrawn(logoLoaded);
    AssessmentDrawn(o, wrap, pageWidth);
    TranscriptionDrawn(o, wrap, pageWidth);
    MetricsSectionDrawn(o.metadata);
    FeedbackDrawn(o, wrap, pageWidth);
    SuggestionDrawn(o, wrap, pageWidth);
    var t: seq<string> := if HasTranscription(o) then ["Full Transcription"] else [];
    var g: seq<string> := if TruthyOpt(o.suggestedSpeech) then ["Suggested Delivery Example"] else [];
    var r := Sections(ReportOps(o, logoLoaded, wrap, pageWidth));
    assert r == [] + ["Overall Assessment"] + t + ["Key Metrics"] + ["Detailed Feedback"] + g;
    SectionListShape(["Overall Assessment"], t, "Key Metrics", "Detailed Feedback", g);
  }

  lemma SectionListShape(a: seq<string>, t: seq<string>, k: string, d: string, g: seq<string>)
    ensures [] + a + t + [k] + [d] + g == a + t + [k, d] + g
  {
  }

  /** The report's metric lines are the eight base metrics, plus the duration when it is present and non-zero. */
  lemma ReportMetrics(o: AnalysisOutput, logoLoaded: bool, wrap: Wrap, pageWidth: real)
    ensures MetricsDrawn(ReportOps(o, logoLoaded, wrap, pageWidth)) == Metrics(o.metadata)
    ensures |MetricsDrawn(ReportOps(o, logoLoaded, wrap, pageWidth))|
              == (if o.metadata.audioDurationSeconds.Some? && o.metadata.audioDurationSeconds.value != 0.0 then 9 else 8)
  {
    ReportPick(o, logoLoaded, wrap, pageWidth, MetricOf);
    HeaderDrawn(logoLoaded);
    AssessmentDrawn(o, wrap, pageWidth);
    TranscriptionDrawn(o, wrap, pageWidth);
    MetricsSectionDrawn(o.metadata);
    FeedbackDrawn(o, wrap, pageWidth);
    SuggestionDrawn(o, wrap, pageWidth);
  }

  /** The report's category headings are the criteria's categories in first-occurrence order, each once. */
  lemma ReportCategories(o: AnalysisOutput, logoLoaded: bool, wrap: Wrap, pageWidth: real)
    ensures CategoriesDrawn(ReportOps(o, logoLoaded, wrap, pageWidth)) == CategoryOrder(o.evaluationCriteria)
    ensures Distinct(CategoriesDrawn(ReportOps(o, logoLoaded, wrap, pageWidth)))
  {
    ReportPick(o, logoLoaded, wrap, pageWidth, CategoryOf);
    HeaderDrawn(logoLoaded);
    AssessmentDrawn(o, wrap, pageWidth);
    TranscriptionDrawn(o, wrap, pageWidth);
    MetricsSectionDrawn(o.metadata);
    FeedbackDrawn(o, wrap, pageWidth);
    SuggestionDrawn(o, wrap, pageWidth);
    var order := CategoryOrder(o.evaluationCriteria);
    assert CategoriesDrawn(ReportOps(o, logoLoaded, wrap, pageWidth)) == [] + [] + [] + [] + order + [];
    CategoryOrderFacts(o.evaluationCriteria);
  }
}

=== FILE: schemas.dfy ===
/**
  The centralised request and result schemas (src/ai/schemas.ts) as validity
  predicates over parsed JSON, the typed records the application works with,
  and encoders from the records to JSON with the lemmas that relate the two.
 */
module Schemas {

  import opened Basics
  import opened Json

  // ---------------------------------------------------------------------------
  // Enumerations

  const AnalysisModes: set<string> := {"Presentation Mode", "Interview Mode", "Rehearsal Mode"}

  const SegmentTypes: set<string> := {"default", "filler", "pause"}

  const Categories: set<string> := {"Delivery", "Language", "Content"}

  const CriteriaNames: set<string> := {
    "Fluency", "Pacing", "Clarity", "Confidence", "Emotional Tone",
    "Grammar", "Vocabulary", "Word Choice", "Conciseness", "Filler Words",
    "Relevance", "Organization", "Accuracy", "Depth", "Persuasiveness"
  }

  /** The `.max(3)` bound on generated interview questions. */
  const MaxQuestions: nat := 3

  // ---------------------------------------------------------------------------
  // Typed records

  datatype InterviewQuestion = InterviewQuestion(question: string, answer: string)

  /** AnalyzeSpeechInput; `mode` is the wire string, checked by the schema. */
  datatype AnalyzeRequest = AnalyzeRequest(
    speechSample: string,
    mode: string,
    question: Option<string>,
    perfectAnswer: Option<string>)

  datatype Segment = Segment(text: string, kind: string)

  datatype Metadata = Metadata(
    wordCount: real,
    fillerWordCount: real,
    speechRateWPM: real,
    averagePauseDurationMs: real,
    pitchVariance: real,
    audioDurationSeconds: Option<real>,
    paceScore: real,
    clarityScore: real,
    pausePercentage: real)

  datatype Criterion = Criterion(
    category: string,
    criteria: string,
    score: real,
    evaluation: string,
    comparison: Option<string>,
    feedback: string)

  /** AnalyzeSpeechOutput */
  datatype AnalysisOutput = AnalysisOutput(
    metadata: Metadata,
    highlightedTranscription: Option<seq<Segment>>,
    evaluationCriteria: seq<Criterion>,
    totalScore: real,
    overallAssessment: string,
    suggestedSpeech: Option<string>)

  datatype Contact = Contact(
    email: Option<string>, phone: Option<string>,
    linkedin: Option<string>, website: Option<string>)

  datatype Experience = Experience(
    jobTitle: string, company: string,
    location: Option<string>, startDate: Option<string>, endDate: Option<string>,
    responsibilities: seq<string>)

  datatype Education = Education(
    institution: string, degree: string,
    major: Option<string>, graduationDate: Option<string>)

  datatype Project = Project(name: string, description: string, technologies: Option<seq<string>>)

  /** ExtractedResumeInfo: every section may be absent. */
  datatype ResumeInfo = ResumeInfo(
    name: Option<string>,
    contact: Option<Contact>,
    summary: Option<string>,
    experience: Option<seq<Experience>>,
    education: Option<seq<Education>>,
    skills: Option<seq<string>>,
    projects: Option<seq<Project>>,
    certifications: Option<seq<string>>)

  /** GenerateQuestionsFromResumeInput */
  datatype QuestionRequest = QuestionRequest(resumeSummary: string, resumeText: string)

  // ---------------------------------------------------------------------------
  // Validity predicates (one per z.object)

  predicate IsAnalysisMode(j: Json) { IsOneOf(j, AnalysisModes) }

  /** AnalyzeSpeechInputSchema, parameterised by the mode enumeration. */
  predicate InputValidFor(j: Json, modes: set<string>) {
    && Required(j, "speechSample", IsString)
    && Required(j, "mode", m => IsOneOf(m, modes))
    && Optional(j, "question", IsString)
    && Optional(j, "perfectAnswer", IsString)
  }

  predicate InputValid(j: Json) { InputValidFor(j, AnalysisModes) }

  predicate IsPercentScore(j: Json) { IsNumberIn(j, 0.0, 100.0) }

  predicate IsCriterionScore(j: Json) { IsNumberIn(j, 0.0, 10.0) }

  predicate MetadataValid(j: Json) {
    && Required(j, "wordCount", IsNumber)
    && Required(j, "fillerWordCount", IsNumber)
    && Required(j, "speechRateWPM", IsNumber)
    && Required(j, "averagePauseDurationMs", IsNumber)
    && Required(j, "pitchVariance", IsNumber)
    && Optional(j, "audioDurationSeconds", IsNumber)
    && Required(j, "paceScore", IsPercentScore)
    && Required(j, "clarityScore", IsPercentScore)
    && Required(j, "pausePercentage", IsPercentScore)
  }

  predicate SegmentValid(j: Json) {
    && Required(j, "text", IsString)
    && Required(j, "type", t => IsOneOf(t, SegmentTypes))
  }

  predicate CriterionValid(j: Json) {
    && Required(j, "category", c => IsOneOf(c, Categories))
    && Required(j, "criteria", c => IsOneOf(c, CriteriaNames))
    && Required(j, "score", IsCriterionScore)
    && Required(j, "evaluation", IsString)
    && Optional(j, "comparison", IsString)
    && Required(j, "feedback", IsString)
  }

  /** The properties both output schemas share. */
  predicate OutputCoreValid(j: Json) {
    && Required(j, "metadata", MetadataValid)
    && Optional(j, "highlightedTranscription", s => IsArrayOf(s, SegmentValid))
    && Required(j, "evaluationCriteria", c => IsArrayOf(c, CriterionValid))
    && Required(j, "totalScore", IsPercentScore)
    && Required(j, "overallAssessment", IsString)
  }

  /** AnalyzeSpeechOutputSchema: `suggestedSpeech` is required here. */
  predicate OutputValid(j: Json) {
    OutputCoreValid(j) && Required(j, "suggestedSpeech", IsString)
  }

  predicate ContactValid(j: Json) {
    && Optional(j, "email", IsString)
    && Optional(j, "phone", IsString)
    && Optional(j, "linkedin", IsString)
    && Optional(j, "website", IsString)
  }

  predicate ExperienceValid(j: Json) {
    && Required(j, "jobTitle", IsString)
    && Required(j, "company", IsString)
    && Optional(j, "location", IsString)
    && Optional(j, "startDate", IsString)
    && Optional(j, "endDate", IsString)
    && Required(j, "responsibilities", IsStringArray)
  }

  predicate EducationValid(j: Json) {
    && Required(j, "institution", IsString)
    && Required(j, "degree", IsString)
    && Optional(j, "major", IsString)
    && Optional(j, "graduationDate", IsString)
  }

  predicate ProjectValid(j: Json) {
    && Required(j, "name", IsString)
    && Required(j, "description", IsString)
    && Optional(j, "technologies", IsStringArray)
  }

  predicate IsExperienceList(j: Json) { IsArrayOf(j, ExperienceValid) }

  predicate IsEducationList(j: Json) { IsArrayOf(j, EducationValid) }

  predicate IsProjectList(j: Json) { IsArrayOf(j, ProjectValid) }

  /** ExtractedResumeInfoSchema */
  predicate ResumeInfoValid(j: Json) {
    && Optional(j, "name", IsString)
    && Optional(j, "contact", ContactValid)
    && Optional(j, "summary", IsString)
    && Optional(j, "experience", IsExperienceList)
    && Optional(j, "education", IsEducationList)
    && Optional(j, "skills", IsStringArray)
    && Optional(j, "projects", IsProjectList)
    && Optional(j, "certifications", IsStringArray)
  }

  /** ExtractResumeInfoInputSchema: the resume as a data URI. */
  predicate ExtractRequestValid(j: Json) {
    Required(j, "resumeDataUri", IsString)
  }

  /** GenerateQuestionsFromResumeInputSchema: both properties are required strings. */
  predicate QuestionRequestValid(j: Json) {
    Required(j, "resumeSummary", IsString) && Required(j, "resumeText", IsString)
  }

  predicate QuestionValid(j: Json) {
    Required(j, "question", IsString) && Required(j, "answer", IsString)
  }

  /** GenerateQuestionsFromResumeOutputSchema */
  predicate QuestionsOutputValid(j: Json) {
    Required(j, "questions", q => IsArrayOf(q, QuestionValid) && |q.items| <= MaxQuestions)
  }
}

/**
  Encoding the typed records as the JSON the schemas validate, and what the
  schemas then demand of the records.
 */
module SchemaCodec {

  import opened Basics
  import opened Json
  import opened Schemas

  // ---------------------------------------------------------------------------
  // Range conditions on typed records

  predicate MetadataInRange(m: Metadata) {
    && 0.0 <= m.paceScore <= 100.0
    && 0.0 <= m.clarityScore <= 100.0
    && 0.0 <= m.pausePercentage <= 100.0
  }

  predicate SegmentInRange(s: Segment) {
    s.kind in SegmentTypes
  }

  predicate CriterionInRange(c: Criterion) {
    c.category in Categories && c.criteria in CriteriaNames && 0.0 <= c.score <= 10.0
  }

  predicate OutputCoreInRange(o: AnalysisOutput) {
    && MetadataInRange(o.metadata)
    && (o.highlightedTranscription.Some? ==>
          forall i :: 0 <= i < |o.highlightedTranscription.value| ==>
            SegmentInRange(o.highlightedTranscription.value[i]))
    && (forall i :: 0 <= i < |o.evaluationCriteria| ==> CriterionInRange(o.evaluationCriteria[i]))
    && 0.0 <= o.totalScore <= 100.0
  }

  // ---------------------------------------------------------------------------
  // Encoders

  function EncodeRequest(r: AnalyzeRequest): Json
  {
    var f := map["speechSample" := JStr(r.speechSample), "mode" := JStr(r.mode)];
    JObj(PutOptional(PutOptional(f, "question", OptString(r.question)),
                     "perfectAnswer", OptString(r.perfectAnswer)))
  }

  function EncodeMetadata(m: Metadata): Json
  {
    var f := map[
      "wordCount" := JNum(m.wordCount),
      "fillerWordCount" := JNum(m.fillerWordCount),
      "speechRateWPM" := JNum(m.speechRateWPM),
      "averagePauseDurationMs" := JNum(m.averagePauseDurationMs),
      "pitchVariance" := JNum(m.pitchVariance),
      "paceScore" := JNum(m.paceScore),
      "clarityScore" := JNum(m.clarityScore),
      "pausePercentage" := JNum(m.pausePercentage)];
    var duration := if m.audioDurationSeconds.Some? then Some(JNum(m.audioDurationSeconds.value)) else None;
    JObj(PutOptional(f, "audioDurationSeconds", duration))
  }

  function EncodeSegment(s: Segment): Json
  {
    JObj(map["text" := JStr(s.text), "type" := JStr(s.kind)])
  }

  function EncodeSegments(ss: seq<Segment>): Json
  {
    JArr(seq(|ss|, i requires 0 <= i < |ss| => EncodeSegment(ss[i])))
  }

  function EncodeCriterion(c: Criterion): Json
  {
    var f := map[
      "category" := JStr(c.category),
      "criteria" := JStr(c.criteria),
      "score" := JNum(c.score),
      "evaluation" := JStr(c.evaluation),
      "feedback" := JStr(c.feedback)];
    JObj(PutOptional(f, "comparison", OptString(c.comparison)))
  }

  function EncodeCriteria(cs: seq<Criterion>): Json
  {
    JArr(seq(|cs|, i requires 0 <= i < |cs| => EncodeCriterion(cs[i])))
  }

  function EncodeOutput(o: AnalysisOutput): Json
  {
    var f := map[
      "metadata" := EncodeMetadata(o.metadata),
      "evaluationCriteria" := EncodeCriteria(o.evaluationCriteria),
      "totalScore" := JNum(o.totalScore),
      "overallAssessment" := JStr(o.overallAssessment)];
    var segments :=
      if o.highlightedTranscription.Some? then Some(EncodeSegments(o.highlightedTranscription.value)) else None;
    JObj(PutOptional(PutOptional(f, "highlightedTranscription", segments),
                     "suggestedSpeech", OptString(o.suggestedSpeech)))
  }

  function EncodeQuestion(q: InterviewQuestion): Json
  {
    JObj(map["question" := JStr(q.question), "answer" := JStr(q.answer)])
  }

  function EncodeQuestions(qs: seq<InterviewQuestion>): Json
  {
    JObj(map["questions" := JArr(seq(|qs|, i requires 0 <= i < |qs| => EncodeQuestion(qs[i])))])
  }

  function EncodeContact(c: Contact): Json
  {
    var f := PutOptional(map[], "email", OptString(c.email));
    var f := PutOptional(f, "phone", OptString(c.phone));
    var f := PutOptional(f, "linkedin", OptString(c.linkedin));
    JObj(PutOptional(f, "website", OptString(c.website)))
  }

  function EncodeExperience(e: Experience): Json
  {
    var f := map["jobTitle" := JStr(e.jobTitle), "company" := JStr(e.company),
                 "responsibilities" := StringArray(e.responsibilities)];
    var f := PutOptional(f, "location", OptString(e.location));
    var f := PutOptional(f, "startDate", OptString(e.startDate));
    JObj(PutOptional(f, "endDate", OptString(e.endDate)))
  }

  function EncodeEducation(e: Education): Json
  {
    var f := map["institution" := JStr(e.institution), "degree" := JStr(e.degree)];
    var f := PutOptional(f, "major", OptString(e.major));
    JObj(PutOptional(f, "graduationDate", OptString(e.graduationDate)))
  }

  function EncodeProject(p: Project): Json
  {
    var f := map["name" := JStr(p.name), "description" := JStr(p.description)];
    var technologies := if p.technologies.Some? then Some(StringArray(p.technologies.value)) else None;
    JObj(PutOptional(f, "technologies", technologies))
  }

  function EncodeExperiences(es: seq<Experience>): Json
  {
    JArr(seq(|es|, i requires 0 <= i < |es| => EncodeExperience(es[i])))
  }

  function EncodeEducations(es: seq<Education>): Json
  {
    JArr(seq(|es|, i requires 0 <= i < |es| => EncodeEducation(es[i])))
  }

  function EncodeProjects(ps: seq<Project>): Json
  {
    JArr(seq(|ps|, i requires 0 <= i < |ps| => EncodeProject(ps[i])))
  }

  const ResumeKeys: set<string> :=
    {"name", "contact", "summary", "experience", "education", "skills", "projects", "certifications"}

  /** The JSON of one resume section, None when the section is absent. */
  function ResumeSection(r: ResumeInfo, key: string): Option<Json>
  {
    match key
    case "name" => OptString(r.name)
    case "summary" => OptString(r.summary)
    case "contact" => if r.contact.Some? then Some(EncodeContact(r.contact.value)) else None
    case "experience" => if r.experience.Some? then Some(EncodeExperiences(r.experience.value)) else None
    case "education" => if r.education.Some? then Some(EncodeEducations(r.education.value)) else None
    case "skills" => if r.skills.Some? then Some(StringArray(r.skills.value)) else None
    case "projects" => if r.projects.Some? then Some(EncodeProjects(r.projects.value)) else None
    case "certifications" => if r.certifications.Some? then Some(StringArray(r.certifications.value)) else None
    case _ => None
  }

  function EncodeResumeInfo(r: ResumeInfo): Json
  {
    JObj(map k | k in ResumeKeys && ResumeSection(r, k).Some? :: ResumeSection(r, k).value)
  }

  function EncodeQuestionRequest(r: QuestionRequest): Json
  {
    JObj(map["resumeSummary" := JStr(r.resumeSummary), "resumeText" := JStr(r.resumeText)])
  }

  /** The request to the resume extractor: the file as a data URI. */
  function EncodeExtractRequest(dataUri: string): Json
  {
    JObj(map["resumeDataUri" := JStr(dataUri)])
  }

  // ---------------------------------------------------------------------------
  // Decoding the question generator's output

  /** The validated `questions` list of a generator reply, or None when the reply breaks the schema. */
  function DecodeQuestions(j: Json): (r: Option<seq<InterviewQuestion>>)
    ensures r.Some? <==> QuestionsOutputValid(j)
    ensures r.Some? ==> |r.value| <= MaxQuestions
    ensures r.Some? ==> |r.value| == |j.fields["questions"].items|
    ensures r.Some? ==> forall i :: 0 <= i < |r.value| ==>
              j.fields["questions"].items[i].fields["question"] == JStr(r.value[i].question)
              && j.fields["questions"].items[i].fields["answer"] == JStr(r.value[i].answer)
  {
    if QuestionsOutputValid(j) then
      var items := j.fields["questions"].items;
      Some(seq(|items|, i requires 0 <= i < |items| =>
        InterviewQuestion(items[i].fields["question"].s, items[i].fields["answer"].s)))
    else None
  }

  // ---------------------------------------------------------------------------
  // What the schemas demand of encoded records

  /** Typed generator and extractor requests always satisfy their input schemas. */
  lemma TypedResumeRequestsValid(r: QuestionRequest, dataUri: string)
    ensures QuestionRequestValid(EncodeQuestionRequest(r))
    ensures ExtractRequestValid(EncodeExtractRequest(dataUri))
  {
  }

  /** A request is accepted by an input schema exactly when its mode is in that schema's enumeration. */
  lemma RequestValidIff(r: AnalyzeRequest, modes: set<string>)
    ensures InputValidFor(EncodeRequest(r), modes) <==> r.mode in modes
  {
    var f := EncodeRequest(r).fields;
    assert f["speechSample"] == JStr(r.speechSample);
    assert f["mode"] == JStr(r.mode);
    assert "question" in f ==> f["question"] == JStr(r.question.value);
    assert "perfectAnswer" in f ==> f["perfectAnswer"] == JStr(r.perfectAnswer.value);
  }

  lemma MetadataValidIff(m: Metadata)
    ensures MetadataValid(EncodeMetadata(m)) <==> MetadataInRange(m)
  {
    var f := EncodeMetadata(m).fields;
    assert f["paceScore"] == JNum(m.paceScore);
    assert f["clarityScore"] == JNum(m.clarityScore);
    assert f["pausePercentage"] == JNum(m.pausePercentage);
  }

  lemma SegmentsValidIff(ss: seq<Segment>)
    ensures IsArrayOf(EncodeSegments(ss), SegmentValid) <==>
            forall i :: 0 <= i < |ss| ==> SegmentInRange(ss[i])
  {
    var items := EncodeSegments(ss).items;
    forall i | 0 <= i < |ss|
      ensures SegmentValid(items[i]) <==> SegmentInRange(ss[i])
    {
      assert items[i].fields["type"] == JStr(ss[i].kind);
    }
  }

  lemma CriteriaValidIff(cs: seq<Criterion>)
    ensures IsArrayOf(EncodeCriteria(cs), CriterionValid) <==>
            forall i :: 0 <= i < |cs| ==> CriterionInRange(cs[i])
  {
    var items := EncodeCriteria(cs).items;
    forall i | 0 <= i < |cs|
      ensures CriterionValid(items[i]) <==> CriterionInRange(cs[i])
    {
      var f := items[i].fields;
      assert f["category"] == JStr(cs[i].category);
      assert f["criteria"] == JStr(cs[i].criteria);
      assert f["score"] == JNum(cs[i].score);
      assert "comparison" in f ==> f["comparison"] == JStr(cs[i].comparison.value);
    }
  }

  /** The shared part of both output schemas accepts an encoded result exactly when its scores and enums are in range. */
  lemma OutputFields(o: AnalysisOutput)
    ensures var f := EncodeOutput(o).fields;
            && f["metadata"] == EncodeMetadata(o.metadata)
            && f["evaluationCriteria"] == EncodeCriteria(o.evaluationCriteria)
            && f["totalScore"] == JNum(o.totalScore)
            && f["overallAssessment"] == JStr(o.overallAssessment)
            && ("highlightedTranscription" in f <==> o.highlightedTranscription.Some?)
            && (o.highlightedTranscription.Some? ==>
                  f["highlightedTranscription"] == EncodeSegments(o.highlightedTranscription.value))
  {
  }

  lemma OutputCoreValidIff(o: AnalysisOutput)
    ensures OutputCoreValid(EncodeOutput(o)) <==> OutputCoreInRange(o)
  {
    OutputFields(o);
    if o.highlightedTranscription.Some? {
      SegmentsValidIff(o.highlightedTranscription.value);
    }
    MetadataValidIff(o.metadata);
    CriteriaValidIff(o.evaluationCriteria);
  }

  /**
    The centralised output schema additionally requires the suggested delivery:
    a result without one is rejected however good its scores.
   */
  lemma OutputValidIff(o: AnalysisOutput)
    ensures OutputValid(EncodeOutput(o)) <==> OutputCoreInRange(o) && o.suggestedSpeech.Some?
  {
    OutputCoreValidIff(o);
    var f := EncodeOutput(o).fields;
    assert "suggestedSpeech" in f <==> o.suggestedSpeech.Some?;
    if o.suggestedSpeech.Some? {
      assert f["suggestedSpeech"] == JStr(o.suggestedSpeech.value);
    }
  }

  lemma ExperiencesValid(es: seq<Experience>)
    ensures IsArrayOf(EncodeExperiences(es), ExperienceValid)
  {
    var items := EncodeExperiences(es).items;
    forall i | 0 <= i < |items| ensures ExperienceValid(items[i]) {
      assert items[i] == EncodeExperience(es[i]);
      assert items[i].fields["responsibilities"] == StringArray(es[i].responsibilities);
    }
  }

  lemma EducationsValid(es: seq<Education>)
    ensures IsArrayOf(EncodeEducations(es), EducationValid)
  {
    var items := EncodeEducations(es).items;
    forall i | 0 <= i < |items| ensures EducationValid(items[i]) {
      assert items[i] == EncodeEducation(es[i]);
    }
  }

  lemma ProjectsValid(ps: seq<Project>)
    ensures IsArrayOf(EncodeProjects(ps), ProjectValid)
  {
    var items := EncodeProjects(ps).items;
    forall i | 0 <= i < |items| ensures ProjectValid(items[i]) {
      assert items[i] == EncodeProject(ps[i]);
      if ps[i].technologies.Some? {
        assert items[i].fields["technologies"] == StringArray(ps[i].technologies.value);
      }
    }
  }

  /** Every typed resume record lands inside ExtractedResumeInfoSchema. */
  lemma ResumeInfoAlwaysValid(r: ResumeInfo)
    ensures ResumeInfoValid(EncodeResumeInfo(r))
  {
    var j := EncodeResumeInfo(r);
    var f := j.fields;
    assert Optional(j, "name", IsString);
    assert Optional(j, "summary", IsString);
    assert Optional(j, "contact", ContactValid) by {
      if "contact" in f {
        assert f["contact"] == EncodeContact(r.contact.value);
      }
    }
    assert Optional(j, "experience", IsExperienceList) by {
      if "experience" in f {
        assert f["experience"] == EncodeExperiences(r.experience.value);
        ExperiencesValid(r.experience.value);
      }
    }
    assert Optional(j, "education", IsEducationList) by {
      if "education" in f {
        assert f["education"] == EncodeEducations(r.education.value);
        EducationsValid(r.education.value);
      }
    }
    assert Optional(j, "projects", IsProjectList) by {
      if "projects" in f {
        assert f["projects"] == EncodeProjects(r.projects.value);
        ProjectsValid(r.projects.value);
      }
    }
    assert Optional(j, "skills", IsStringArray) by {
      if "skills" in f {
        assert f["skills"] == StringArray(r.skills.value);
      }
    }
    assert Optional(j, "certifications", IsStringArray) by {
      if "certifications" in f {
        assert f["certifications"] == StringArray(r.certifications.value);
      }
    }
  }

  /**
    Every resume section is optional (the empty object is a valid resume), but
    an experience entry without its company is not.
   */
  lemma ResumeSectionsOptionalEntriesNot(title: string, duties: seq<string>)
    ensures ResumeInfoValid(JObj(map[]))
    ensures !ResumeInfoValid(JObj(map["experience" := JArr([
              JObj(map["jobTitle" := JStr(title), "responsibilities" := StringArray(duties)])])]))
  {
    var entry := JObj(map["jobTitle" := JStr(title), "responsibilities" := StringArray(duties)]);
    assert !ExperienceValid(entry);
    var exp := JArr([entry]);
    assert !IsArrayOf(exp, ExperienceValid) by {
      assert exp.items[0] == entry;
    }
  }

  /** Decoding an encoded list of at most three questions gives the list back; a longer list is refused. */
  lemma QuestionsRoundTrip(qs: seq<InterviewQuestion>)
    ensures |qs| <= MaxQuestions ==> DecodeQuestions(EncodeQuestions(qs)) == Some(qs)
    ensures |qs| > MaxQuestions ==> DecodeQuestions(EncodeQuestions(qs)) == None
  {
    var j := EncodeQuestions(qs);
    var items := j.fields["questions"].items;
    assert |items| == |qs|;
    forall i | 0 <= i < |items| ensures QuestionValid(items[i]) {
      assert items[i] == EncodeQuestion(qs[i]);
    }
    if |qs| <= MaxQuestions {
      var r := DecodeQuestions(j);
      assert r.Some?;
      assert |r.value| == |qs|;
      forall i | 0 <= i < |qs| ensures r.value[i] == qs[i] {
        assert items[i] == EncodeQuestion(qs[i]);
        assert r.value[i] == InterviewQuestion(items[i].fields["question"].s, items[i].fields["answer"].s);
      }
      assert r.value == qs;
    }
  }
}

=== FILE: session.dfy ===
/**
  The session state machine of the main page (src/app/page.tsx): one record
  for all of the page's state, and one pure transition per handler. The two
  résumé handlers are split at their await, so that their replies can arrive
  after other events; every other awaited call returns before the next event.
  The services are function parameters that may fail (None).
 */
module Session {

  import opened Basics
  import opened Json
  import opened Schemas
  import opened SchemaCodec
  import Transcription
  import AnalyzeFlow

  datatype Mode = Presentation | Interview | Rehearsal

  /** The mode string the page stores and sends. */
  function ModeLabel(m: Mode): string
  {
    match m
    case Presentation => "Presentation Mode"
    case Interview => "Interview Mode"
    case Rehearsal => "Rehearsal Mode"
  }

  /** The media recorder behind `mediaRecorderRef`, and whether its stop callback is still due. */
  datatype Recorder = NoRecorder | Recording | Finalizing | Inactive

  /** Everything the speech-input card owns: sample, transcript, recognizer and recorder. */
  datatype InputState = InputState(
    speechSample: Option<string>,
    inputTab: Tab,
    transcript: string,
    isListening: bool,
    isRecording: bool,
    audioUrl: Option<ObjectUrl>,
    hasRecognizer: bool,        // the browser supports speech recognition
    recognizerRunning: bool,    // the recognizer was started and not stopped since
    finalTranscript: string,    // finalTranscriptRef
    recorder: Recorder,
    audioChunks: seq<string>)   // audioChunksRef

  /** The resume pipeline of Interview mode. */
  datatype InterviewState = InterviewState(
    resumeFile: Option<Blob>,
    resumeInfoText: string,
    extractedResumeData: Option<ResumeInfo>,
    generatedQuestions: seq<InterviewQuestion>,
    activeQuestion: Option<InterviewQuestion>,
    showIdealAnswer: bool)

  /**
    `isLoading` together with the loading message the page tests. An analysis
    completes within its click, so only the résumé requests leave it loading.
   */
  datatype Loading = Idle | ExtractingInfo | GeneratingQuestions

  datatype PageState = PageState(
    mode: Mode,
    question: string,           // Rehearsal mode's question
    perfectAnswer: string,      // Rehearsal mode's ideal answer
    interview: InterviewState,
    input: InputState,
    analysisResult: Option<AnalysisOutput>,
    loading: Loading,
    tickets: nat,               // résumé requests numbered so far; the next one takes this number
    extractionsDue: set<nat>,   // résumé extractions still awaited, by number
    generationsDue: set<nat>)   // question generations still awaited, by number

  /**
    The effect that keeps the sample equal to the transcript on the live tab.
    It runs after a handler only when the transcript or the tab changed.
   */
  function Sync(before: InputState, after: InputState): (r: InputState)
    ensures r.transcript == after.transcript && r.inputTab == after.inputTab
    ensures r.speechSample == (if (after.transcript != before.transcript || after.inputTab != before.inputTab)
                                  && after.inputTab == Live
                               then Some(after.transcript) else after.speechSample)
  {
    if (after.transcript != before.transcript || after.inputTab != before.inputTab) && after.inputTab == Live
    then after.(speechSample := Some(after.transcript))
    else after
  }

  const NoInterview := InterviewState(None, "", None, [], None, false)

  /** The page after mounting, including the first run of the live-sample effect. */
  function Init(supported: bool): (s: PageState)
    ensures s.input.speechSample == Some("") && s.mode == Presentation && s.input.inputTab == Live
  {
    PageState(Presentation, "", "", NoInterview,
              InputState(Some(""), Live, "", false, false, None, supported, false, "", NoRecorder, []),
              None, Idle, 0, {}, {})
  }

  // ---------------------------------------------------------------------------
  // Live transcription

  /** `recognition.onresult`: the transcription fold on the page's accumulator ref. */
  function OnResult(s: InputState, ev: Transcription.RecognitionEvent): (r: InputState)
    ensures r.finalTranscript == s.finalTranscript + Transcription.FinalText(ev)
    ensures r.transcript == r.finalTranscript + Transcription.InterimText(ev)
  {
    var l := Transcription.OnResult(Transcription.LiveText(s.finalTranscript, s.transcript), ev);
    Sync(s, s.(finalTranscript := l.accumulator, transcript := l.transcript))
  }

  /** `recognition.onend` */
  function OnEnd(s: InputState): (r: InputState)
    ensures !r.isListening && !r.recognizerRunning
    ensures r.(isListening := s.isListening, recognizerRunning := s.recognizerRunning) == s
  {
    s.(isListening := false, recognizerRunning := false)
  }

  /** `recognition.onerror`: every error ends listening; only some are reported. */
  function OnRecognitionError(s: InputState, code: string): (r: (InputState, Transcription.ErrorNotice))
    ensures r.0 == s.(isListening := false)
    ensures r.1 == Transcription.NoNotice <==> code in Transcription.SilentErrors
    ensures r.1 == Transcription.PermissionNotice <==> code in Transcription.PermissionErrors
    ensures r.1.GenericNotice? <==> code !in Transcription.SilentErrors + Transcription.PermissionErrors
  {
    (s.(isListening := false), Transcription.ClassifyError(code))
  }

  /** `handleToggleListening` */
  function ToggleListening(s: InputState): (r: InputState)
    ensures !s.hasRecognizer ==> r == s
    ensures s.hasRecognizer ==> r.isListening == !s.isListening && r.recognizerRunning == !s.isListening
    ensures s.hasRecognizer && !s.isListening ==> r.transcript == "" && r.finalTranscript == ""
    ensures s.hasRecognizer && s.isListening ==> r.transcript == s.transcript && r.finalTranscript == s.finalTranscript
  {
    if !s.hasRecognizer then s
    else if s.isListening then s.(isListening := false, recognizerRunning := false)
    else Sync(s, s.(finalTranscript := "", transcript := "", isListening := true, recognizerRunning := true))
  }

  /** Typing into the transcript box (read-only while listening, disabled without recognition). */
  function EditTranscript(s: InputState, text: string): (r: InputState)
    ensures s.isListening || !s.hasRecognizer ==> r == s
    ensures !s.isListening && s.hasRecognizer ==> r.transcript == text && r.inputTab == s.inputTab
    ensures !s.isListening && s.hasRecognizer && s.inputTab == Live && text != s.transcript ==>
              r.speechSample == Some(text)
    ensures s.inputTab != Live || text == s.transcript ==> r.speechSample == s.speechSample
  {
    if s.isListening || !s.hasRecognizer then s else Sync(s, s.(transcript := text))
  }

  // ---------------------------------------------------------------------------
  // Recording and upload

  /** `startRecording`, once the microphone request has been granted or refused. */
  function StartRecording(s: InputState, granted: bool): (r: InputState)
    ensures !granted ==> r == s
    ensures granted ==> r.recorder == Recording && r.isRecording && r.audioChunks == []
    ensures r.speechSample == s.speechSample && r.transcript == s.transcript
  {
    if granted then s.(recorder := Recording, audioChunks := [], isRecording := true) else s
  }

  /** `ondataavailable` */
  function ChunkAvailable(s: InputState, chunk: string): (r: InputState)
    ensures s.recorder == Recording || s.recorder == Finalizing ==> r == s.(audioChunks := s.audioChunks + [chunk])
    ensures s.recorder != Recording && s.recorder != Finalizing ==> r == s
    ensures Concat(r.audioChunks) == Concat(s.audioChunks) + (if s.recorder == Recording || s.recorder == Finalizing then chunk else "")
  {
    ConcatAppend(s.audioChunks, chunk);
    if s.recorder == Recording || s.recorder == Finalizing then s.(audioChunks := s.audioChunks + [chunk]) else s
  }

  /** `stopRecording`: only a recorder that is recording is stopped. */
  function StopRecording(s: InputState): (r: InputState)
    ensures r.recorder != Recording
    ensures s.recorder == Recording ==> r == s.(recorder := Finalizing, isRecording := false)
    ensures s.recorder != Recording ==> r == s
  {
    if s.recorder == Recording then s.(recorder := Finalizing, isRecording := false) else s
  }

  /**
    The recorder's `onstop` callback: the collected chunks become an audio/webm
    blob whose data URI is the sample, whatever tab is showing by then.
   */
  function RecorderStopped(s: InputState): (r: InputState)
    ensures s.recorder == Finalizing ==>
              r.speechSample == Some(DataUri(Blob("audio/webm", Concat(s.audioChunks))))
    ensures s.recorder != Finalizing ==> r == s
  {
    if s.recorder == Finalizing then
      var blob := Blob("audio/webm", Concat(s.audioChunks));
      s.(recorder := Inactive, audioUrl := Some(ObjectUrl(blob)), speechSample := Some(DataUri(blob)))
    else s
  }

  /** `clearAudio` (it changes neither the transcript nor the tab, so the live effect does not run). */
  function ClearAudio(s: InputState): (r: InputState)
    ensures r.speechSample == None && r.audioUrl == None && r.audioChunks == []
    ensures r.recorder != Recording
    ensures r.transcript == s.transcript && r.inputTab == s.inputTab
  {
    StopRecording(s).(speechSample := None, audioUrl := None, audioChunks := [])
  }

  /**
    A clear that also detaches the recorder's callbacks, so that nothing the
    stopped recorder still delivers reaches the sample.
   */
  function ClearAudioDetached(s: InputState): (r: InputState)
    ensures r.speechSample == None && r.audioUrl == None && r.audioChunks == []
    ensures r.recorder != Recording && r.recorder != Finalizing
    ensures forall data :: RecorderStopped(ChunkAvailable(r, data)) == r
  {
    var stopped := if s.recorder == NoRecorder then s else s.(recorder := Inactive, isRecording := false);
    stopped.(speechSample := None, audioUrl := None, audioChunks := [])
  }

  /** `handleFileChange`: a chosen audio file replaces any recording. */
  function AudioFileChosen(s: InputState, file: Option<Blob>): (r: InputState)
    ensures file.None? ==> r == s
    ensures file.Some? ==> r.speechSample == Some(DataUri(file.value)) && r.recorder != Recording
  {
    if file.None? then s
    else ClearAudio(s).(audioUrl := Some(ObjectUrl(file.value)), speechSample := Some(DataUri(file.value)))
  }

  /** The state change of `clearAllInput`, before the live effect reacts. */
  function ClearAllInput(s: InputState): (r: InputState)
    ensures r.speechSample == None && r.transcript == "" && r.audioUrl == None && r.audioChunks == []
    ensures r.recorder != Recording && r.inputTab == s.inputTab
    ensures s.isListening && s.hasRecognizer ==> !r.recognizerRunning
  {
    var c := ClearAudio(s).(transcript := "", speechSample := None);
    if s.isListening && s.hasRecognizer then c.(recognizerRunning := false) else c
  }

  /** Switching the input tab clears every input first. */
  function TabChange(s: InputState, tab: Tab): (r: InputState)
    ensures r.inputTab == tab && r.transcript == "" && r.audioUrl == None && r.audioChunks == []
    ensures r.speechSample == (if tab == Live && (s.transcript != "" || s.inputTab != Live) then Some("") else None)
    ensures r.recorder != Recording
    ensures s.isListening && s.hasRecognizer ==> !r.recognizerRunning
  {
    Sync(s, ClearAllInput(s).(inputTab := tab))
  }

  // ---------------------------------------------------------------------------
  // Interview mode: resume, questions, selection

  /** `resetInterviewState(fullReset)` */
  function ResetInterview(s: InterviewState, fullReset: bool): (r: InterviewState)
    ensures r.resumeFile == (if fullReset then None else s.resumeFile)
    ensures r.resumeInfoText == "" && r.extractedResumeData == None
    ensures r.generatedQuestions == [] && r.activeQuestion == None && !r.showIdealAnswer
  {
    InterviewState(if fullReset then None else s.resumeFile, "", None, [], None, false)
  }

  /**
    `handleResumeFileChange`: the file is kept, the derived interview state is
    cleared, and the two extractions are committed together only when both
    succeed (the data URI of the file is what both services receive).
   */
  function ResumeFileChange(s: InterviewState, file: Option<Blob>,
                            extractInfo: string -> Option<ResumeInfo>,
                            extractText: string -> Option<string>): (r: InterviewState)
    ensures file.None? ==> r == s
    ensures file.Some? ==>
              && r.resumeFile == file
              && r.generatedQuestions == [] && r.activeQuestion == None
              && var info := extractInfo(DataUri(file.value));
                 var text := extractText(DataUri(file.value));
                 if info.Some? && text.Some?
                 then r.extractedResumeData == info && r.resumeInfoText == text.value
                 else r.extractedResumeData == None && r.resumeInfoText == ""
  {
    if file.None? then s
    else
      var cleared := ResetInterview(s.(resumeFile := file), false);
      var uri := DataUri(file.value);
      var info := extractInfo(uri);
      var text := extractText(uri);
      if info.Some? && text.Some? then cleared.(extractedResumeData := info, resumeInfoText := text.value)
      else cleared
  }

  /** The remove button next to the resume: back to no resume at all. */
  function RemoveResume(s: InterviewState): (r: InterviewState)
    ensures r == NoInterview
  {
    ResetInterview(s, true)
  }

  const SummaryPrefix: string := "The candidate's experience includes: "

  /** The job title of every experience entry, in résumé order. */
  function Titles(es: seq<Experience>): (ts: seq<string>)
    ensures |ts| == |es|
    ensures forall i :: 0 <= i < |es| ==> ts[i] == es[i].jobTitle
  {
    if |es| == 0 then [] else [es[0].jobTitle] + Titles(es[1..])
  }

  /**
    The job titles joined with ", " inside a template literal: an absent
    experience list prints as "undefined".
   */
  function JobTitles(experience: Option<seq<Experience>>): string
  {
    if experience.None? then "undefined" else Join(Titles(experience.value), ", ")
  }

  /** The summary handed to the question generator. */
  function ResumeSummary(info: ResumeInfo): (r: string)
    ensures TruthyOpt(info.summary) ==> r == info.summary.value
    ensures !TruthyOpt(info.summary) ==> StartsWith(r, SummaryPrefix)
    ensures !TruthyOpt(info.summary) && info.experience.None? ==> r == SummaryPrefix + "undefined."
    ensures !TruthyOpt(info.summary) && info.experience.Some? ==>
              r == SummaryPrefix + Join(Titles(info.experience.value), ", ") + "."
  {
    if TruthyOpt(info.summary) then info.summary.value
    else SummaryPrefix + JobTitles(info.experience) + "."
  }
  /**
    One more experience entry adds its title at the end of the summary,
    after ", " unless it is the first: the titles appear in résumé order.
   */
  lemma SummaryAppendsTitle(info: ResumeInfo, e: Experience)
    requires !TruthyOpt(info.summary) && info.experience.Some?
    ensures var es := info.experience.value;
            var more := ResumeSummary(info.(experience := Some(es + [e])));
            && (|es| == 0 ==> more == SummaryPrefix + e.jobTitle + ".")
            && (|es| > 0 ==> more == SummaryPrefix + Join(Titles(es), ", ") + ", " + e.jobTitle + ".")
  {
    var es := info.experience.value;
    assert Titles(es + [e]) == Titles(es) + [e.jobTitle];
    if |es| > 0 {
      JoinAppend(Titles(es), e.jobTitle, ", ");
    }
  }


  /**
    `handleGenerateQuestions`: a no-op without both extractions; otherwise the
    list and the selection are cleared and replaced by the generator's reply if
    that reply satisfies the output schema.
   */
  function GenerateQuestions(s: InterviewState, generate: QuestionRequest -> Option<Json>): (r: InterviewState)
    ensures s.extractedResumeData.None? || s.resumeInfoText == "" ==> r == s
    ensures s.extractedResumeData.Some? && s.resumeInfoText != "" ==>
              && r.activeQuestion == None
              && var reply := generate(QuestionRequest(ResumeSummary(s.extractedResumeData.value), s.resumeInfoText));
                 r.generatedQuestions ==
                   (if reply.Some? && QuestionsOutputValid(reply.value) then DecodeQuestions(reply.value).value else [])
    ensures r.generatedQuestions != s.generatedQuestions ==> |r.generatedQuestions| <= MaxQuestions
    ensures r.resumeFile == s.resumeFile && r.extractedResumeData == s.extractedResumeData
    ensures r.resumeInfoText == s.resumeInfoText && r.showIdealAnswer == s.showIdealAnswer
  {
    if s.extractedResumeData.None? || s.resumeInfoText == "" then s
    else
      var cleared := s.(generatedQuestions := [], activeQuestion := None);
      var request := QuestionRequest(ResumeSummary(s.extractedResumeData.value), s.resumeInfoText);
      var reply := generate(request);
      var questions := if reply.Some? then DecodeQuestions(reply.value) else None;
      if questions.Some? then cleared.(generatedQuestions := questions.value) else cleared
  }

  // Each résumé handler awaits its service. What it does before the await runs
  // on the event; what follows runs when the reply arrives, into whatever
  // state the page is in by then.

  /** `handleResumeFileChange` up to its await: the file is kept and everything derived from a résumé is cleared. */
  function ExtractionStarted(s: InterviewState, file: Blob): (r: InterviewState)
    ensures r.resumeFile == Some(file)
    ensures r.resumeInfoText == "" && r.extractedResumeData == None
    ensures r.generatedQuestions == [] && r.activeQuestion == None && !r.showIdealAnswer
  {
    ResetInterview(s.(resumeFile := Some(file)), false)
  }

  /** The end of `handleResumeFileChange`: data and text are stored together, and only when both extractions succeeded. */
  function ExtractionFinished(s: InterviewState, info: Option<ResumeInfo>, text: Option<string>): (r: InterviewState)
    ensures info.Some? && text.Some? ==> r == s.(extractedResumeData := info, resumeInfoText := text.value)
    ensures info.None? || text.None? ==> r == s
  {
    if info.Some? && text.Some? then s.(extractedResumeData := info, resumeInfoText := text.value) else s
  }

  /** `handleGenerateQuestions` up to its await: with both extractions, the list and the selection are cleared. */
  function GenerationStarted(s: InterviewState): (r: InterviewState)
    ensures s.extractedResumeData.None? || s.resumeInfoText == "" ==> r == s
    ensures s.extractedResumeData.Some? && s.resumeInfoText != "" ==>
              r == s.(generatedQuestions := [], activeQuestion := None)
  {
    if s.extractedResumeData.None? || s.resumeInfoText == "" then s
    else s.(generatedQuestions := [], activeQuestion := None)
  }

  /** The end of `handleGenerateQuestions`: a reply that satisfies the output schema becomes the list. */
  function GenerationFinished(s: InterviewState, reply: Option<Json>): (r: InterviewState)
    ensures reply.Some? && QuestionsOutputValid(reply.value) ==>
              && r == s.(generatedQuestions := DecodeQuestions(reply.value).value)
              && |r.generatedQuestions| <= MaxQuestions
    ensures reply.None? || !QuestionsOutputValid(reply.value) ==> r == s
  {
    var questions := if reply.Some? then DecodeQuestions(reply.value) else None;
    if questions.Some? then s.(generatedQuestions := questions.value) else s
  }

  /** Uninterrupted, the two halves of `handleResumeFileChange` are the whole handler. */
  lemma ResumeFileChangeSplits(s: InterviewState, file: Blob,
                               extractInfo: string -> Option<ResumeInfo>,
                               extractText: string -> Option<string>)
    ensures var uri := DataUri(file);
            ResumeFileChange(s, Some(file), extractInfo, extractText)
              == ExtractionFinished(ExtractionStarted(s, file), extractInfo(uri), extractText(uri))
  {
  }

  /** Uninterrupted, the two halves of `handleGenerateQuestions` are the whole handler. */
  lemma GenerateQuestionsSplits(s: InterviewState, generate: QuestionRequest -> Option<Json>)
    ensures s.extractedResumeData.None? || s.resumeInfoText == "" ==>
              GenerateQuestions(s, generate) == GenerationStarted(s) == s
    ensures s.extractedResumeData.Some? && s.resumeInfoText != "" ==>
              var request := QuestionRequest(ResumeSummary(s.extractedResumeData.value), s.resumeInfoText);
              GenerateQuestions(s, generate) == GenerationFinished(GenerationStarted(s), generate(request))
  {
  }

  /** The first question whose text is `value`, as `Array.prototype.find` returns it. */
  function FindQuestion(qs: seq<InterviewQuestion>, value: string): (r: Option<InterviewQuestion>)
    ensures r.None? <==> forall i :: 0 <= i < |qs| ==> qs[i].question != value
    ensures r.Some? ==> exists k :: 0 <= k < |qs| && qs[k] == r.value && r.value.question == value
                                   && forall i :: 0 <= i < k ==> qs[i].question != value
  {
    if |qs| == 0 then None
    else if qs[0].question == value then Some(qs[0])
    else
      var rest := FindQuestion(qs[1..], value);
      if rest.Some? then
        ghost var k :| 0 <= k < |qs[1..]| && qs[1..][k] == rest.value
                       && forall i :: 0 <= i < k ==> qs[1..][i].question != value;
        assert qs[k + 1] == rest.value;
        rest
      else rest
  }

  /** Picking a radio item selects the first question with that text. */
  function SelectQuestion(s: InterviewState, value: string): (r: InterviewState)
    ensures r.activeQuestion.Some? ==> r.activeQuestion.value in s.generatedQuestions
    ensures r.activeQuestion.None? <==> forall q :: q in s.generatedQuestions ==> q.question != value
  {
    s.(activeQuestion := FindQuestion(s.generatedQuestions, value))
  }

  // ---------------------------------------------------------------------------
  // Analysis

  datatype Rejection = NoSpeechSample | NoQuestionSelected | MissingQuestionOrAnswer

  datatype RequestOutcome = Accepted(request: AnalyzeRequest) | Rejected(reason: Rejection)

  /** The Rehearsal set-up is complete (it gates the speech input on that mode). */
  predicate IsRehearsalReady(s: PageState)
  {
    s.mode == Rehearsal && s.question != "" && s.perfectAnswer != ""
  }

  /** The validation gate and request builder of `handleAnalyze`. */
  function BuildRequest(s: PageState): (r: RequestOutcome)
    ensures r == Rejected(NoSpeechSample) <==> !TruthyOpt(s.input.speechSample)
    ensures r.Accepted? ==>
              && r.request.speechSample == s.input.speechSample.value
              && r.request.mode == ModeLabel(s.mode)
    ensures s.mode == Presentation ==>
              (r.Accepted? <==> TruthyOpt(s.input.speechSample))
              && (r.Accepted? ==> r.request.question.None? && r.request.perfectAnswer.None?)
    ensures s.mode == Interview ==>
              (r.Accepted? <==> TruthyOpt(s.input.speechSample) && s.interview.activeQuestion.Some?)
              && (r.Accepted? ==> r.request.question == Some(s.interview.activeQuestion.value.question)
                                  && r.request.perfectAnswer == Some(s.interview.activeQuestion.value.answer))
    ensures s.mode == Rehearsal ==>
              (r.Accepted? <==> TruthyOpt(s.input.speechSample) && IsRehearsalReady(s))
              && (r.Accepted? ==> r.request.question == Some(s.question)
                                  && r.request.perfectAnswer == Some(s.perfectAnswer))
  {
    if !TruthyOpt(s.input.speechSample) then Rejected(NoSpeechSample)
    else
      var base := AnalyzeRequest(s.input.speechSample.value, ModeLabel(s.mode), None, None);
      match s.mode
      case Presentation => Accepted(base)
      case Interview =>
        var q := s.interview.activeQuestion;
        if q.None? then Rejected(NoQuestionSelected)
        else Accepted(base.(question := Some(q.value.question), perfectAnswer := Some(q.value.answer)))
      case Rehearsal =>
        if s.question == "" || s.perfectAnswer == "" then Rejected(MissingQuestionOrAnswer)
        else Accepted(base.(question := Some(s.question), perfectAnswer := Some(s.perfectAnswer)))
  }

  /**
    `handleAnalyze`: a rejected request changes nothing; otherwise the old
    result is dropped and the service's answer, if any, becomes the result.
   */
  function Analyze(s: PageState, service: AnalyzeRequest -> Option<AnalysisOutput>): (r: PageState)
    ensures BuildRequest(s).Rejected? ==> r == s
    ensures BuildRequest(s).Accepted? ==> r == s.(analysisResult := service(BuildRequest(s).request))
  {
    match BuildRequest(s)
    case Rejected(_) => s
    case Accepted(req) => s.(analysisResult := service(req))
  }

  // ---------------------------------------------------------------------------
  // Mode selection

  /**
    `handleModeChange`, also when the current mode is picked again: inputs and
    result are cleared, interview state survives only into Interview mode and
    the rehearsal fields only into Rehearsal mode.
   */
  function ModeChange(s: PageState, m: Mode): (r: PageState)
    ensures r.mode == m && r.analysisResult == None
    ensures r.input.transcript == "" && r.input.audioUrl == None && r.input.audioChunks == []
    ensures r.input.speechSample == (if s.input.transcript != "" && s.input.inputTab == Live then Some("") else None)
    ensures m != Interview ==> r.interview == NoInterview
    ensures m == Interview ==> r.interview == s.interview
    ensures m != Rehearsal ==> r.question == "" && r.perfectAnswer == ""
    ensures m == Rehearsal ==> r.question == s.question && r.perfectAnswer == s.perfectAnswer
    ensures r.loading == s.loading && r.tickets == s.tickets
    ensures r.extractionsDue == s.extractionsDue && r.generationsDue == s.generationsDue
  {
    s.(mode := m,
       question := if m == Rehearsal then s.question else "",
       perfectAnswer := if m == Rehearsal then s.perfectAnswer else "",
       interview := if m == Interview then s.interview else ResetInterview(s.interview, true),
       input := Sync(s.input, ClearAllInput(s.input)),
       analysisResult := None)
  }

  // ---------------------------------------------------------------------------
  // Awaited résumé requests at page level

  /**
    The résumé file input: the extraction takes the next request number, is
    awaited, and the page shows that it is extracting. Cancelling the picker
    changes nothing.
   */
  function StartExtraction(s: PageState, file: Option<Blob>): (r: PageState)
    ensures file.None? ==> r == s
    ensures file.Some? ==>
              && r.interview == ExtractionStarted(s.interview, file.value)
              && r.loading == ExtractingInfo
              && r.tickets == s.tickets + 1 && r.extractionsDue == s.extractionsDue + {s.tickets}
    ensures r.(interview := s.interview, loading := s.loading, tickets := s.tickets,
               extractionsDue := s.extractionsDue) == s
  {
    if file.None? then s
    else s.(interview := ExtractionStarted(s.interview, file.value), loading := ExtractingInfo,
            tickets := s.tickets + 1, extractionsDue := s.extractionsDue + {s.tickets})
  }

  /**
    The extraction replies: both results are committed to the current
    interview state, whatever happened since the request (page.tsx:316-317),
    and the `finally` clears the loading flag.
   */
  function FinishExtraction(s: PageState, ticket: nat, info: Option<ResumeInfo>, text: Option<string>): (r: PageState)
    ensures r.interview == ExtractionFinished(s.interview, info, text)
    ensures r.loading == Idle && r.extractionsDue == s.extractionsDue - {ticket}
    ensures r.(interview := s.interview, loading := s.loading, extractionsDue := s.extractionsDue) == s
  {
    s.(interview := ExtractionFinished(s.interview, info, text), loading := Idle,
       extractionsDue := s.extractionsDue - {ticket})
  }

  /**
    The Generate button: with both extractions the generation takes the next
    request number and is awaited; without them nothing happens.
   */
  function StartGeneration(s: PageState): (r: PageState)
    ensures s.interview.extractedResumeData.None? || s.interview.resumeInfoText == "" ==> r == s
    ensures s.interview.extractedResumeData.Some? && s.interview.resumeInfoText != "" ==>
              && r.interview == GenerationStarted(s.interview)
              && r.loading == GeneratingQuestions
              && r.tickets == s.tickets + 1 && r.generationsDue == s.generationsDue + {s.tickets}
    ensures r.(interview := s.interview, loading := s.loading, tickets := s.tickets,
               generationsDue := s.generationsDue) == s
  {
    if s.interview.extractedResumeData.None? || s.interview.resumeInfoText == "" then s
    else s.(interview := GenerationStarted(s.interview), loading := GeneratingQuestions,
            tickets := s.tickets + 1, generationsDue := s.generationsDue + {s.tickets})
  }

  /**
    The generator replies: a valid list is committed to the current interview
    state, whatever happened since the request (page.tsx:336), and the
    `finally` clears the loading flag.
   */
  function FinishGeneration(s: PageState, ticket: nat, reply: Option<Json>): (r: PageState)
    ensures r.interview == GenerationFinished(s.interview, reply)
    ensures r.loading == Idle && r.generationsDue == s.generationsDue - {ticket}
    ensures r.(interview := s.interview, loading := s.loading, generationsDue := s.generationsDue) == s
  {
    s.(interview := GenerationFinished(s.interview, reply), loading := Idle,
       generationsDue := s.generationsDue - {ticket})
  }

  /** The request numbered `ticket` is the latest one and nothing has reset the interview state since. */
  predicate IsLatest(s: PageState, ticket: nat)
  {
    ticket + 1 == s.tickets
  }

  /**
    The extraction reply with a staleness check in front of its two setters:
    only the latest request is stored, a stale one just clears the loading flag.
   */
  function FinishExtractionIfLatest(s: PageState, ticket: nat, info: Option<ResumeInfo>, text: Option<string>): (r: PageState)
    ensures IsLatest(s, ticket) ==> r == FinishExtraction(s, ticket, info, text)
    ensures !IsLatest(s, ticket) ==> r.interview == s.interview
    ensures r.loading == Idle && r.extractionsDue == s.extractionsDue - {ticket}
    ensures r.(interview := s.interview, loading := s.loading, extractionsDue := s.extractionsDue) == s
  {
    if IsLatest(s, ticket) then FinishExtraction(s, ticket, info, text)
    else s.(loading := Idle, extractionsDue := s.extractionsDue - {ticket})
  }

  /** The generator reply with the same staleness check in front of its setter. */
  function FinishGenerationIfLatest(s: PageState, ticket: nat, reply: Option<Json>): (r: PageState)
    ensures IsLatest(s, ticket) ==> r == FinishGeneration(s, ticket, reply)
    ensures !IsLatest(s, ticket) ==> r.interview == s.interview
    ensures r.loading == Idle && r.generationsDue == s.generationsDue - {ticket}
    ensures r.(interview := s.interview, loading := s.loading, generationsDue := s.generationsDue) == s
  {
    if IsLatest(s, ticket) then FinishGeneration(s, ticket, reply)
    else s.(loading := Idle, generationsDue := s.generationsDue - {ticket})
  }

  /** A reset of the interview state retires every request still awaited: none of them is the latest any more. */
  function RetireRequests(s: PageState): (r: PageState)
    ensures forall t: nat :: t < s.tickets ==> !IsLatest(r, t)
    ensures r.(tickets := s.tickets) == s
  {
    s.(tickets := s.tickets + 1)
  }
}

=== FILE: session_laws.dfy ===
/**
  The page as an event system: which handler each UI event runs, when the UI
  offers it, and the invariants every offered event preserves.
 */
module SessionLaws {

  import opened Basics
  import opened Json
  import opened Schemas
  import opened SchemaCodec
  import Transcription
  import AnalyzeFlow
  import opened Session

  /**
    The events the page reacts to. The analysis reply is carried by its click;
    each résumé request is a click and a later reply, numbered by the ticket
    the click took.
   */
  datatype Event =
    | RecognitionResult(ev: Transcription.RecognitionEvent)
    | RecognitionEnd
    | RecognitionError(code: string)
    | ToggleListen
    | Edit(text: string)
    | StartRec(granted: bool)
    | Chunk(data: string)
    | StopRec
    | RecorderDone
    | AudioChosen(audio: Option<Blob>)
    | ClearAudioClicked
    | ChangeTab(tab: Tab)
    | ResumeChosen(resume: Option<Blob>)
    | ExtractionReply(ticket: nat, info: Option<ResumeInfo>, plainText: Option<string>)
    | RemoveResumeClicked
    | GenerateClicked
    | QuestionsReply(ticket: nat, reply: Option<Json>)
    | QuestionPicked(value: string)
    | IdealAnswerSwitch(on: bool)
    | QuestionTyped(text: string)
    | AnswerTyped(text: string)
    | AnalyzeClicked(result: Option<AnalysisOutput>)
    | ModeClicked(m: Mode)

  /** The speech-input card is rendered. */
  predicate InputShown(s: PageState)
  {
    match s.mode
    case Presentation => true
    case Rehearsal => IsRehearsalReady(s)
    case Interview => s.interview.activeQuestion.Some?
  }

  /** The control that fires the event is on screen and enabled. */
  predicate Available(s: PageState, e: Event)
  {
    var i := s.input;
    match e
    case RecognitionResult(_) => i.recognizerRunning
    case RecognitionEnd => true
    case RecognitionError(_) => i.recognizerRunning
    case ToggleListen => InputShown(s) && i.inputTab == Live && i.hasRecognizer
    case Edit(_) => InputShown(s) && i.inputTab == Live
    case StartRec(_) => InputShown(s) && i.inputTab == Record && !i.isRecording && i.audioUrl.None?
    case Chunk(_) => true
    case StopRec => InputShown(s) && i.inputTab == Record && i.isRecording
    case RecorderDone => i.recorder == Finalizing
    case AudioChosen(_) => InputShown(s) && i.inputTab == Upload && i.audioUrl.None?
    case ClearAudioClicked => InputShown(s) && (i.inputTab == Record || i.inputTab == Upload) && i.audioUrl.Some?
    case ChangeTab(t) => InputShown(s) && t != i.inputTab && (t == Live ==> i.hasRecognizer)
    case ResumeChosen(_) => s.mode == Interview && s.interview.resumeFile.None?
    case ExtractionReply(t, _, _) => t in s.extractionsDue
    case RemoveResumeClicked => s.mode == Interview && s.interview.resumeFile.Some?
    case GenerateClicked =>
      s.mode == Interview && s.interview.resumeInfoText != "" && s.loading != GeneratingQuestions
    case QuestionsReply(t, _) => t in s.generationsDue
    case QuestionPicked(_) =>
      s.mode == Interview && s.interview.resumeInfoText != "" && |s.interview.generatedQuestions| > 0
    case IdealAnswerSwitch(_) => s.mode == Interview && s.interview.activeQuestion.Some?
    case QuestionTyped(_) => s.mode == Rehearsal
    case AnswerTyped(_) => s.mode == Rehearsal
    case AnalyzeClicked(_) => TruthyOpt(i.speechSample) && s.loading == Idle
    case ModeClicked(_) => true
  }

  /** The handler an event runs. */
  function Step(s: PageState, e: Event): PageState
  {
    match e
    case RecognitionResult(ev) => s.(input := OnResult(s.input, ev))
    case RecognitionEnd => s.(input := OnEnd(s.input))
    case RecognitionError(code) => s.(input := OnRecognitionError(s.input, code).0)
    case ToggleListen => s.(input := ToggleListening(s.input))
    case Edit(text) => s.(input := EditTranscript(s.input, text))
    case StartRec(granted) => s.(input := StartRecording(s.input, granted))
    case Chunk(data) => s.(input := ChunkAvailable(s.input, data))
    case StopRec => s.(input := StopRecording(s.input))
    case RecorderDone => s.(input := RecorderStopped(s.input))
    case AudioChosen(file) => s.(input := AudioFileChosen(s.input, file))
    case ClearAudioClicked => s.(input := ClearAudio(s.input))
    case ChangeTab(tab) => s.(input := TabChange(s.input, tab))
    case ResumeChosen(file) => StartExtraction(s, file)
    case ExtractionReply(t, info, text) => FinishExtraction(s, t, info, text)
    case RemoveResumeClicked => s.(interview := RemoveResume(s.interview))
    case GenerateClicked => StartGeneration(s)
    case QuestionsReply(t, reply) => FinishGeneration(s, t, reply)
    case QuestionPicked(value) => s.(interview := SelectQuestion(s.interview, value))
    case IdealAnswerSwitch(on) => s.(interview := s.interview.(showIdealAnswer := on))
    case QuestionTyped(text) => s.(question := text)
    case AnswerTyped(text) => s.(perfectAnswer := text)
    case AnalyzeClicked(result) => Analyze(s, _ => result)
    case ModeClicked(m) => ModeChange(s, m)
  }

  /**
    The page with stale replies discarded: the résumé's remove button and a
    switch to another mode retire every request still awaited, and a reply is
    stored only when its request is the latest.
   */
  function StepChecked(s: PageState, e: Event): PageState
  {
    match e
    case RemoveResumeClicked => RetireRequests(Step(s, e))
    case ModeClicked(m) => if m == Interview then Step(s, e) else RetireRequests(Step(s, e))
    case ExtractionReply(t, info, text) => FinishExtractionIfLatest(s, t, info, text)
    case QuestionsReply(t, reply) => FinishGenerationIfLatest(s, t, reply)
    case _ => Step(s, e)
  }

  // ---------------------------------------------------------------------------
  // Invariants

  /**
    The resume pipeline runs in order: questions only after both extractions,
    extractions only for a chosen file, the selection is one of the questions,
    and there are never more than three.
   */
  predicate PipelineOrdered(v: InterviewState)
  {
    && (v.activeQuestion.Some? ==> v.activeQuestion.value in v.generatedQuestions)
    && (|v.generatedQuestions| > 0 ==> v.extractedResumeData.Some? && v.resumeInfoText != "")
    && (v.resumeInfoText != "" ==> v.extractedResumeData.Some?)
    && (v.extractedResumeData.Some? ==> v.resumeFile.Some?)
    && |v.generatedQuestions| <= MaxQuestions
  }

  /** Interview state exists only in Interview mode, the rehearsal fields only in Rehearsal mode. */
  predicate ModeScoped(s: PageState)
  {
    && (s.mode != Interview ==> s.interview == NoInterview)
    && (s.mode != Rehearsal ==> s.question == "" && s.perfectAnswer == "")
  }

  /** On the live tab the sample is the transcript (or nothing at all while the transcript is empty). */
  predicate LiveSynced(i: InputState)
  {
    i.inputTab == Live ==>
      i.speechSample == Some(i.transcript) || (i.speechSample == None && i.transcript == "")
  }

  predicate Inv(s: PageState)
  {
    PipelineOrdered(s.interview) && ModeScoped(s)
  }

  /**
    What a reply relies on when it is stored: request numbers are handed out
    once, and while the latest request is awaited the interview state is still
    the one it was started from.
   */
  predicate AwaitedFits(s: PageState)
  {
    && (forall t :: t in s.extractionsDue ==> t < s.tickets)
    && (forall t :: t in s.generationsDue ==> t < s.tickets)
    && s.extractionsDue !! s.generationsDue
    && (s.tickets > 0 && s.tickets - 1 in s.extractionsDue ==>
          && s.mode == Interview && s.interview.resumeFile.Some?
          && s.interview.generatedQuestions == [] && s.interview.activeQuestion == None)
    && (s.tickets > 0 && s.tickets - 1 in s.generationsDue ==>
          && s.mode == Interview && s.interview.extractedResumeData.Some? && s.interview.resumeInfoText != ""
          && s.interview.generatedQuestions == [] && s.interview.activeQuestion == None)
  }

  lemma InitInv(supported: bool)
    ensures Inv(Init(supported)) && AwaitedFits(Init(supported)) && LiveSynced(Init(supported).input)
  {
  }

  /**
    On the page as written every offered event but a late reply keeps the
    resume pipeline ordered and the state scoped to its mode.
   */
  lemma HandlersKeepInv(s: PageState, e: Event)
    requires Inv(s) && Available(s, e) && !e.ExtractionReply? && !e.QuestionsReply?
    ensures Inv(Step(s, e))
  {
  }

  /**
    With stale replies discarded, every offered event, late replies included,
    keeps the resume pipeline ordered, the state scoped to its mode, and the
    awaited requests consistent with the state.
   */
  lemma StepKeepsInv(s: PageState, e: Event)
    requires Inv(s) && AwaitedFits(s) && Available(s, e)
    ensures Inv(StepChecked(s, e)) && AwaitedFits(StepChecked(s, e))
  {
  }

  // ---------------------------------------------------------------------------
  // A résumé reply outlives its résumé

  /**
    Remove the résumé while its extraction is awaited: the reply still
    arrives, and the page holds résumé data and text with no résumé. With the
    staleness check the reply is discarded.
   */
  lemma LateExtractionOutlivesRemoval(s: PageState, file: Blob, info: ResumeInfo, text: string)
    requires Inv(s) && s.mode == Interview && s.interview.resumeFile.None?
    ensures var s1 := Step(s, ResumeChosen(Some(file)));
            var s2 := Step(s1, RemoveResumeClicked);
            var s3 := Step(s2, ExtractionReply(s.tickets, Some(info), Some(text)));
            && Available(s, ResumeChosen(Some(file))) && Available(s1, RemoveResumeClicked)
            && Available(s2, ExtractionReply(s.tickets, Some(info), Some(text)))
            && Inv(s1) && Inv(s2) && !Inv(s3)
            && s3.interview.resumeFile == None && s3.interview.extractedResumeData == Some(info)
            && StepChecked(StepChecked(s1, RemoveResumeClicked), ExtractionReply(s.tickets, Some(info), Some(text))).interview
                 == NoInterview
  {
  }

  /**
    Switch to Presentation mode while the extraction is awaited: the reply
    writes résumé data into Presentation mode's state.
   */
  lemma LateExtractionOutlivesModeChange(s: PageState, file: Blob, info: ResumeInfo, text: string)
    requires Inv(s) && s.mode == Interview && s.interview.resumeFile.None?
    ensures var s1 := Step(s, ResumeChosen(Some(file)));
            var s2 := Step(s1, ModeClicked(Presentation));
            var s3 := Step(s2, ExtractionReply(s.tickets, Some(info), Some(text)));
            && Available(s1, ModeClicked(Presentation))
            && Available(s2, ExtractionReply(s.tickets, Some(info), Some(text)))
            && Inv(s2) && !ModeScoped(s3)
            && s3.mode == Presentation && s3.interview.extractedResumeData == Some(info)
  {
  }

  /**
    Remove the résumé while questions are being generated: the reply still
    stores its questions, which now have no résumé behind them.
   */
  lemma LateQuestionsOutliveRemoval(s: PageState, qs: seq<InterviewQuestion>)
    requires Inv(s) && s.mode == Interview && s.interview.resumeInfoText != "" && s.loading == Idle
    requires 0 < |qs| <= MaxQuestions
    ensures var s1 := Step(s, GenerateClicked);
            var s2 := Step(s1, RemoveResumeClicked);
            var s3 := Step(s2, QuestionsReply(s.tickets, Some(EncodeQuestions(qs))));
            && Available(s, GenerateClicked) && Available(s1, RemoveResumeClicked)
            && Available(s2, QuestionsReply(s.tickets, Some(EncodeQuestions(qs))))
            && Inv(s1) && Inv(s2) && !Inv(s3)
            && s3.interview.generatedQuestions == qs && s3.interview.resumeFile == None
  {
  }

  /**
    Every offered event but the recorder's stop callback keeps the live tab's
    sample equal to its transcript.
   */
  lemma StepKeepsLiveSynced(s: PageState, e: Event)
    requires LiveSynced(s.input) && Available(s, e) && !e.RecorderDone?
    ensures LiveSynced(Step(s, e).input)
  {
  }

  // ---------------------------------------------------------------------------
  // Analysis requests

  /** Every request the page lets through satisfies the shared input schema. */
  lemma RequestsSatisfySharedSchema(s: PageState)
    requires BuildRequest(s).Accepted?
    ensures InputValid(EncodeRequest(BuildRequest(s).request))
  {
    RequestValidIff(BuildRequest(s).request, AnalysisModes);
  }

  /**
    In Rehearsal mode the page sends "Rehearsal Mode", which the analysis flow's
    own enumeration does not contain: every rehearsal analysis fails.
   */
  lemma RehearsalAnalysisFails(s: PageState, prompt: (AnalyzeRequest, bool) -> Option<AnalysisOutput>)
    requires s.mode == Rehearsal && BuildRequest(s).Accepted?
    ensures Analyze(s, req => AnalyzeFlow.AnalyzeSpeech(req, prompt)).analysisResult.None?
  {
    AnalyzeFlow.RehearsalRefused(BuildRequest(s).request, prompt);
  }

  /**
    With the shared enumeration every accepted request, rehearsals included,
    gets the model's answer whenever that answer is in range; Interview and
    Rehearsal requests are framed as an evaluation exactly when the ideal
    answer is non-empty.
   */
  lemma SharedFlowServesEveryMode(s: PageState, prompt: (AnalyzeRequest, bool) -> Option<AnalysisOutput>)
    requires BuildRequest(s).Accepted?
    ensures var req := BuildRequest(s).request;
            var out := prompt(req, AnalyzeFlow.IsAudio(req.speechSample));
            && (Analyze(s, r => AnalyzeFlow.AnalyzeSpeechShared(r, prompt)).analysisResult.Some? <==>
                  out.Some? && OutputCoreInRange(out.value))
            && (s.mode == Presentation ==> AnalyzeFlow.PromptFraming(req) == AnalyzeFlow.SpeechCoach)
            && (s.mode == Rehearsal ==> AnalyzeFlow.PromptFraming(req) == AnalyzeFlow.ExamEvaluator)
            && (s.mode == Interview ==>
                  (AnalyzeFlow.PromptFraming(req) == AnalyzeFlow.ExamEvaluator <==>
                   s.interview.activeQuestion.value.answer != ""))
  {
  }

  /**
    Whatever the model returns, a result the page stores from the flow is in
    range: percentages within 0..100, criterion scores within 0..10.
   */
  lemma StoredResultInRange(s: PageState, prompt: (AnalyzeRequest, bool) -> Option<AnalysisOutput>)
    requires BuildRequest(s).Accepted?
    ensures var r := Analyze(s, req => AnalyzeFlow.AnalyzeSpeech(req, prompt)).analysisResult;
            r.Some? ==> OutputCoreInRange(r.value)
  {
  }

  // ---------------------------------------------------------------------------
  // Live transcription across restarts

  /**
    Starting live transcription empties the accumulator, so the first result
    after a restart shows only that session's speech.
   */
  lemma RestartForgetsEarlierSpeech(i: InputState, ev: Transcription.RecognitionEvent)
    requires i.hasRecognizer && !i.isListening
    ensures OnResult(ToggleListening(i), ev).transcript
              == Transcription.FinalText(ev) + Transcription.InterimText(ev)
  {
  }

  // ---------------------------------------------------------------------------
  // A recording stopped by clearing comes back

  /**
    Switch to the live tab while recording: the switch clears the inputs and
    stops the recorder, but the recorder then delivers its data and its stop
    callback writes the recording back as the sample, next to an empty live
    transcript.
   */
  lemma ClearedRecordingReturns(s: PageState, data: string)
    requires InputShown(s) && s.input.hasRecognizer && s.input.recorder == Recording && s.input.inputTab != Live
    ensures var s1 := Step(s, ChangeTab(Live));
            var s2 := Step(s1, Chunk(data));
            var s3 := Step(s2, RecorderDone);
            && Available(s, ChangeTab(Live)) && Available(s1, Chunk(data)) && Available(s2, RecorderDone)
            && !TruthyOpt(s1.input.speechSample)
            && s3.input.speechSample == Some(DataUri(Blob("audio/webm", data)))
            && s3.input.transcript == "" && !LiveSynced(s3.input)
  {
    var i1 := TabChange(s.input, Live);
    assert i1.recorder == Finalizing && i1.audioChunks == [];
    var i2 := ChunkAvailable(i1, data);
    assert i2.audioChunks == [data] && i2.recorder == Finalizing && i2.transcript == "";
    assert Concat([data]) == data by { assert [data] == [] + [data]; }
    DataUriIsTruthy(Blob("audio/webm", data));
  }
}

=== FILE: speech_input.dfy ===
/**
  The stand-alone speech input (src/components/speech-input.tsx): the same
  three tabs, but the sample lives in the parent and is handed over through
  the `onSpeechSampleReady` callback. `sample` below is the value most
  recently handed over.
 */
module SpeechInput {

  import opened Basics
  import Transcription
  import Session

  datatype InputState = InputState(
    sample: Option<string>,     // the last value passed to onSpeechSampleReady
    currentTab: Tab,
    transcript: string,
    isListening: bool,
    isRecording: bool,
    audioUrl: Option<ObjectUrl>,
    audioBlob: Option<Blob>,
    hasRecognizer: bool,
    finalTranscript: string,    // the closure variable of the recognition set-up effect
    recorder: Session.Recorder,
    audioChunks: seq<string>)

  /**
    The forwarding effect on `[transcript, currentTab]`: on the live tab every
    new transcript is handed to the parent.
   */
  function Forward(before: InputState, after: InputState): (r: InputState)
    ensures r.transcript == after.transcript && r.currentTab == after.currentTab
    ensures r.sample == (if (after.transcript != before.transcript || after.currentTab != before.currentTab)
                            && after.currentTab == Live
                         then Some(after.transcript) else after.sample)
  {
    if (after.transcript != before.transcript || after.currentTab != before.currentTab) && after.currentTab == Live
    then after.(sample := Some(after.transcript))
    else after
  }

  /** The component after mounting, including the first run of the forwarding effect. */
  function Init(supported: bool): (s: InputState)
    ensures s.sample == Some("") && s.currentTab == Live && s.transcript == ""
  {
    InputState(Some(""), Live, "", false, false, None, None, supported, "", Session.NoRecorder, [])
  }

  // ---------------------------------------------------------------------------
  // Live transcription

  function OnResult(s: InputState, ev: Transcription.RecognitionEvent): (r: InputState)
    ensures r.finalTranscript == s.finalTranscript + Transcription.FinalText(ev)
    ensures r.transcript == r.finalTranscript + Transcription.InterimText(ev)
  {
    var l := Transcription.OnResult(Transcription.LiveText(s.finalTranscript, s.transcript), ev);
    Forward(s, s.(finalTranscript := l.accumulator, transcript := l.transcript))
  }

  /** `onerror`: listening ends and the code is reported, whatever it is. */
  function OnRecognitionError(s: InputState, code: string): (r: (InputState, Transcription.ErrorNotice))
    ensures r.0 == s.(isListening := false) && r.1 == Transcription.GenericNotice(code)
  {
    (s.(isListening := false), Transcription.GenericNotice(code))
  }

  /** `handleToggleListening`: a no-op without a recognizer, a flip otherwise; starting clears only the display. */
  function ToggleListening(s: InputState): (r: InputState)
    ensures !s.hasRecognizer ==> r == s
    ensures s.hasRecognizer ==> r.isListening == !s.isListening
    ensures s.hasRecognizer && !s.isListening ==> r.transcript == ""
    ensures r.finalTranscript == s.finalTranscript
  {
    if !s.hasRecognizer then s
    else if s.isListening then s.(isListening := false)
    else Forward(s, s.(transcript := "", isListening := true))
  }

  /** Typing into the transcript box (read-only while listening). */
  function EditTranscript(s: InputState, text: string): (r: InputState)
    ensures s.isListening ==> r == s
    ensures !s.isListening ==> r.transcript == text && r.currentTab == s.currentTab
    ensures !s.isListening && s.currentTab == Live && text != s.transcript ==> r.sample == Some(text)
    ensures s.currentTab != Live || text == s.transcript ==> r.sample == s.sample
  {
    if s.isListening then s else Forward(s, s.(transcript := text))
  }

  // ---------------------------------------------------------------------------
  // Recording and upload

  /**
    `handleAudioBlobReady`: a blob is handed over as its data URI, no blob as
    null; the URL follows the blob.
   */
  function AudioBlobReady(s: InputState, blob: Option<Blob>): (r: InputState)
    ensures r.audioBlob == blob
    ensures blob.None? ==> r.sample == None && r.audioUrl == None
    ensures blob.Some? ==> r.sample == Some(DataUri(blob.value)) && r.audioUrl == Some(ObjectUrl(blob.value))
    ensures r.transcript == s.transcript && r.currentTab == s.currentTab
  {
    if blob.Some? then s.(audioBlob := blob, sample := Some(DataUri(blob.value)), audioUrl := Some(ObjectUrl(blob.value)))
    else s.(audioBlob := None, sample := None, audioUrl := None)
  }

  function StartRecording(s: InputState, granted: bool): (r: InputState)
    ensures !granted ==> r == s
    ensures granted ==> r.recorder == Session.Recording && r.isRecording && r.audioChunks == []
    ensures r.audioBlob == s.audioBlob && r.transcript == s.transcript
  {
    if granted then s.(recorder := Session.Recording, audioChunks := [], isRecording := true) else s
  }

  function ChunkAvailable(s: InputState, chunk: string): (r: InputState)
    ensures s.recorder == Session.Recording || s.recorder == Session.Finalizing ==> r == s.(audioChunks := s.audioChunks + [chunk])
    ensures s.recorder != Session.Recording && s.recorder != Session.Finalizing ==> r == s
    ensures Concat(r.audioChunks) == Concat(s.audioChunks) + (if s.recorder == Session.Recording || s.recorder == Session.Finalizing then chunk else "")
  {
    ConcatAppend(s.audioChunks, chunk);
    if s.recorder == Session.Recording || s.recorder == Session.Finalizing
    then s.(audioChunks := s.audioChunks + [chunk]) else s
  }

  /** `stopRecording`: acts only when a recorder exists. */
  function StopRecording(s: InputState): (r: InputState)
    ensures s.recorder == Session.NoRecorder ==> r == s
    ensures s.recorder != Session.NoRecorder ==> !r.isRecording && r.recorder != Session.Recording
  {
    if s.recorder == Session.NoRecorder then s
    else s.(recorder := if s.recorder == Session.Recording then Session.Finalizing else s.recorder,
            isRecording := false)
  }

  /** The recorder's `onstop`: the chunks become a blob that is handed over. */
  function RecorderStopped(s: InputState): (r: InputState)
    ensures s.recorder == Session.Finalizing ==> r.sample == Some(DataUri(Blob("audio/webm", Concat(s.audioChunks))))
    ensures s.recorder != Session.Finalizing ==> r == s
  {
    if s.recorder == Session.Finalizing
    then AudioBlobReady(s.(recorder := Session.Inactive), Some(Blob("audio/webm", Concat(s.audioChunks))))
    else s
  }

  /** `clearAudio` */
  function ClearAudio(s: InputState): (r: InputState)
    ensures r.sample == None && r.audioBlob == None && r.audioUrl == None && r.audioChunks == []
    ensures s.isRecording && s.recorder != Session.NoRecorder ==> !r.isRecording && r.recorder != Session.Recording
    ensures r.transcript == s.transcript && r.currentTab == s.currentTab
  {
    var released := AudioBlobReady(s, None);
    var stopped := if s.isRecording then StopRecording(released) else released;
    stopped.(audioChunks := [])
  }

  /** `handleToggleRecording`: starting always clears the audio first. */
  function ToggleRecording(s: InputState, granted: bool): (r: InputState)
    ensures s.isRecording ==> r == StopRecording(s)
    ensures !s.isRecording ==> r.sample == None && r.audioBlob == None && r.isRecording == granted
  {
    if s.isRecording then StopRecording(s) else StartRecording(ClearAudio(s), granted)
  }

  /** `handleFileChange` */
  function AudioFileChosen(s: InputState, file: Option<Blob>): (r: InputState)
    ensures file.None? ==> r == s
    ensures file.Some? ==> r.sample == Some(DataUri(file.value)) && r.audioBlob == file
  {
    if file.None? then s else AudioBlobReady(ClearAudio(s), file)
  }

  /** `clearAll`, before the forwarding effect reacts. */
  function ClearAll(s: InputState): (r: InputState)
    ensures r.sample == None && r.transcript == "" && r.audioBlob == None && r.audioUrl == None
    ensures r.currentTab == s.currentTab
  {
    ClearAudio(s).(transcript := "", sample := None)
  }

  /** A tab change runs `clearAll` and then switches. */
  function TabChange(s: InputState, tab: Tab): (r: InputState)
    ensures r.currentTab == tab && r.transcript == "" && r.audioBlob == None && r.audioUrl == None
    ensures r.sample == (if tab == Live && (s.transcript != "" || s.currentTab != Live) then Some("") else None)
    ensures r.finalTranscript == s.finalTranscript
  {
    Forward(s, ClearAll(s).(currentTab := tab))
  }

  // ---------------------------------------------------------------------------
  // Laws

  /** On the live tab the parent holds the transcript, or nothing while it is empty. */
  predicate LiveForwarded(s: InputState)
  {
    s.currentTab == Live ==> s.sample == Some(s.transcript) || (s.sample == None && s.transcript == "")
  }

  /** The user-driven handlers that can run on the live tab keep the parent in step with the transcript. */
  lemma LiveHandlersKeepForwarding(s: InputState, ev: Transcription.RecognitionEvent, text: string, tab: Tab)
    requires LiveForwarded(s)
    ensures LiveForwarded(OnResult(s, ev))
    ensures LiveForwarded(ToggleListening(s))
    ensures LiveForwarded(EditTranscript(s, text))
    ensures LiveForwarded(TabChange(s, tab))
    ensures LiveForwarded(OnRecognitionError(s, text).0)
  {
  }

  /** After a tab change the parent holds no audio sample, on whatever tab. */
  lemma TabChangeDropsAudio(s: InputState, tab: Tab)
    ensures var r := TabChange(s, tab);
            && (r.sample == None || r.sample == Some(""))
            && r.audioBlob == None && r.audioUrl == None && r.transcript == ""
  {
  }

  /** Like the older client, a restart brings the previous session's final text back. */
  lemma StaleSpeechAfterRestart(s: InputState, ev: Transcription.RecognitionEvent)
    requires s.hasRecognizer && !s.isListening
    ensures OnResult(ToggleListening(s), ev).transcript
              == s.finalTranscript + Transcription.FinalText(ev) + Transcription.InterimText(ev)
  {
  }
}

=== FILE: transcription.dfy ===
/**
  Live transcription as a fold over speech-recognition result events: final
  texts are appended to an accumulator, interim texts are recomputed on every
  event, and the displayed transcript is the accumulator followed by the
  current interim text. Also the classification of recognition error codes.
 */
module Transcription {

  import opened Basics

  /** One recognition result; `transcript` is the text of its first alternative. */
  datatype RecognitionResult = RecognitionResult(isFinal: bool, transcript: string)

  /** A `result` event: the whole result list and the index of the first changed result. */
  datatype RecognitionEvent = RecognitionEvent(resultIndex: nat, results: seq<RecognitionResult>)

  /** The results the handler visits: `resultIndex` up to the end (none if it is past the end). */
  function Pending(ev: RecognitionEvent): seq<RecognitionResult>
  {
    if ev.resultIndex <= |ev.results| then ev.results[ev.resultIndex..] else []
  }

  /** In order, the transcripts of the results whose finality is `final`. */
  function Texts(rs: seq<RecognitionResult>, final: bool): seq<string>
  {
    if |rs| == 0 then []
    else Texts(rs[..|rs| - 1], final)
         + (if rs[|rs| - 1].isFinal == final then [rs[|rs| - 1].transcript] else [])
  }

  /** The final text an event contributes. */
  function FinalText(ev: RecognitionEvent): string
  {
    Concat(Texts(Pending(ev), true))
  }

  /** The interim text an event shows. */
  function InterimText(ev: RecognitionEvent): string
  {
    Concat(Texts(Pending(ev), false))
  }

  /** The fold's state: the final-text accumulator and the displayed transcript. */
  datatype LiveText = LiveText(accumulator: string, transcript: string)

  /** One `onresult` call, stated through the reference definitions above. */
  function OnResult(l: LiveText, ev: RecognitionEvent): LiveText
  {
    var acc := l.accumulator + FinalText(ev);
    LiveText(acc, acc + InterimText(ev))
  }

  /**
    The handler as the source writes it, one result at a time: final texts are
    appended to the accumulator in place and interim texts to a local string.
   */
  method HandleResult(accumulator: string, ev: RecognitionEvent) returns (acc: string, display: string)
    ensures acc == accumulator + FinalText(ev)
    ensures display == acc + InterimText(ev)
  {
    var interim := "";
    acc := accumulator;
    var rs := Pending(ev);
    var i := 0;
    while i < |rs|
      invariant 0 <= i <= |rs|
      invariant acc == accumulator + Concat(Texts(rs[..i], true))
      invariant interim == Concat(Texts(rs[..i], false))
    {
      var r := rs[i];
      TextsStep(rs, i, true);
      TextsStep(rs, i, false);
      if r.isFinal {
        assert acc + r.transcript == accumulator + (Concat(Texts(rs[..i], true)) + r.transcript);
        acc := acc + r.transcript;
      } else {
        interim := interim + r.transcript;
      }
      i := i + 1;
    }
    assert rs[..i] == rs;
    display := acc + interim;
  }

  lemma TextsSnoc(rs: seq<RecognitionResult>, r: RecognitionResult, final: bool)
    ensures Texts(rs + [r], final) == Texts(rs, final) + (if r.isFinal == final then [r.transcript] else [])
  {
    assert (rs + [r])[..|rs|] == rs;
  }

  lemma ConcatTextsSnoc(rs: seq<RecognitionResult>, r: RecognitionResult, final: bool)
    ensures r.isFinal == final ==> Concat(Texts(rs + [r], final)) == Concat(Texts(rs, final)) + r.transcript
    ensures r.isFinal != final ==> Concat(Texts(rs + [r], final)) == Concat(Texts(rs, final))
  {
    TextsSnoc(rs, r, final);
    if r.isFinal == final {
      ConcatAppend(Texts(rs, final), r.transcript);
    } else {
      assert Texts(rs + [r], final) == Texts(rs, final);
    }
  }

  /** One more result visited: its transcript joins the texts of its own finality. */
  lemma TextsStep(rs: seq<RecognitionResult>, i: nat, final: bool)
    requires i < |rs|
    ensures rs[i].isFinal == final ==> Concat(Texts(rs[..i + 1], final)) == Concat(Texts(rs[..i], final)) + rs[i].transcript
    ensures rs[i].isFinal != final ==> Concat(Texts(rs[..i + 1], final)) == Concat(Texts(rs[..i], final))
  {
    assert rs[..i + 1] == rs[..i] + [rs[i]];
    ConcatTextsSnoc(rs[..i], rs[i], final);
  }

  /** A sequence of result events folded from a starting state. */
  function RunEvents(l: LiveText, evs: seq<RecognitionEvent>): LiveText
  {
    if |evs| == 0 then l else OnResult(RunEvents(l, evs[..|evs| - 1]), evs[|evs| - 1])
  }

  /** The final texts of a sequence of events, in order. */
  function FinalTexts(evs: seq<RecognitionEvent>): seq<string>
  {
    if |evs| == 0 then [] else FinalTexts(evs[..|evs| - 1]) + [FinalText(evs[|evs| - 1])]
  }

  /** After any sequence of events the accumulator is the starting one followed by every event's final text. */
  lemma {:induction false} RunEventsAccumulates(l: LiveText, evs: seq<RecognitionEvent>)
    ensures RunEvents(l, evs).accumulator == l.accumulator + Concat(FinalTexts(evs))
  {
    if |evs| > 0 {
      var init := evs[..|evs| - 1];
      var last := evs[|evs| - 1];
      RunEventsAccumulates(l, init);
      var prev := RunEvents(l, init);
      var acc := RunEvents(l, evs).accumulator;
      assert acc == prev.accumulator + FinalText(last);
      ConcatAppend(FinalTexts(init), FinalText(last));
      assert Concat(FinalTexts(evs)) == Concat(FinalTexts(init)) + FinalText(last);
    }
  }

  /**
    The displayed transcript is the accumulator followed by the last event's
    interim text only: interim text of earlier events never survives.
   */
  lemma LastInterimOnly(l: LiveText, evs: seq<RecognitionEvent>)
    requires |evs| > 0
    ensures RunEvents(l, evs).transcript == RunEvents(l, evs).accumulator + InterimText(evs[|evs| - 1])
  {
  }

  /** The accumulator only grows: every earlier accumulator is a prefix of every later one. */
  lemma {:induction false} AccumulatorGrows(l: LiveText, evs: seq<RecognitionEvent>)
    ensures StartsWith(RunEvents(l, evs).accumulator, l.accumulator)
  {
    RunEventsAccumulates(l, evs);
    var acc := RunEvents(l, evs).accumulator;
    assert acc[..|l.accumulator|] == l.accumulator;
  }

  // ---------------------------------------------------------------------------
  // Recognition errors

  /** Errors that end listening silently. */
  const SilentErrors: set<string> := {"no-speech", "aborted", "network"}

  /** Errors that mean the microphone permission was refused. */
  const PermissionErrors: set<string> := {"not-allowed", "service-not-allowed"}

  /** What the user is told about a recognition error. */
  datatype ErrorNotice = NoNotice | PermissionNotice | GenericNotice(code: string)

  function ClassifyError(code: string): (n: ErrorNotice)
    ensures n == NoNotice <==> code in SilentErrors
    ensures n == PermissionNotice <==> code in PermissionErrors
    ensures n.GenericNotice? ==> n.code == code && code !in SilentErrors + PermissionErrors
  {
    if code in SilentErrors then NoNotice
    else if code in PermissionErrors then PermissionNotice
    else GenericNotice(code)
  }
}
